=== FILE: README.md ===
# linuxwacom-noudev decoders in Dafny

This project models the integer core of the linuxwacom X driver and its Linux 2.6.10 kernel module. It covers how Wacom tablet reports are decoded bit by bit, and the small state machines around that decoding:

- **Serial frames.** `xf86WcmSerialValidate` resynchronises a byte stream on the header bit. `serialParseProtocol5` decodes 9-byte Wacom-V frames into one of two channels. `serialParseProtocol4`, `serialParseCintiq`, `serialParseGraphire` and their shared tail `serialParseP4Common` decode 7-byte Wacom-IV frames. `serialInitTablet` recognises the model from its two-letter prefix, and the model init functions set the tablet parameters.
- **USB event accumulator.** `usbParseEvent` queues kernel input events until an end-of-record marker arrives. The marker is MSC_SERIAL, or SYN_REPORT once one has been seen. The accumulator then picks a channel, and `usbParseChannel` folds the queued group into that channel's record. `usbWcmInit` provides the product table, the pad keys and the button count.
- **Kernel report decoders.** These are the Intuos enter/exit, general, pad, position, rotation and puck fields (`wacom_intuos_inout`, `wacom_intuos_general`, `wacom_intuos_irq`), plus `wacom_pl_irq`, `wacom_penpartner_irq` and `wacom_ptu_irq`.
- **Read-buffer framing.** `xf86WcmReadPacket` hands whole packets to the parser and compacts the leftover bytes. `xf86WcmInitialToolSize` sets the device sizes and tool areas. The shared-descriptor reference count is kept by `xf86WcmDevOpen`, `xf86WcmDevClose` and `xf86WcmDevProc`.
- **X property handlers.** These are `wcmSetProperty` with its size, format and range checks and its `checkonly` discipline, together with `wcmFindProp`, `wcmSanityCheckProperty`, `wcmSetWheelOrStripProperty`, `wcmDeleteProperty` and `wcmDevSwitchModeCall`.

Bytes are integers in 0..255. The C shifts and masks are written as divisions and remainders by powers of two (`Bits.Field`, `Bits.Flag`), and small bit-vector lemmas tie them back to the masks. C `unsigned int` arithmetic is modelled modulo 2^32 (`Bits.U32`), and its conversion back to `int` as two's complement (`Bits.Int32`).

The driver's output is modelled as an append-only log of records:
- an `(channel, state)` emission stands in for `xf86WcmEvent`;
- in the kernel, a sequence of `Report`s stands in for `input_report_*` and `input_sync`.

Every call is a pure function of explicit state. That state is the channel table, the event queue, the byte buffer, the reference count or the property settings.

The driver header `xf86Wacom.h` is not part of this model. The constants and predicates it would define are written down in `consts.dfy` and `tool_ids.dfy`, and they are assumptions:

- **Header bits.**
  - HEADER_BIT 0x80, PROXIMITY_BIT 0x40, POINTER_BIT 0x20, BUTTONS_BITS 0x78.
  - ZAXIS_BITS 0x3f, ZAXIS_SIGN_BIT 0x40, ZAXIS_BIT 0x04.
  - TILT_BITS 0x3f, TILT_SIGN_BIT 0x40.
- **Tool ids and limits.**
  - STYLUS_ID 1, CURSOR_ID 2, ERASER_ID 4, PAD_ID 8, ERASER_PROX 4.
  - MAX_CHANNELS 2, an event queue of 32.
  - MAX_MOUSE_BUTTONS and WCM_MAX_MOUSE_BUTTONS 16, MAX_SAMPLES 20, FILTER_PRESSURE_RES 2048.
- **Action types.** AC_KEY 0x10000, AC_MODETOGGLE 0x20000, AC_DBLCLICK 0x30000, AC_DISPLAYTOGGLE 0x40000 and AC_BUTTON 0x80000. The action code is the low 16 bits and the type is bits 16..19.
- **Tool-class predicates.** MOUSE_4D, MOUSE_2D, LENS_CURSOR, CURSOR_TOOL and STYLUS_TOOL are defined from the kernel's tool-id table (src/2.6.10/wacom.c:568-615).
  - 4D mice are ids 0x094 and 0x09c, 2D mice 0x007 and 0x017, and lens cursors 0x096 and 0x097.
  - A cursor is any of those, and a stylus is any id that is not a cursor and that the table does not map to the rubber tool.

Linux input codes, X status codes (Success 0, BadValue 2, BadAtom 5, BadMatch 8, BadAccess 10), XA_ATOM 4, XA_INTEGER 19, the Relative/Absolute modes (0/1) and XI_BadMode 2 take their standard values.

The model follows the code as written at these points, some of which a reader might not expect:

- **Validator skip count** (src/xdrv/wcmSerial.c:1287-1306). On a bad frame the validator returns the index of the first later byte that carries a header bit. It returns the whole frame length only when byte 0 alone is wrong. It never returns 1 just because byte 0 lacks the header bit.
- **Proximity value** (src/xdrv/wcmSerial.c:779, 823, 839). A Wacom-V pen or mouse packet stores proximity as `data[0] & PROXIMITY_BIT`, so the value is 0 or 0x40, not 0 or 1. A prox-out frame changes only the proximity field.
- **Serial number of a Wacom-V enter frame** (src/xdrv/wcmSerial.c:717-722). The code takes two bits of byte 2, seven bits each of bytes 3..6 and two bits of byte 7, in that order from the top.
- **Wacom-IV pressure.** When the maximum pressure is not 255, the formula differs per dialect:
  - protocol 4 uses six bits plus 0x40 (src/xdrv/wcmSerial.c:673-675);
  - Cintiq and Graphire use the 9-bit formula (src/xdrv/wcmSerial.c:586-589, 635-638).
  - In the 9-bit formula, the byte-0 term `(d0 & ZAXIS_BIT) >> 6` is always 0, because ZAXIS_BIT is bit 2.
- **PL pressure** (src/2.6.10/wacom.c:206). `pressure << 1` of a negative value is modelled as multiplication by 2.
- **Ignored statuses in `wcmSetProperty`** (src/wcmXCommand.c:807-809). The statuses of `wcmSetPropertyButtonActions` and `wcmSetActionProperties` are dropped. A correctly sized button-action property is therefore always answered Success, and so is a property the driver does not own.
- **USB init status** (src/xdrv/wcmUSB.c:505, 531). `usbWcmInit` returns `FALSE` when the key query fails and `Success` otherwise. Both are 0, and the fields set before the failure are kept.
- **Dead check** (src/wcmXCommand.c:650). In the suppress check, `values[0] < 0` on an unsigned value can never hold.

## Model

| member | source | states |
|---|---|---|
| SerialFrame.Validate | src/xdrv/wcmSerial.c:1287-1306 | 0 iff byte 0 has the header bit and no later byte has it; otherwise the first later byte with the header bit, or the frame length when only byte 0 is wrong; so a bad frame always skips 1..length bytes |
| WacomV.RecordKindsDisjoint | src/xdrv/wcmSerial.c:710-827 | no header byte matches two record kinds of the Wacom-V parser, so the order of its tests is immaterial |
| WacomV.ParseProtocol5 | src/xdrv/wcmSerial.c:687-854 | a frame failing validation returns the skip count and changes nothing; a valid frame touches only channel `data[0] & 1`, is emitted when its kind calls for it, and returns the packet length |
| WacomV.ToolEnterFrame | src/xdrv/wcmSerial.c:710-741 | a tool-enter frame zeroes the channel's record, sets proximity 1, the 12-bit tool id and 32-bit serial from the frame, `discard_first` iff `(id & 0xf06) != 0x802`, and emits nothing |
| WacomV.ProxOutFrame | src/xdrv/wcmSerial.c:744-748 | a prox-out frame emits the previous record with proximity 0 |
| WacomV.UnknownFrame | src/xdrv/wcmSerial.c:843-853 | a frame of no known kind emits nothing, only clears its channel's relative wheel, and still consumes the packet length |
| WacomV.PositionBounds | src/xdrv/wcmSerial.c:752-834 | every position frame leaves X and Y below 65536, pen pressure and airbrush wheel below 1024 |
| WacomV.Rotation | src/xdrv/wcmSerial.c:835-838 | the 4D rotation is `-raw` below 900 and `1799 - raw` from 900 on, always within -899..899 |
| WacomV.Mouse4DFirstPacket | src/xdrv/wcmSerial.c:796-805 | a 4D-mouse first packet is emitted exactly when `discard_first` is clear |
| WacomV.Mouse4DSecondPacket | src/xdrv/wcmSerial.c:827-842 | the 4D-mouse second packet is emitted and clears `discard_first` |
| WacomV.IdAndSerialRoundTrip | src/xdrv/wcmSerial.c:716-723 | the id and serial extraction inverts the frame encoding of any 12-bit id and 32-bit serial |
| WacomV.EnterRoundTrip | src/xdrv/wcmSerial.c:710-741 | parsing an encoded tool-enter frame leaves exactly the encoded id and serial in the chosen channel |
| WacomV.PenRoundTrip | src/xdrv/wcmSerial.c:752-781 | parsing an encoded pen frame emits exactly the encoded position, pressure, switches and tilt |
| WacomIV.ParseIV | src/xdrv/wcmSerial.c:570-685 | a frame failing validation changes nothing; otherwise channel 0's record is rebuilt, emitted, and the packet length returned |
| WacomIV.PositionBounds | src/xdrv/wcmSerial.c:1233-1235 | a validated Wacom-IV frame yields a 16-bit X and Y |
| WacomIV.ClassLatched | src/xdrv/wcmSerial.c:1248-1274 | the tool class is latched on entering proximity; the only later change is away from the eraser with buttons down, preceded by exactly one all-zero prox-out; an eraser record has no buttons and the eraser device id |
| WacomIV.Pressure255RoundTrip | src/xdrv/wcmSerial.c:668-671 | with maximum 255, an encoded stylus frame decodes to its position and to its pressure magnitude raised by 0x80 when the sign bit is clear |
| SerialInit.Detect | src/xdrv/wcmSerial.c:534-564 | characters 2 and 3 select Intuos, Intuos2, Cintiq (PL or DT), PenPartner, Graphire or protocol 4, with tablet ids 0x20, 0x40, 0x30, 0x00, 0x10, 0x03 |
| SerialInit.CutVersion | src/xdrv/wcmSerial.c:526-528 | the answer is cut at the first '-' after the last 'V' |
| SerialInit.DetectRoundTrip | src/xdrv/wcmSerial.c:534-564 | an answer built with a model's two characters detects that model and its tablet id, and the tablet id alone identifies the detected model |
| SerialInit.Init | src/xdrv/wcmSerial.c:860-995 | protocol level and packet length per model; Intuos 1023 levels at 2540 dpi with tilt; Cintiq 2540 dpi for a PL-710 else 508, pressure from its name; PenPartner 255 at 1000; Graphire 5103x3711, 511 at 1016; protocol 4 keeps a preset maximum, else 255 or 120 by ROM version |
| SerialInit.PressureWithinMax | src/xdrv/wcmSerial.c:884-995 | with a ROM of version 1.2 or later, every pressure the chosen decoder produces lies within the maximum the model init chose |
| SerialInit.OldRomPressureAboveMax | src/xdrv/wcmSerial.c:987-993 | with an older protocol-4 ROM and no configured maximum the maximum is 120, yet the frame with pressure bits 0x3f decodes to 127 |
| ToolIds.IntuosTool | src/2.6.10/wacom.c:568-615 | the listed ids map to pencil, pen, brush, mouse, lens, rubber or airbrush; every other id maps to the pen |
| ToolIds.GroupsDisjoint | src/2.6.10/wacom.c:568-615 | no id is listed under two tools |
| UsbEvents.Allocate | src/xdrv/wcmUSB.c:757-812 | protocol 4: channel 1 iff serial 0xF0, claimed when out of proximity; protocol 5: the first in-proximity channel with the serial, else the first free channel zeroed with proximity 1, else none |
| UsbEvents.ParseEvent | src/xdrv/wcmUSB.c:698-817 | a full queue drops the event and resets count and serial; non-markers are only queued; MSC_SERIAL records the serial and in SYN mode does nothing more; SYN_REPORT switches to SYN mode for good; a delivering marker with a channel hands the queued group plus the marker to `ParseChannel` on that channel and empties the queue; with no channel the group stays queued and the tablet is unchanged |
| UsbEvents.QueueAccumulates | src/xdrv/wcmUSB.c:710-722 | a run of non-marker events that fits is appended to the queue in order |
| UsbEvents.GroupDelivered | src/xdrv/wcmUSB.c:698-970 | in SYN mode, a group followed by SYN_REPORT leaves an empty queue, stores the group's serial, and each field of the chosen channel holds the last value the group wrote to it, or its earlier value |
| UsbEvents.QueuedEventsAreSilent | src/xdrv/wcmUSB.c:722-755 | any run of non-marker events leaves the channels, the log and the marker mode untouched |
| UsbEvents.ParseChannel | src/xdrv/wcmUSB.c:819-970 | only the chosen channel changes; its record is the fold of the group's events over the old record with the wheel cleared and the group's serial; without SYN mode a zero id or serial forces proximity 0; eraser records on tablet 0xC0 are not emitted, all others are |
| UsbEvents.ApplyWrites | src/xdrv/wcmUSB.c:847-923 | one event changes a field exactly as its kind says (tilt minus 64, REL_WHEEL negated, tool keys set class and proximity) and leaves the rest |
| UsbEvents.ApplyButtons | src/xdrv/wcmUSB.c:928-951 | a button event sets or clears exactly one bit of `buttons`; pad key k drives bit MAX_MOUSE_BUTTONS/2 + k |
| UsbEvents.FoldLastWriter | src/xdrv/wcmUSB.c:840-954 | after a group every field holds what the last event writing it wrote, or its old value |
| UsbEvents.FoldButtonLastWriter | src/xdrv/wcmUSB.c:840-954 | the same last-writer rule for each button bit |
| UsbEvents.FoldKeepsSerial | src/xdrv/wcmUSB.c:834-837 | no event of a group changes the serial stored before the fold |
| UsbEvents.NoWheelEventMeansZero | src/xdrv/wcmUSB.c:834-882 | without a REL_WHEEL event the relative wheel reads 0 |
| UsbInit.Init | src/xdrv/wcmUSB.c:466-531 | the status is 0 either way; a Wacom vendor id takes the product id and the last matching table row; with no match a model already set is kept, otherwise the tablet is unknown at 1016 points per inch; a failed key query keeps the pad keys, button count and tilt; a successful one sets them from the answer, the pad keys being the declared table codes in table order |
| UsbInit.KnownProducts | src/xdrv/wcmUSB.c:402-464 | from no prior model, exactly the table's product ids are recognised |
| UsbInit.PadKeysDriveDistinctBits | src/xdrv/wcmUSB.c:946-951 | two distinct pad keys among the first 23 of the table drive distinct button bits, within bits 8..30, clear of the mouse buttons and the sign bit |
| UsbInit.PadKeysReachBit34 | src/xdrv/wcmUSB.c:387-394 | a tablet declaring every pad code has 27 pad keys, and the last one drives bit 34 |
| KernelIntuos.InOut | src/2.6.10/wacom.c:549-648 | handled iff the header is enter or exit; enter stores the 12-bit id, 32-bit serial and tool of slot `data[1] & 1` and reports nothing; exit reports zeroes, releases the stored tool and its serial |
| KernelIntuos.ExitReports | src/2.6.10/wacom.c:620-646 | an exit reports only released keys and zero axes and ends by releasing the tool, zeroing the id and sending the serial |
| KernelIntuos.EnterRoundTrip | src/2.6.10/wacom.c:557-567 | an enter report built from any slot, 12-bit id and 32-bit serial stores exactly that id and serial |
| KernelIntuos.General | src/2.6.10/wacom.c:650-680 | pen packet: 10-bit pressure, touch iff pressure > 10, 7-bit tilts, side switches; airbrush second packet: 10-bit wheel and tilts; otherwise nothing |
| KernelIntuos.Position | src/2.6.10/wacom.c:759-770 | from INTUOS3S on, X and Y are the 17-bit values of bytes 2-3 and 4-5 with the low bit from byte 9, and distance is bits 2..7 of byte 9; before, big-endian 16-bit X and Y and bits 3..7 of byte 9 |
| KernelIntuos.MarkerRotation | src/2.6.10/wacom.c:783-786 | the unsigned marker-pen formula, read back as a signed value, lies in -900..899 and equals the signed formula |
| KernelIntuos.Rotation4D | src/2.6.10/wacom.c:791-793 | corrected 4D rotation: within ±1023, `(t-1)/2` when flagged, `-(t/2)` otherwise |
| KernelIntuos.Rotation4DAgreement | src/2.6.10/wacom.c:791-793 | the code as written agrees with the corrected rotation exactly when flagged or when t < 2 |
| KernelIntuos.Rotation4DCounterexample | src/2.6.10/wacom.c:791-793 | bytes 0, 0x40 report 0x7FFFFFFF as written where -1 is meant |
| KernelIntuos.SideButtonGuards | src/2.6.10/wacom.c:817-822 | the written guard never holds; the corrected one holds exactly for the three Intuos3 types |
| KernelIntuos.Throttle | src/2.6.10/wacom.c:805-806 | the throttle is minus the 10-bit magnitude when bit 3 of byte 8 is set, the magnitude itself otherwise, so within -1023..1023 |
| KernelIntuos.PuckReports | src/2.6.10/wacom.c:776-833 | as written: a rotation packet reports the marker-pen ABS_Z from INTUOS3S on, else ABS_RZ with the unsigned negation; a 4D packet its five buttons and throttle; a 2D-mouse packet three buttons and the wheel, never the side buttons; a lens packet five buttons; anything else nothing |
| KernelIntuos.PuckReportsIntended | src/2.6.10/wacom.c:776-833 | corrected: the 4D rotation is signed and the Intuos3 2D mouse adds its two side buttons; every other packet reports exactly as written |
| KernelIntuos.PuckReportsDiffer | src/2.6.10/wacom.c:791-822 | the corrected and as-written puck reports differ exactly on a 4D rotation with the flag clear and t ≥ 2, or on an Intuos3 2D-mouse packet |
| KernelIntuos.PadStep | src/2.6.10/wacom.c:717-744 | a pad report sets tool 1 to the finger, reports BTN_0..BTN_9 from their fixed bits, two 13-bit strips, the pad key, the pad id and serial 0xffffffff |
| KernelIntuos.PadProximity | src/2.6.10/wacom.c:736-740 | the pad is reported in proximity iff some listed bit is set |
| KernelIntuos.Irq | src/2.6.10/wacom.c:706-838 | unknown reports are ignored; pad reports go to the pad; enter/exit to InOut; only enter changes the stored tool; any other packet reports nothing iff it is a lens on INTUOS3/INTUOS3S or a Cintiq packet without the ready bit, and otherwise reports position, general fields, the as-written puck fields, then id, tool, serial and sync |
| KernelIntuos.IrqIntended | src/2.6.10/wacom.c:706-838 | the corrected handler keeps the state and the drop rule of the as-written one and differs only by using the corrected puck reports |
| KernelIntuos.IrqDiffer | src/2.6.10/wacom.c:776-838 | the corrected and as-written handlers differ exactly on a delivered motion packet whose puck reports differ |
| KernelIntuos.PenRoundTrip | src/2.6.10/wacom.c:747-838 | a pen packet built from any in-range sample is dropped only for a lens on INTUOS3/INTUOS3S; otherwise it reports exactly the sample's X, Y, distance, pressure, tilts, switches and touch iff pressure > 10, then id, tool, serial and sync |
| KernelPen.PlCoordinate | src/2.6.10/wacom.c:240-241 | a PL coordinate is below 65536 and is the plain sum of its three parts when the low bytes are 7-bit |
| KernelPen.PlPressureUnsigned | src/2.6.10/wacom.c:204-207 | for maxima 255 and 511 the pressure lies in 0..max and is the raw value re-centred by half the range |
| KernelPen.PlIrq | src/2.6.10/wacom.c:192-260 | report 2 only; out of proximity releases the tool; entering chooses rubber or pen by 0x10/0x20; releasing 0x20 on the rubber only reports its release; in proximity the nine reports are tool, id, X, Y, pressure, touch, side switch, second switch (pen only) and sync |
| KernelPen.PlReleasesTheToolItEntered | src/2.6.10/wacom.c:215-257 | after an entering report, a prox-out report releases the same tool that was entered |
| KernelPen.PenPartnerIrq | src/2.6.10/wacom.c:349-384 | report 1: tool by 0x20, little-endian X and Y, pressure `(signed char)d6 + 127`, touch iff > -127, side switch 0x40; leaving releases; report 2: pen, X, Y, pressure, touch iff > -80 and 0x20 clear, side switch |
| KernelPen.PenPartnerRoundTrip | src/2.6.10/wacom.c:349-380 | a report 1 or 2 built from any sample is reported back: position, pressure, touch threshold and side switch, with the tool remembered on report 1 |
| KernelPen.PenPartnerReleasesTheToolItEntered | src/2.6.10/wacom.c:352-367 | a report-1 exit releases the tool the preceding entry reported |
| KernelPen.PtuIrq | src/2.6.10/wacom.c:292-318 | report 2: eraser or pen by 0x04 with its touch bit, little-endian X, Y and pressure, side switches |
| KernelPen.PtuRoundTrip | src/2.6.10/wacom.c:292-318 | a PTU report built from any sample is reported back exactly: tool and proximity, touch, id, X, Y, pressure and both switches |
| ReadBuffer.DrainCalls | src/xdrv/xf86Wacom.c:892-905 | the parser is called only with a whole packet left, at strictly increasing offsets from 0; the loop ends at a non-positive return or with less than a packet left |
| ReadBuffer.Compact | src/xdrv/xf86Wacom.c:907-923 | nothing parsed leaves the buffer; everything parsed empties it; otherwise the unparsed tail moves to the front |
| ReadBuffer.ReadInto | src/xdrv/xf86Wacom.c:863-888 | a read appends what is available up to the free space; the buffer never exceeds its size |
| ReadBuffer.ReadPacket | src/xdrv/xf86Wacom.c:854-924 | a read of nothing (error, end of file, or full buffer) fails and leaves the buffer; otherwise the result is the parse loop followed by compaction |
| ToolSize.InitialToolSize | src/xdrv/xf86Wacom.c:471-514 | touch or tablet maxima, swapped under CW/CCW; every zero bottom edge of every area takes the maximum, nothing else changes |
| ToolSize.FillIdempotent | src/xdrv/xf86Wacom.c:502-511 | with non-zero maxima, filling an area a second time changes nothing |
| ToolSize.NoUnsetEdges | src/xdrv/xf86Wacom.c:471-514 | with non-zero maxima, no area is left with an unset bottom edge |
| Devices.DevOpen | src/xdrv/xf86Wacom.c:772-822 | an open device is a no-op; the first open sets the count to 1; each sharing device increments it; reference consistency is preserved |
| Devices.DevClose | src/xdrv/xf86Wacom.c:938-954 | a holder lets go and decrements the count; the node closes only when it reaches 0 |
| Devices.DevProc | src/xdrv/xf86Wacom.c:961-1025 | OFF and CLOSE release the fd and set `on` false and the open count 0; an unknown request fails and changes nothing; INIT/ON succeed iff the open does |
| Devices.ShutDown | src/xdrv/xf86Wacom.c:872-884 | switching off every holder after a failed read leaves no holder and the node closed |
| Devices.LastCloseClosesNode | src/xdrv/xf86Wacom.c:945-953 | a close shuts the node iff the device was the last holder |
| Devices.OnThenOffRestoresShared | src/xdrv/xf86Wacom.c:995-1015 | switching a device on and then off restores the shared count and node state |
| XProperties.FindProp | src/wcmXCommand.c:232-245 | the index of the first match, or -BadAtom iff the atom is absent |
| XProperties.SanityCheck | src/wcmXCommand.c:247-279 | BadMatch iff size ≥ 255, format ≠ 32 or type ≠ INTEGER; otherwise Success iff every item is a key, display or mode toggle, or a button up to the maximum |
| XProperties.WheelOrStrip | src/wcmXCommand.c:445-499 | size ≠ 4 BadValue; 8-bit: accepted iff no value exceeds the maximum button; 32-bit: accepted iff the references check out; other formats BadMatch; stored only when not checking |
| XProperties.SetTabletArea | src/wcmXCommand.c:599-621 | accepted iff four 32-bit items; all -1 stores (0, 0, maxX, maxY) in the device, anything else verbatim; nothing else changes |
| XProperties.SetPressureCurve | src/wcmXCommand.c:622-640 | accepted iff four 32-bit items the validator accepts, on a pen or eraser |
| XProperties.SetSuppress | src/wcmXCommand.c:641-660 | accepted iff two 32-bit items with suppress ≤ 100 and raw sample in 1..MAX_SAMPLES |
| XProperties.SetRotation | src/wcmXCommand.c:661-674 | accepted iff one 8-bit item ≤ 3 |
| XProperties.SetCursorProx | src/wcmXCommand.c:682-698 | accepted iff one 32-bit item on a cursor not above the maximum distance |
| XProperties.SetCapacity | src/wcmXCommand.c:699-713 | accepted iff one signed 32-bit item in -1..5 |
| XProperties.SetThreshold | src/wcmXCommand.c:714-727 | accepted iff one 32-bit item in 1..FILTER_PRESSURE_RES |
| XProperties.SetTouch | src/wcmXCommand.c:728-739 | accepted iff one 8-bit item 0 or 1 |
| XProperties.SetGesture | src/wcmXCommand.c:740-751 | accepted iff one 8-bit item 0 or 1 |
| XProperties.SetGestureParam | src/wcmXCommand.c:752-769 | accepted iff three 32-bit items |
| XProperties.SetHover | src/wcmXCommand.c:770-784 | BadValue unless a 0/1 switch, then BadMatch unless a stylus; the button mode becomes the negation |
| XProperties.SetButtonActions | src/wcmXCommand.c:803-807 | BadMatch iff not exactly WCM_MAX_MOUSE_BUTTONS items, else Success; the list is replaced by the new atoms exactly when they are 32-bit atoms whose references check out and the call is not a check, and is otherwise left alone |
| XProperties.SetProperty | src/wcmXCommand.c:590-812 | each driver atom goes to its own handler, the first matching atom in comparison order winning (tablet area, pressure curve, suppress, rotation, serials, strip, wheel, cursor proximity, capacity, threshold, touch, gesture, gesture parameters, hover, button actions); serials are read-only (BadValue); an atom the driver does not own answers Success and changes nothing; a check or a rejection never changes state |
| XProperties.SetWheel | src/wcmXCommand.c:502-518 | accepted iff four 8-bit button numbers none above the maximum, or four 32-bit references that check out; only the wheel fields and the wheel handler list can change |
| XProperties.SetStrip | src/wcmXCommand.c:522-538 | the same acceptance; only the strip fields and the strip handler list can change |
| XProperties.CheckPredictsApply | src/wcmXCommand.c:590-812 | asking with `checkonly` gives the same status as applying |
| XProperties.DeleteProperty | src/wcmXCommand.c:573-588 | BadAccess iff the atom is in the button, wheel or strip action lists, Success otherwise |
| XProperties.SwitchMode | src/wcmXCommand.c:32-53 | a pad accepts only Absolute and keeps its mode; other devices end in Absolute or Relative as asked; any other mode is XI_BadMode and changes nothing |
| XProperties.SwitchModeIdempotent | src/wcmXCommand.c:32-53 | asking for the same mode a second time changes nothing further and answers the same status |

## Findings

| source | as written | input that shows it | evidently intended | confidence | as-written member | corrected member |
|---|---|---|---|---|---|---|
| src/2.6.10/wacom.c:818 | `type <= INTUOS3S && type >= INTUOS3L` with INTUOS3S = 6 < INTUOS3L = 8, so the condition is never true | any Intuos3 2D-mouse packet: BTN_SIDE and BTN_EXTRA are never reported | `type >= INTUOS3S && type <= INTUOS3L` | not executed | KernelIntuos.Irq | KernelIntuos.IrqIntended |
| src/2.6.10/wacom.c:791-793 | `-t / 2` with `unsigned int t` (line 687) negates modulo 2^32 before dividing | data[6] = 0, data[7] = 0x40: t = 2, reported ABS_RZ 0x7FFFFFFF | -1, the negated half of t | not executed | KernelIntuos.PuckReports | KernelIntuos.PuckReportsIntended |

The handler as written is `KernelIntuos.Irq`, built on `KernelIntuos.PuckReports`, `Rotation4DAsWritten` and `SideButtonsAsWritten`. The corrected handler is `KernelIntuos.IrqIntended`, built on `PuckReportsIntended`, `Rotation4D` and `SideButtons`.
- `KernelIntuos.SideButtonGuards` shows that the written guard never holds. `KernelIntuos.Rotation4DCounterexample` shows the bytes that report 0x7FFFFFFF.
- `KernelIntuos.PuckReportsDiffer` and `KernelIntuos.IrqDiffer` state exactly which packets the two handlers report differently.
- `KernelIntuos.Rotation4DAgreement` proves the corrected rotation; `SideButtonGuards` proves the corrected guard.

## Left out

- The serial transport is not modelled: writes, waits, requests, resets, link speed, start-up, and the sscanf parsing of resolution and range replies.
- The ROM version float is not modelled. Its comparison with 1.2 is a boolean parameter of `SerialInit.Init`.
- The kernel USB plumbing is not modelled: URB status handling, submit and kill, probe, open, close and disconnect. Model limits are inputs.
- `wacom_graphire_irq` is not modelled, including its mouse-wheel branch. Its braces are unbalanced, so its intended behaviour cannot be read off.
- The kernel's own suppression of repeated input values is not modelled. Reports are logged exactly as the decoder issues them.
- Floating-point code is not modelled: area keep-shape, coordinate scaling and conversion.
- X server glue is left opaque: device registration, valuator setup, keymaps, auto-probing, atom creation, and `XIGetDeviceProperty`/`XIChangeDeviceProperty`. The atoms whose properties are valid and retrievable are a parameter (`XProperties.Env.known`). So is the pressure-curve validator, whose source is not part of this model.
- The key-action tables are not modelled: `wcmUpdateButtonKeyActions` and the action-property refresh of `wcmSetActionProperties`. Their statuses do not reach the caller.
- The other effects of `wcmRotateTablet` and `wcmSetPressureCurve` are not modelled. The model records only the new rotation value and the new curve.
- The debug-level property is compiled only in DEBUG builds and is not modelled.
- `wcmInitKeyClassCount` has no effect on the reference count and is not modelled.
- `DEVICE_INIT`/`DEVICE_ON` registration failure is a parameter of `Devices.Env`.
- UsbInit.Init: the key bitmap is read as exact membership. `BIT(x)` at src/xdrv/wcmUSB.c:377 shifts an `int` 1 by `x & (BITS_PER_LONG - 1)`; with 64-bit longs that count is 38..58 for 17 of the 27 pad codes (BTN_A, BTN_B, BTN_C, BTN_X, BTN_Y, BTN_Z, BTN_BASE..BTN_BASE6 and BTN_TL..BTN_SELECT), which C leaves undefined. The model matches the code only where `long` is 32 bits.
- PadKeysDriveDistinctBits: covers only the first 23 pad codes. Pad code k drives bit 8 + k, so the last four of the 27 codes drive bits 31..34 of a C `int` shift: the sign bit, then undefined behaviour. The model's `buttons` is unbounded and does not reproduce that; `UsbInit.PadKeysReachBit34` shows that a tablet declaring every code reaches bit 34.
- PressureWithinMax: covers only a ROM of version 1.2 or later. With an older protocol-4 ROM and no configured maximum, the maximum is 120 while the decoder reaches 127 (`SerialInit.OldRomPressureAboveMax`).
- SetTabletArea: the write-back of (0, 0, maxX, maxY) into the property's own data for an all -1 value is not modelled. The model keeps only the device's area.
- `WacomIV.Pressure255RoundTrip` covers only tablets whose maximum pressure is 255. The other formulas are covered by `SerialInit.PressureWithinMax` and their bounds.
- `KernelPen.PlReleasesTheToolItEntered` assumes the entering report is not an eraser release.
- XProperties.SetButtonActions: the BadMatch and reference statuses the inner handler computes (src/wcmXCommand.c:401-418) never reach the caller, so the model shows them only through whether the list is stored.

=== FILE: bits.dfy ===
/**
 * Integer views of the C bit manipulations used by the tablet decoders.
 *
 * Bytes are integers in 0..255 (the `unsigned char` of the wire buffers);
 * every mask-and-shift of the source is written as division and remainder
 * by a power of two, and the lemmas in this module and in the decoders
 * prove that each such arithmetic form equals the C expression evaluated
 * on an 8-bit vector.
 */
module Bits {

  /** An `unsigned char` of a wire buffer. */
  type byte = x: int | 0 <= x < 256

  const TWO31: int := 0x8000_0000
  const TWO32: int := 0x1_0000_0000

  /** A value of a 32-bit unsigned C variable (`__u32`, `CARD32`). */
  type u32 = x: int | 0 <= x < TWO32

  /** True when bit `k` of `x` is set (`x & (1 << k)` is non-zero). */
  predicate BitSet(x: nat, k: nat)
    decreases k
  {
    if k == 0 then x % 2 == 1 else BitSet(x / 2, k - 1)
  }

  /**
   * `x | (1 << k)` when `on`, `x & ~(1 << k)` otherwise, on an unbounded
   * bit mask.
   */
  function SetBit(x: nat, k: nat, on: bool): nat
    decreases k
  {
    if k == 0 then (x / 2) * 2 + (if on then 1 else 0)
    else SetBit(x / 2, k - 1, on) * 2 + x % 2
  }

  /** Setting or clearing bit `k` changes bit `k` and no other bit. */
  lemma {:induction false} SetBitOnlyTouchesBitK(x: nat, k: nat, on: bool, j: nat)
    ensures BitSet(SetBit(x, k, on), j) == (if j == k then on else BitSet(x, j))
    decreases k
  {
    if k == 0 {
      if j > 0 {
        assert SetBit(x, k, on) / 2 == x / 2;
      }
    } else {
      var s := SetBit(x / 2, k - 1, on);
      assert SetBit(x, k, on) == s * 2 + x % 2;
      if j > 0 {
        assert (s * 2 + x % 2) / 2 == s;
        SetBitOnlyTouchesBitK(x / 2, k - 1, on, j - 1);
      }
    }
  }

  /** `a | b` on unbounded bit masks. */
  function BitOr(a: nat, b: nat): nat
    decreases a + b
  {
    if a == 0 then b
    else if b == 0 then a
    else BitOr(a / 2, b / 2) * 2 + (if a % 2 == 1 || b % 2 == 1 then 1 else 0)
  }

  /** A bit of `a | b` is set exactly when it is set in `a` or in `b`. */
  lemma {:induction false} BitOrBits(a: nat, b: nat, k: nat)
    ensures BitSet(BitOr(a, b), k) == (BitSet(a, k) || BitSet(b, k))
    decreases a + b
  {
    if a == 0 {
      ZeroHasNoBits(k);
    } else if b == 0 {
      ZeroHasNoBits(k);
    } else {
      var s := BitOr(a / 2, b / 2);
      assert BitOr(a, b) == s * 2 + (if a % 2 == 1 || b % 2 == 1 then 1 else 0);
      if k > 0 {
        assert BitOr(a, b) / 2 == s;
        BitOrBits(a / 2, b / 2, k - 1);
      }
    }
  }

  lemma {:induction false} ZeroHasNoBits(k: nat)
    ensures !BitSet(0, k)
    decreases k
  {
    if k > 0 {
      ZeroHasNoBits(k - 1);
    }
  }

  /** `a | b` stays below a power of two that bounds both operands. */
  lemma {:induction false} BitOrBound(a: nat, b: nat, n: nat)
    requires a < Pow2(n) && b < Pow2(n)
    ensures BitOr(a, b) < Pow2(n)
    decreases a + b
  {
    if a != 0 && b != 0 {
      assert n > 0;
      assert Pow2(n) == 2 * Pow2(n - 1);
      BitOrBound(a / 2, b / 2, n - 1);
    }
  }

  /** OR-ing in a value shifted above all bits of `a` is addition. */
  lemma {:induction false} BitOrDisjoint(a: nat, b: nat, n: nat)
    requires a < Pow2(n)
    ensures BitOr(a, b * Pow2(n)) == a + b * Pow2(n)
  {
    if n == 0 {
      assert a == 0;
    } else if a != 0 && b != 0 {
      assert Pow2(n) == 2 * Pow2(n - 1);
      var hi := b * Pow2(n - 1);
      assert b * Pow2(n) == hi * 2;
      assert (b * Pow2(n)) / 2 == hi && (b * Pow2(n)) % 2 == 0;
      BitOrDisjoint(a / 2, b, n - 1);
    }
  }

  /** The two's-complement reading of a byte (`(signed char)b`). */
  function SignedChar(b: byte): (r: int)
    ensures -128 <= r < 128
    ensures r % 256 == b
  {
    if b >= 128 then b - 256 else b
  }

  /** Reduction of an integer to an `unsigned int` (wrap modulo 2^32). */
  function U32(x: int): (r: u32)
    ensures (r - x) % TWO32 == 0
  {
    x % TWO32
  }

  /** The two's-complement reading of a 32-bit word (`(int)w`, `INT32`). */
  function Int32(w: u32): (r: int)
    ensures -TWO31 <= r < TWO31
    ensures U32(r) == w
  {
    if w >= TWO31 then w - TWO32 else w
  }

  /** A value that fits in 32 signed bits survives the trip through an unsigned word. */
  lemma Int32OfU32(x: int)
    requires -TWO31 <= x < TWO31
    ensures Int32(U32(x)) == x
  {
  }

  /** C's `/` on `int`: the quotient truncated toward zero. */
  function CDiv(a: int, b: int): (q: int)
    requires b != 0
    ensures a >= 0 && b > 0 ==> q == a / b
    ensures b > 0 && a < 0 ==> q == -((-a) / b)
  {
    if (a >= 0) == (b > 0) then
      (if a >= 0 then a / b else (-a) / (-b))
    else
      -((if a >= 0 then a else -a) / (if b > 0 then b else -b))
  }

  /** Little-endian 16-bit word of two bytes (`le16_to_cpu`). */
  function Le16(lo: byte, hi: byte): (r: nat)
    ensures r < 0x1_0000
    ensures r % 256 == lo && r / 256 == hi
  {
    hi * 256 + lo
  }

  /** Big-endian 16-bit word of two bytes (`be16_to_cpu`). */
  function Be16(hi: byte, lo: byte): (r: nat)
    ensures r < 0x1_0000
    ensures r % 256 == lo && r / 256 == hi
  {
    hi * 256 + lo
  }

  /** The header (sync) bit of a serial byte: `b & 0x80`. */
  predicate HeaderBit(b: byte) {
    b >= 128
  }

  lemma HeaderBitIsMask(b: bv8)
    ensures HeaderBit(b as int) <==> (b & 0x80) != 0
  {
  }

  function Pow2(n: nat): (r: nat)
    ensures r >= 1
  {
    if n == 0 then 1 else 2 * Pow2(n - 1)
  }

  /**
   * The `width` bits of `b` starting at bit `lo`: the C expression
   * `(b & (((1 << width) - 1) << lo)) >> lo`. The lemmas below state this
   * on 8-bit vectors for every position the decoders use.
   */
  function Field(b: byte, lo: nat, width: nat): (r: nat)
    requires lo + width <= 8
    ensures r < Pow2(width)
  {
    (b / Pow2(lo)) % Pow2(width)
  }

  /** A single flag bit of a byte. */
  predicate Flag(b: byte, k: nat)
    requires k < 8
  {
    Field(b, k, 1) == 1
  }

  lemma Field01IsMask(b: bv8)
    ensures Field(b as int, 0, 1) == (b & 0x01) as int
  {
    assert Pow2(0) == 1 && Pow2(1) == 2;
    assert Field(b as int, 0, 1) == (b as int / 1) % 2;
  }

  lemma Field11IsMask(b: bv8)
    ensures Field(b as int, 1, 1) == ((b & 0x02) >> 1) as int
  {
    assert Pow2(1) == 2 && Pow2(1) == 2;
    assert Field(b as int, 1, 1) == (b as int / 2) % 2;
  }

  lemma Field21IsMask(b: bv8)
    ensures Field(b as int, 2, 1) == ((b & 0x04) >> 2) as int
  {
    assert Pow2(2) == 4 && Pow2(1) == 2;
    assert Field(b as int, 2, 1) == (b as int / 4) % 2;
  }

  lemma Field31IsMask(b: bv8)
    ensures Field(b as int, 3, 1) == ((b & 0x08) >> 3) as int
  {
    assert Pow2(3) == 8 && Pow2(1) == 2;
    assert Field(b as int, 3, 1) == (b as int / 8) % 2;
  }

  lemma Field41IsMask(b: bv8)
    ensures Field(b as int, 4, 1) == ((b & 0x10) >> 4) as int
  {
    assert Pow2(4) == 16 && Pow2(1) == 2;
    assert Field(b as int, 4, 1) == (b as int / 16) % 2;
  }

  lemma Field51IsMask(b: bv8)
    ensures Field(b as int, 5, 1) == ((b & 0x20) >> 5) as int
  {
    assert Pow2(5) == 32 && Pow2(1) == 2;
    assert Field(b as int, 5, 1) == (b as int / 32) % 2;
  }

  lemma Field61IsMask(b: bv8)
    ensures Field(b as int, 6, 1) == ((b & 0x40) >> 6) as int
  {
    assert Pow2(6) == 64 && Pow2(1) == 2;
    assert Field(b as int, 6, 1) == (b as int / 64) % 2;
  }

  lemma Field71IsMask(b: bv8)
    ensures Field(b as int, 7, 1) == ((b & 0x80) >> 7) as int
  {
    assert Pow2(7) == 128 && Pow2(1) == 2;
    assert Field(b as int, 7, 1) == (b as int / 128) % 2;
  }

  lemma Field02IsMask(b: bv8)
    ensures Field(b as int, 0, 2) == (b & 0x03) as int
  {
    assert Pow2(0) == 1 && Pow2(2) == 4;
    assert Field(b as int, 0, 2) == (b as int / 1) % 4;
  }

  lemma Field12IsMask(b: bv8)
    ensures Field(b as int, 1, 2) == ((b & 0x06) >> 1) as int
  {
    assert Pow2(1) == 2 && Pow2(2) == 4;
    assert Field(b as int, 1, 2) == (b as int / 2) % 4;
  }

  lemma Field42IsMask(b: bv8)
    ensures Field(b as int, 4, 2) == ((b & 0x30) >> 4) as int
  {
    assert Pow2(4) == 16 && Pow2(2) == 4;
    assert Field(b as int, 4, 2) == (b as int / 16) % 4;
  }

  lemma Field52IsMask(b: bv8)
    ensures Field(b as int, 5, 2) == ((b & 0x60) >> 5) as int
  {
    assert Pow2(5) == 32 && Pow2(2) == 4;
    assert Field(b as int, 5, 2) == (b as int / 32) % 4;
  }

  lemma Field62IsMask(b: bv8)
    ensures Field(b as int, 6, 2) == ((b & 0xc0) >> 6) as int
  {
    assert Pow2(6) == 64 && Pow2(2) == 4;
    assert Field(b as int, 6, 2) == (b as int / 64) % 4;
  }

  lemma Field03IsMask(b: bv8)
    ensures Field(b as int, 0, 3) == (b & 0x07) as int
  {
    assert Pow2(0) == 1 && Pow2(3) == 8;
    assert Field(b as int, 0, 3) == (b as int / 1) % 8;
  }

  lemma Field23IsMask(b: bv8)
    ensures Field(b as int, 2, 3) == ((b & 0x1c) >> 2) as int
  {
    assert Pow2(2) == 4 && Pow2(3) == 8;
    assert Field(b as int, 2, 3) == (b as int / 4) % 8;
  }

  lemma Field43IsMask(b: bv8)
    ensures Field(b as int, 4, 3) == ((b & 0x70) >> 4) as int
  {
    assert Pow2(4) == 16 && Pow2(3) == 8;
    assert Field(b as int, 4, 3) == (b as int / 16) % 8;
  }

  lemma Field04IsMask(b: bv8)
    ensures Field(b as int, 0, 4) == (b & 0x0f) as int
  {
    assert Pow2(0) == 1 && Pow2(4) == 16;
    assert Field(b as int, 0, 4) == (b as int / 1) % 16;
  }

  lemma Field34IsMask(b: bv8)
    ensures Field(b as int, 3, 4) == ((b & 0x78) >> 3) as int
  {
    assert Pow2(3) == 8 && Pow2(4) == 16;
    assert Field(b as int, 3, 4) == (b as int / 8) % 16;
  }

  lemma Field44IsMask(b: bv8)
    ensures Field(b as int, 4, 4) == ((b & 0xf0) >> 4) as int
  {
    assert Pow2(4) == 16 && Pow2(4) == 16;
    assert Field(b as int, 4, 4) == (b as int / 16) % 16;
  }

  lemma Field05IsMask(b: bv8)
    ensures Field(b as int, 0, 5) == (b & 0x1f) as int
  {
    assert Pow2(0) == 1 && Pow2(5) == 32;
    assert Field(b as int, 0, 5) == (b as int / 1) % 32;
  }

  lemma Field25IsMask(b: bv8)
    ensures Field(b as int, 2, 5) == ((b & 0x7c) >> 2) as int
  {
    assert Pow2(2) == 4 && Pow2(5) == 32;
    assert Field(b as int, 2, 5) == (b as int / 4) % 32;
  }

  lemma Field35IsMask(b: bv8)
    ensures Field(b as int, 3, 5) == ((b & 0xf8) >> 3) as int
  {
    assert Pow2(3) == 8 && Pow2(5) == 32;
    assert Field(b as int, 3, 5) == (b as int / 8) % 32;
  }

  lemma Field06IsMask(b: bv8)
    ensures Field(b as int, 0, 6) == (b & 0x3f) as int
  {
    assert Pow2(0) == 1 && Pow2(6) == 64;
    assert Field(b as int, 0, 6) == (b as int / 1) % 64;
  }

  lemma Field26IsMask(b: bv8)
    ensures Field(b as int, 2, 6) == ((b & 0xfc) >> 2) as int
  {
    assert Pow2(2) == 4 && Pow2(6) == 64;
    assert Field(b as int, 2, 6) == (b as int / 4) % 64;
  }

  lemma Field07IsMask(b: bv8)
    ensures Field(b as int, 0, 7) == (b & 0x7f) as int
  {
    assert Pow2(0) == 1 && Pow2(7) == 128;
    assert Field(b as int, 0, 7) == (b as int / 1) % 128;
  }

  // ---- Division and remainder by a doubled divisor ----

  lemma MulBound(k: int, d: int)
    requires d > 0
    ensures k >= 1 ==> k * d >= d
    ensures k <= -1 ==> k * d <= -d
  {
  }

  /** Quotient and remainder are the only such pair. */
  lemma ModUnique(x: int, d: int, a: int, b: int)
    requires d > 0 && x == a * d + b && 0 <= b < d
    ensures x % d == b && x / d == a
  {
    var q := x / d;
    var r := x % d;
    assert (q - a) * d == b - r;
    MulBound(q - a, d);
  }

  /** The remainder by `2 * m` is the remainder by `m` plus the next bit of the quotient. */
  lemma ModDouble(x: nat, m: nat)
    requires m > 0
    ensures x % (2 * m) == x % m + m * ((x / m) % 2)
  {
    var q := x / m;
    assert x == q * m + x % m;
    assert q == 2 * (q / 2) + q % 2;
    assert x == (q / 2) * (2 * m) + (q % 2 * m + x % m);
    ModUnique(x, 2 * m, q / 2, q % 2 * m + x % m);
  }

  lemma MulLess(k: nat, m: nat, a: nat)
    requires k < m
    ensures k * a + a <= m * a
  {
    var j: nat := m - k - 1;
    assert m * a == (k + 1 + j) * a == k * a + a + j * a;
  }

  /** Dividing by `a` and then by `b` is dividing by `a * b`; the digit in between is the remainder's. */
  lemma DivDivMul(x: nat, a: nat, b: nat)
    requires a > 0 && b > 0
    ensures x / a / b == x / (a * b)
    ensures (x / a) % b == x % (a * b) / a
  {
    var q := x / a;
    MulLess(q % b, b, a);
    assert x == (q / b) * (a * b) + ((q % b) * a + x % a);
    ModUnique(x, a * b, q / b, (q % b) * a + x % a);
    ModUnique(x % (a * b), a, q % b, x % a);
  }
}

=== FILE: byte_flags.dfy ===
/**
 * Bytes assembled from individual flags, the inverse of `Bits.Flag`; the
 * encoders of the round-trip lemmas build status bytes this way.
 */
module ByteFlags {
  import opened Bits

  /** A C truth value as 0 or 1. */
  function Bit(b: bool): nat { if b then 1 else 0 }

  /** The number whose bit `k` is `bs[k]`, bit 0 first. */
  function FromBits(bs: seq<bool>): (r: nat)
    ensures r < Pow2(|bs|)
  {
    if |bs| == 0 then 0 else Bit(bs[0]) + 2 * FromBits(bs[1..])
  }

  /** Bit `k` of a number assembled from flags is flag `k`. */
  lemma {:induction false} FromBitsDigit(bs: seq<bool>, k: nat)
    requires k < |bs|
    ensures (FromBits(bs) / Pow2(k)) % 2 == Bit(bs[k])
    decreases k
  {
    var x := FromBits(bs);
    ModUnique(x, 2, FromBits(bs[1..]), Bit(bs[0]));
    if k > 0 {
      DivDivMul(x, 2, Pow2(k - 1));
      FromBitsDigit(bs[1..], k - 1);
    }
  }

  /** A byte assembled from eight flags carries each flag in its own bit. */
  lemma FromBitsFlags(bs: seq<bool>)
    requires |bs| == 8
    ensures FromBits(bs) < 256
    ensures forall k :: 0 <= k < 8 ==> Flag(FromBits(bs), k) == bs[k]
  {
    assert Pow2(1) == 2 && Pow2(8) == 256;
    forall k | 0 <= k < 8
      ensures Flag(FromBits(bs), k) == bs[k]
    {
      FromBitsDigit(bs, k);
    }
  }
}

=== FILE: channels.dfy ===
/**
 * The driver's per-tool state record, the channel slots that hold it, and
 * the log of emitted records that stands in for `xf86WcmEvent`.
 *
 * A channel keeps the record under construction (`work`) and the last
 * record handed to the consumer (`last`). Emitting a record appends a
 * `(channel, state)` pair to the log and makes that state the channel's
 * `last`.
 */
module Channels {
  import opened Consts

  /** The fields of `WacomDeviceState` that the decoders read or write. */
  datatype DeviceState = DeviceState(
    device_id: int,
    device_type: int,
    serial_num: int,
    x: int,
    y: int,
    buttons: nat,
    pressure: int,
    tiltx: int,
    tilty: int,
    stripx: int,
    stripy: int,
    rotation: int,
    abswheel: int,
    relwheel: int,
    distance: int,
    throttle: int,
    discard_first: bool,
    proximity: int)

  /** The all-zero record (`memset(ds, 0, sizeof(*ds))`, `{ 0 }`). */
  const ZeroState: DeviceState :=
    DeviceState(0, 0, 0, 0, 0, 0, 0, 0, 0, 0, 0, 0, 0, 0, 0, 0, false, 0)

  /** Reset of the relative fields at the start of every record. */
  function ResetRelative(ds: DeviceState): (r: DeviceState)
    ensures r.relwheel == 0
  {
    ds.(relwheel := 0)
  }

  datatype Channel = Channel(work: DeviceState, last: DeviceState)

  const EmptyChannel: Channel := Channel(ZeroState, ZeroState)

  /** A channel table of the fixed size of the C array. */
  predicate ValidTable(chs: seq<Channel>) {
    |chs| == MAX_CHANNELS
  }

  function EmptyTable(): (chs: seq<Channel>)
    ensures ValidTable(chs)
    ensures forall i :: 0 <= i < |chs| ==> chs[i] == EmptyChannel
  {
    seq(MAX_CHANNELS, _ => EmptyChannel)
  }

  /** One call of the consumer: a snapshot handed over on a channel. */
  datatype Emission = Emission(channel: nat, state: DeviceState)

  /** The state the decoders thread through: channel table and output log. */
  datatype Tablet = Tablet(channels: seq<Channel>, log: seq<Emission>)

  /** Replace the working record of channel `ch`. */
  function SetWork(t: Tablet, ch: nat, ds: DeviceState): (r: Tablet)
    requires ch < |t.channels|
    ensures |r.channels| == |t.channels| && r.log == t.log
    ensures r.channels[ch] == t.channels[ch].(work := ds)
    ensures forall i :: 0 <= i < |t.channels| && i != ch ==> r.channels[i] == t.channels[i]
  {
    t.(channels := t.channels[ch := t.channels[ch].(work := ds)])
  }

  /** Hand `ds` to the consumer on channel `ch`. */
  function Emit(t: Tablet, ch: nat, ds: DeviceState): (r: Tablet)
    requires ch < |t.channels|
    ensures |r.channels| == |t.channels|
    ensures r.log == t.log + [Emission(ch, ds)]
    ensures r.channels[ch] == t.channels[ch].(last := ds)
    ensures forall i :: 0 <= i < |t.channels| && i != ch ==> r.channels[i] == t.channels[i]
  {
    Tablet(t.channels[ch := t.channels[ch].(last := ds)], t.log + [Emission(ch, ds)])
  }
}

=== FILE: consts.dfy ===
/**
 * Named constants shared by the decoders.
 *
 * The driver's private header xf86Wacom.h is not part of this model; the
 * values below marked "assumed" are the ones that header is taken to
 * define. Everything else is defined in the files that are modelled
 * (wcmUSB.c, wacom.c) or is a Linux input or X protocol code.
 */
module Consts {

  // ---- Serial Wacom-IV/V byte masks (assumed) ----

  /** Sync bit that marks byte 0 of a serial frame. */
  const HEADER_BIT: int := 0x80
  /** Proximity flag in byte 0. */
  const PROXIMITY_BIT: int := 0x40
  /** Pointer (stylus as opposed to puck) flag in byte 0 of a Wacom-IV frame. */
  const POINTER_BIT: int := 0x20
  /** Button bits in byte 3 of a Wacom-IV frame. */
  const BUTTONS_BITS: int := 0x78
  /** Pressure bits and sign bit of byte 6, low pressure bit of bytes 0/3. */
  const ZAXIS_BITS: int := 0x3f
  const ZAXIS_SIGN_BIT: int := 0x40
  const ZAXIS_BIT: int := 0x04
  /** Tilt magnitude and sign in bytes 7 and 8. */
  const TILT_BITS: int := 0x3f
  const TILT_SIGN_BIT: int := 0x40

  // ---- Driver-side tool classes (assumed, DEVICE_ID flag values) ----

  const STYLUS_ID: int := 1
  const CURSOR_ID: int := 2
  const ERASER_ID: int := 4
  const PAD_ID: int := 8

  /** Proximity value the USB back end stores for the rubber end of a pen (assumed). */
  const ERASER_PROX: int := 4

  /** Number of channel slots of a tablet (assumed). */
  const MAX_CHANNELS: nat := 2

  /** Capacity of the USB event queue (assumed). */
  const MAX_USB_EVENTS: nat := 32

  /** Mouse buttons known to the driver (assumed, for both header names). */
  const MAX_MOUSE_BUTTONS: nat := 16
  const WCM_MAX_MOUSE_BUTTONS: int := 16

  /** Upper bound of the raw-sample property (assumed). */
  const MAX_SAMPLES: int := 20
  /** Resolution of the pressure filter (assumed). */
  const FILTER_PRESSURE_RES: int := 2048

  // ---- Device ids reported to clients (wacom.c:101-104) ----

  const STYLUS_DEVICE_ID: int := 0x02
  const CURSOR_DEVICE_ID: int := 0x06
  const ERASER_DEVICE_ID: int := 0x0A
  const PAD_DEVICE_ID: int := 0x0F

  // ---- Linux input event types and codes ----

  const EV_SYN: int := 0x00
  const EV_KEY: int := 0x01
  const EV_REL: int := 0x02
  const EV_ABS: int := 0x03
  const EV_MSC: int := 0x04

  const SYN_REPORT: int := 0
  const MSC_SERIAL: int := 0x00
  const REL_WHEEL: int := 0x08

  const ABS_X: int := 0x00
  const ABS_Y: int := 0x01
  const ABS_Z: int := 0x02
  const ABS_RX: int := 0x03
  const ABS_RY: int := 0x04
  const ABS_RZ: int := 0x05
  const ABS_THROTTLE: int := 0x06
  const ABS_WHEEL: int := 0x08
  const ABS_PRESSURE: int := 0x18
  const ABS_DISTANCE: int := 0x19
  const ABS_TILT_X: int := 0x1a
  const ABS_TILT_Y: int := 0x1b
  const ABS_MISC: int := 0x28

  const BTN_0: int := 0x100
  const BTN_LEFT: int := 0x110
  const BTN_RIGHT: int := 0x111
  const BTN_MIDDLE: int := 0x112
  const BTN_SIDE: int := 0x113
  const BTN_EXTRA: int := 0x114
  const BTN_FORWARD: int := 0x115
  const BTN_BACK: int := 0x116
  const BTN_TASK: int := 0x117
  const BTN_BASE: int := 0x126
  const BTN_BASE2: int := 0x127
  const BTN_BASE3: int := 0x128
  const BTN_BASE4: int := 0x129
  const BTN_BASE5: int := 0x12a
  const BTN_BASE6: int := 0x12b
  const BTN_A: int := 0x130
  const BTN_B: int := 0x131
  const BTN_C: int := 0x132
  const BTN_X: int := 0x133
  const BTN_Y: int := 0x134
  const BTN_Z: int := 0x135
  const BTN_TL: int := 0x136
  const BTN_TR: int := 0x137
  const BTN_TL2: int := 0x138
  const BTN_TR2: int := 0x139
  const BTN_SELECT: int := 0x13a

  const BTN_TOOL_PEN: int := 0x140
  const BTN_TOOL_RUBBER: int := 0x141
  const BTN_TOOL_BRUSH: int := 0x142
  const BTN_TOOL_PENCIL: int := 0x143
  const BTN_TOOL_AIRBRUSH: int := 0x144
  const BTN_TOOL_FINGER: int := 0x145
  const BTN_TOOL_MOUSE: int := 0x146
  const BTN_TOOL_LENS: int := 0x147
  const BTN_TOUCH: int := 0x14a
  const BTN_STYLUS: int := 0x14b
  const BTN_STYLUS2: int := 0x14c

  /** BTN_0 .. BTN_9. */
  function BtnDigit(k: nat): (code: int)
    requires k < 10
    ensures BTN_0 <= code < BTN_LEFT
  {
    BTN_0 + k
  }

  // ---- X protocol status codes ----

  const Success: int := 0
  const BadValue: int := 2
  const BadAtom: int := 5
  const BadMatch: int := 8
  const BadAccess: int := 10
}

=== FILE: devices.dfy ===
/**
 * The shared file descriptor of `xf86WcmDevOpen`, `xf86WcmDevClose` and
 * `xf86WcmDevProc`: the X devices of one tablet (stylus, eraser, cursor,
 * pad) share one open device node, counted by `fd_refs`; the node is
 * closed when the last device lets go of it.
 *
 * Whether opening the node and registering with the X server succeed is
 * outside the model: both are parameters.
 */
module Devices {
  import opened Consts

  /** One X device: whether it holds the shared fd (`local->fd >= 0`), `public.on`, `wcmDevOpenCount`. */
  datatype Device = Device(hasFd: bool, on: bool, openCount: int)

  /** The tablet's shared state: `fd_refs` and whether `common->fd` is open. */
  datatype Shared = Shared(fdRefs: int, fdOpen: bool)

  datatype System = System(devs: seq<Device>, shared: Shared)

  /** The outcomes the model cannot see: opening the device node and registering the X device. */
  datatype Env = Env(openOk: bool, registerOk: bool)

  const DEVICE_INIT: int := 0
  const DEVICE_ON: int := 1
  const DEVICE_OFF: int := 2
  const DEVICE_CLOSE: int := 3

  /** `!Success`, the failure status of the device procedure. */
  const NOT_SUCCESS: int := 1

  /** The number of devices holding the shared fd. */
  function Holders(devs: seq<Device>): (n: nat)
    ensures n <= |devs|
  {
    if |devs| == 0 then 0
    else Holders(devs[..|devs| - 1]) + (if devs[|devs| - 1].hasFd then 1 else 0)
  }

  /** The reference count counts exactly the holders, and the fd is open exactly while someone holds it. */
  predicate RefsConsistent(sys: System) {
    sys.shared.fdRefs == Holders(sys.devs) && (sys.shared.fdOpen <==> sys.shared.fdRefs > 0)
  }

  /** Replacing one device changes the holder count by the change in that device alone. */
  lemma {:induction false} HoldersUpdate(devs: seq<Device>, i: nat, d: Device)
    requires i < |devs|
    ensures Holders(devs[i := d]) == Holders(devs) - (if devs[i].hasFd then 1 else 0) + (if d.hasFd then 1 else 0)
    decreases |devs|
  {
    var n := |devs|;
    var devs' := devs[i := d];
    if i == n - 1 {
      assert devs'[..n - 1] == devs[..n - 1];
    } else {
      assert devs'[..n - 1] == devs[..n - 1][i := d];
      HoldersUpdate(devs[..n - 1], i, d);
    }
  }

  /** No device holds the fd when the count of holders is zero. */
  lemma {:induction false} NoHolders(devs: seq<Device>, i: nat)
    requires Holders(devs) == 0 && i < |devs|
    ensures !devs[i].hasFd
    decreases |devs|
  {
    if i < |devs| - 1 {
      NoHolders(devs[..|devs| - 1], i);
    }
  }

  /**
   * `xf86WcmDevOpen` for device `i`: a device already open is left alone;
   * the first device opens the node and takes the count to one, a failed
   * open leaves the device without an fd; a device without the fd then
   * grabs the shared one and increments the count. The result is whether
   * the device ended up opened and registered.
   */
  function DevOpen(sys: System, i: nat, env: Env): (r: (System, bool))
    requires i < |sys.devs|
    ensures |r.0.devs| == |sys.devs|
    ensures forall j :: 0 <= j < |sys.devs| && j != i ==> r.0.devs[j] == sys.devs[j]
    ensures r.0.devs[i].on == sys.devs[i].on && r.0.devs[i].openCount == sys.devs[i].openCount
    ensures sys.devs[i].openCount != 0 ==> r == (sys, true)
    ensures sys.devs[i].openCount == 0 && sys.shared.fdRefs == 0 && !env.openOk ==>
              !r.1 && !r.0.devs[i].hasFd && r.0.shared == sys.shared
    ensures sys.devs[i].openCount == 0 && (sys.shared.fdRefs != 0 || env.openOk) ==>
              r.0.devs[i].hasFd && r.1 == env.registerOk && (RefsConsistent(sys) ==> r.0.shared.fdOpen)
    ensures RefsConsistent(sys) ==> RefsConsistent(r.0)
  {
    var d := sys.devs[i];
    if d.openCount != 0 then (sys, true)
    else if sys.shared.fdRefs == 0 && !env.openOk then
      HoldersUpdate(sys.devs, i, d.(hasFd := false));
      (sys.(devs := sys.devs[i := d.(hasFd := false)]), false)
    else
      var first := sys.shared.fdRefs == 0;
      var sh := if first then Shared(1, true) else sys.shared;
      var grab := !first && !d.hasFd;
      var sh' := if grab then sh.(fdRefs := sh.fdRefs + 1) else sh;
      var devs' := sys.devs[i := d.(hasFd := true)];
      HoldersUpdate(sys.devs, i, d.(hasFd := true));
      if first && RefsConsistent(sys) then
        NoHolders(sys.devs, i);
        (System(devs', sh'), env.registerOk)
      else
        (System(devs', sh'), env.registerOk)
  }

  /**
   * `xf86WcmDevClose` for device `i`: a device holding the fd lets go of
   * it and decrements the count; the node closes when the count reaches
   * zero.
   */
  function DevClose(sys: System, i: nat): (r: System)
    requires i < |sys.devs|
    ensures |r.devs| == |sys.devs| && !r.devs[i].hasFd
    ensures forall j :: 0 <= j < |sys.devs| && j != i ==> r.devs[j] == sys.devs[j]
    ensures r.devs[i].on == sys.devs[i].on && r.devs[i].openCount == sys.devs[i].openCount
    ensures !sys.devs[i].hasFd ==> r == sys
    ensures sys.devs[i].hasFd ==> r.shared.fdRefs == sys.shared.fdRefs - 1
    ensures sys.devs[i].hasFd ==> (r.shared.fdOpen <==> sys.shared.fdOpen && r.shared.fdRefs != 0)
    ensures RefsConsistent(sys) ==> RefsConsistent(r)
  {
    var d := sys.devs[i];
    if !d.hasFd then sys
    else
      HoldersUpdate(sys.devs, i, d.(hasFd := false));
      var refs := sys.shared.fdRefs - 1;
      System(sys.devs[i := d.(hasFd := false)], Shared(refs, sys.shared.fdOpen && refs != 0))
  }

  /**
   * `xf86WcmDevProc` for device `i`: INIT resets the open count and opens;
   * ON opens and switches the device on; OFF and CLOSE release the fd,
   * switch the device off and zero its open count; anything else fails
   * and changes nothing.
   */
  function DevProc(sys: System, i: nat, what: int, env: Env): (r: (System, int))
    requires i < |sys.devs|
    ensures |r.0.devs| == |sys.devs|
    ensures forall j :: 0 <= j < |sys.devs| && j != i ==> r.0.devs[j] == sys.devs[j]
    ensures RefsConsistent(sys) ==> RefsConsistent(r.0)
    ensures what !in {DEVICE_INIT, DEVICE_ON, DEVICE_OFF, DEVICE_CLOSE} ==> r == (sys, NOT_SUCCESS)
    ensures what in {DEVICE_OFF, DEVICE_CLOSE} ==>
              && r.1 == Success && !r.0.devs[i].on && r.0.devs[i].openCount == 0 && !r.0.devs[i].hasFd
              && r.0.shared.fdRefs == sys.shared.fdRefs - (if sys.devs[i].hasFd then 1 else 0)
    ensures what == DEVICE_ON && r.1 == Success ==>
              r.0.devs[i].on && r.0.devs[i].openCount == sys.devs[i].openCount + 1 &&
              (sys.devs[i].openCount == 0 ==> r.0.devs[i].hasFd)
    ensures what == DEVICE_INIT && r.1 == Success ==> r.0.devs[i].openCount == 1 && r.0.devs[i].hasFd
    ensures what in {DEVICE_INIT, DEVICE_ON} ==>
              (r.1 == Success <==> (what == DEVICE_ON && sys.devs[i].openCount != 0) ||
                                   (env.registerOk && (sys.shared.fdRefs != 0 || env.openOk)))
  {
    var d := sys.devs[i];
    if what == DEVICE_INIT then
      var reset := sys.(devs := sys.devs[i := d.(openCount := 0)]);
      HoldersUpdate(sys.devs, i, d.(openCount := 0));
      var (s1, ok) := DevOpen(reset, i, env);
      if !ok then (s1, NOT_SUCCESS)
      else
        var d1 := s1.devs[i];
        HoldersUpdate(s1.devs, i, d1.(openCount := d1.openCount + 1));
        (s1.(devs := s1.devs[i := d1.(openCount := d1.openCount + 1)]), Success)
    else if what == DEVICE_ON then
      var (s1, ok) := DevOpen(sys, i, env);
      if !ok then (s1, NOT_SUCCESS)
      else
        var d1 := s1.devs[i];
        HoldersUpdate(s1.devs, i, d1.(openCount := d1.openCount + 1, on := true));
        (s1.(devs := s1.devs[i := d1.(openCount := d1.openCount + 1, on := true)]), Success)
    else if what == DEVICE_OFF || what == DEVICE_CLOSE then
      var s1 := DevClose(sys, i);
      var d1 := s1.devs[i];
      HoldersUpdate(s1.devs, i, d1.(on := false, openCount := 0));
      (s1.(devs := s1.devs[i := d1.(on := false, openCount := 0)]), Success)
    else (sys, NOT_SUCCESS)
  }

  /**
   * The failure path of a read: every device still holding the fd is
   * switched off. Afterwards no device holds it, the count is zero and the
   * node is closed; devices without the fd are untouched.
   */
  method ShutDown(sys: System) returns (r: System)
    requires RefsConsistent(sys)
    ensures RefsConsistent(r) && r.shared.fdRefs == 0 && !r.shared.fdOpen
    ensures |r.devs| == |sys.devs|
    ensures forall j :: 0 <= j < |r.devs| ==> !r.devs[j].hasFd
    ensures forall j :: 0 <= j < |r.devs| ==> (sys.devs[j].hasFd ==> !r.devs[j].on && r.devs[j].openCount == 0)
    ensures forall j :: 0 <= j < |r.devs| ==> (!sys.devs[j].hasFd ==> r.devs[j] == sys.devs[j])
  {
    r := sys;
    var k := 0;
    while k < |sys.devs|
      invariant 0 <= k <= |sys.devs| && |r.devs| == |sys.devs|
      invariant RefsConsistent(r)
      invariant forall j :: 0 <= j < k ==> !r.devs[j].hasFd
      invariant forall j :: k <= j < |r.devs| ==> r.devs[j] == sys.devs[j]
      invariant forall j :: 0 <= j < k ==> (sys.devs[j].hasFd ==> !r.devs[j].on && r.devs[j].openCount == 0)
      invariant forall j :: 0 <= j < k ==> (!sys.devs[j].hasFd ==> r.devs[j] == sys.devs[j])
    {
      if r.devs[k].hasFd {
        var (s1, _) := DevProc(r, k, DEVICE_OFF, Env(false, false));
        r := s1;
      }
      k := k + 1;
    }
    AllReleased(r.devs);
  }

  lemma {:induction false} AllReleased(devs: seq<Device>)
    requires forall j :: 0 <= j < |devs| ==> !devs[j].hasFd
    ensures Holders(devs) == 0
    decreases |devs|
  {
    if |devs| > 0 {
      AllReleased(devs[..|devs| - 1]);
    }
  }

  /** With the count consistent, a close shuts the node exactly when the closing device was the last holder. */
  lemma LastCloseClosesNode(sys: System, i: nat)
    requires RefsConsistent(sys) && i < |sys.devs| && sys.devs[i].hasFd
    ensures !DevClose(sys, i).shared.fdOpen <==> Holders(sys.devs) == 1
  {
    HoldersUpdate(sys.devs, i, sys.devs[i].(hasFd := false));
  }

  /**
   * Switching a closed device on and then off again gives the shared fd
   * back: the count and whether the node is open are as before.
   */
  lemma OnThenOffRestoresShared(sys: System, i: nat, env: Env)
    requires RefsConsistent(sys) && i < |sys.devs| && !sys.devs[i].hasFd && sys.devs[i].openCount == 0
    requires DevProc(sys, i, DEVICE_ON, env).1 == Success
    ensures var on := DevProc(sys, i, DEVICE_ON, env).0;
            DevProc(on, i, DEVICE_OFF, env).0.shared == sys.shared
  {
    var on := DevProc(sys, i, DEVICE_ON, env).0;
    assert on.shared.fdRefs == sys.shared.fdRefs + 1;
  }
}

=== FILE: kernel_intuos.dfy ===
/**
 * The kernel's Intuos report decoders: `wacom_intuos_inout` (tool enter
 * and exit), `wacom_intuos_general` (pen pressure, tilt, airbrush wheel)
 * and the field extraction of `wacom_intuos_irq`.
 *
 * Reports are ten bytes of 8-bit USB packing: byte 0 is the report id,
 * bit 0 of byte 1 selects one of two tools, and the rest of byte 1 says
 * what kind of packet this is.
 */
module KernelIntuos {
  import opened Wrappers
  import opened Bits
  import opened ByteFlags
  import opened Consts
  import opened ToolIds
  import opened KernelReport
  import WacomV

  /** Length of an Intuos report. */
  const REPORT_LEN: nat := 10

  // ---- Packet kinds, by the bits of byte 1 ----
  // Tool enter `(h & 0xfc) == 0xc0`, tool exit `(h & 0xfe) == 0x80` and the
  // general pen packet `(h & 0xb8) == 0xa0` use the same codes as byte 0 of
  // a Wacom-V serial frame (WacomV.IsToolEnter, IsProxOut, IsPen).

  /** `(h & 0xbc) == 0xb4`: the airbrush second packet. */
  predicate IsAirbrushSecond(h: byte) { h / 128 == 1 && (h / 4) % 16 == 13 }
  /** `(h & 0xbc) == 0xa8` or `(h & 0xbe) == 0xb0`: a mouse, lens or marker-pen rotation packet. */
  predicate IsPuck(h: byte) { h / 128 == 1 && ((h / 4) % 16 == 10 || (h / 2) % 32 == 24) }

  lemma PacketKindMasks(h: bv8)
    ensures IsAirbrushSecond(h as int) <==> h & 0xbc == 0xb4
    ensures IsPuck(h as int) <==> (h & 0xbc == 0xa8 || h & 0xbe == 0xb0)
  {
  }

  /** A pen packet is never an airbrush second packet. */
  lemma PenIsNotAirbrushSecond(h: byte)
    ensures !(WacomV.IsPen(h) && IsAirbrushSecond(h))
  {
    if IsAirbrushSecond(h) {
      assert h / 8 == (h / 4) / 2;
      assert (h / 8) % 8 == ((h / 4) % 16) / 2;
    }
  }

  // ---- Enter and exit ----

  /** The 32-bit serial of an enter report: low nibble of byte 3, bytes 4-6, high nibble of byte 7. */
  function EnterSerial(d3: byte, d4: byte, d5: byte, d6: byte, d7: byte): (s: u32) {
    Field(d3, 0, 4) * 0x1000_0000 + d4 * 0x10_0000 + d5 * 0x1000 + d6 * 16 + Field(d7, 4, 4)
  }

  /** The 12-bit tool id of an enter report: byte 2 above the high nibble of byte 3. */
  function EnterId(d2: byte, d3: byte): (id: nat)
    ensures id < 0x1000
  {
    d2 * 16 + Field(d3, 4, 4)
  }

  /** The reports of a tool exit: axes and buttons back to zero, the tool released. */
  function ExitReports(tool: int, serial: u32): (rs: seq<Report>)
    ensures |rs| >= 4
    ensures rs[|rs| - 4..] == [Key(tool, false), Abs(ABS_MISC, 0), Msc(MSC_SERIAL, Int32(serial)), Sync]
    ensures forall i :: 0 <= i < |rs| ==> (rs[i].Key? ==> !rs[i].down) && (rs[i].Abs? ==> rs[i].value == 0)
  {
    var axes := [Abs(ABS_X, 0), Abs(ABS_Y, 0), Abs(ABS_DISTANCE, 0)];
    var rest :=
      if tool >= BTN_TOOL_MOUSE then
        [Key(BTN_LEFT, false), Key(BTN_MIDDLE, false), Key(BTN_RIGHT, false), Key(BTN_SIDE, false),
         Key(BTN_EXTRA, false), Abs(ABS_THROTTLE, 0), Abs(ABS_RZ, 0)]
      else
        [Abs(ABS_PRESSURE, 0), Abs(ABS_TILT_X, 0), Abs(ABS_TILT_Y, 0), Key(BTN_STYLUS, false),
         Key(BTN_STYLUS2, false), Key(BTN_TOUCH, false), Abs(ABS_WHEEL, 0)];
    axes + rest + [Key(tool, false), Abs(ABS_MISC, 0), Msc(MSC_SERIAL, Int32(serial)), Sync]
  }

  /**
   * `wacom_intuos_inout`: an enter report records the tool's serial, id
   * and tool key for its slot and reports nothing; an exit report releases
   * the slot's tool; any other packet is left to the caller (`None`).
   */
  function InOut(w: Wacom, data: seq<byte>): (r: Option<Step>)
    requires ValidWacom(w) && |data| >= REPORT_LEN
    ensures r.Some? <==> WacomV.IsToolEnter(data[1]) || WacomV.IsProxOut(data[1])
    ensures r.Some? ==> ValidWacom(r.value.w)
    ensures r.Some? && WacomV.IsToolEnter(data[1]) ==>
              var idx := data[1] % 2;
              var id := EnterId(data[2], data[3]);
              && r.value.reports == []
              && r.value.w.id[idx] == id
              && r.value.w.serial[idx] == EnterSerial(data[3], data[4], data[5], data[6], data[7])
              && r.value.w.tool[idx] == IntuosTool(id)
              && r.value.w.id[1 - idx] == w.id[1 - idx] && r.value.w.serial[1 - idx] == w.serial[1 - idx]
              && r.value.w.tool[1 - idx] == w.tool[1 - idx]
    ensures r.Some? && WacomV.IsProxOut(data[1]) ==>
              r.value == Step(w, ExitReports(w.tool[data[1] % 2], w.serial[data[1] % 2]))
  {
    var idx := data[1] % 2;
    if WacomV.IsToolEnter(data[1]) then
      var id := EnterId(data[2], data[3]);
      Some(Step(Wacom(w.tool[idx := IntuosTool(id)], w.id[idx := id],
                      w.serial[idx := EnterSerial(data[3], data[4], data[5], data[6], data[7])]), []))
    else if WacomV.IsProxOut(data[1]) then
      Some(Step(w, ExitReports(w.tool[idx], w.serial[idx])))
    else None
  }

  // ---- General packets ----

  /** Ten bits of pressure (or airbrush wheel): byte 6 above the top two bits of byte 7. */
  function TenBits(d6: byte, d7: byte): (v: nat)
    ensures v < 1024
  {
    d6 * 4 + Field(d7, 6, 2)
  }

  /** Tilt X: bits 5..0 of byte 7 above bit 7 of byte 8. */
  function TiltX(d7: byte, d8: byte): (t: nat)
    ensures t < 128
  {
    Field(d7, 0, 6) * 2 + Field(d8, 7, 1)
  }

  /** Tilt Y: bits 6..0 of byte 8. */
  function TiltY(d8: byte): (t: nat)
    ensures t < 128
  {
    Field(d8, 0, 7)
  }

  /**
   * `wacom_intuos_general`: a pen packet reports pressure, both tilts, the
   * two side switches and touch (pressure above 10); an airbrush second
   * packet reports the wheel and both tilts.
   */
  function General(data: seq<byte>): (rs: seq<Report>)
    requires |data| >= REPORT_LEN
    ensures WacomV.IsPen(data[1]) ==>
              var p := TenBits(data[6], data[7]);
              rs == [Abs(ABS_PRESSURE, p), Abs(ABS_TILT_X, TiltX(data[7], data[8])), Abs(ABS_TILT_Y, TiltY(data[8])),
                     Key(BTN_STYLUS, Flag(data[1], 1)), Key(BTN_STYLUS2, Flag(data[1], 2)), Key(BTN_TOUCH, p > 10)]
    ensures IsAirbrushSecond(data[1]) ==>
              rs == [Abs(ABS_WHEEL, TenBits(data[6], data[7])), Abs(ABS_TILT_X, TiltX(data[7], data[8])),
                     Abs(ABS_TILT_Y, TiltY(data[8]))]
    ensures !WacomV.IsPen(data[1]) && !IsAirbrushSecond(data[1]) ==> rs == []
  {
    var d1 := data[1];
    var t := TenBits(data[6], data[7]);
    var tilt := [Abs(ABS_TILT_X, TiltX(data[7], data[8])), Abs(ABS_TILT_Y, TiltY(data[8]))];
    PenIsNotAirbrushSecond(d1);
    if WacomV.IsPen(d1) then
      [Abs(ABS_PRESSURE, t)] + tilt + [Key(BTN_STYLUS, Flag(d1, 1)), Key(BTN_STYLUS2, Flag(d1, 2)), Key(BTN_TOUCH, t > 10)]
    else if IsAirbrushSecond(d1) then [Abs(ABS_WHEEL, t)] + tilt
    else []
  }

  // ---- Position ----

  /** X, Y and hover distance: 17-bit coordinates and 6-bit distance on Intuos3 and later, 16 and 5 bits before. */
  function Position(ftype: int, data: seq<byte>): (rs: seq<Report>)
    requires |data| >= REPORT_LEN
    ensures |rs| == 3 && rs[0].Abs? && rs[1].Abs? && rs[2].Abs?
    ensures rs[0].code == ABS_X && rs[1].code == ABS_Y && rs[2].code == ABS_DISTANCE
    // Intuos3 and later: bytes 2-3 and 4-5 above bits 1 and 0 of byte 9, distance in bits 7..2
    ensures ftype >= INTUOS3S ==>
              && rs[0].value == data[2] * 512 + data[3] * 2 + Field(data[9], 1, 1)
              && rs[1].value == data[4] * 512 + data[5] * 2 + Field(data[9], 0, 1)
              && rs[2].value == Field(data[9], 2, 6)
              && 0 <= rs[0].value < 0x2_0000 && 0 <= rs[1].value < 0x2_0000 && 0 <= rs[2].value < 64
    // before: big-endian bytes 2-3 and 4-5, distance in bits 7..3
    ensures ftype < INTUOS3S ==>
              && rs[0].value == Be16(data[2], data[3]) && rs[1].value == Be16(data[4], data[5])
              && rs[2].value == Field(data[9], 3, 5) && 0 <= rs[2].value < 32
  {
    if ftype >= INTUOS3S then
      [Abs(ABS_X, data[2] * 512 + data[3] * 2 + Field(data[9], 1, 1)),
       Abs(ABS_Y, data[4] * 512 + data[5] * 2 + Field(data[9], 0, 1)),
       Abs(ABS_DISTANCE, Field(data[9], 2, 6))]
    else
      [Abs(ABS_X, Be16(data[2], data[3])), Abs(ABS_Y, Be16(data[4], data[5])),
       Abs(ABS_DISTANCE, Field(data[9], 3, 5))]
  }

  // ---- Rotation ----

  /** The 11-bit rotation value: byte 6 above the top three bits of byte 7. */
  function RotationRaw(d6: byte, d7: byte): (t: nat)
    ensures t < 2048
  {
    d6 * 8 + Field(d7, 5, 3)
  }

  /** Bit 5 of byte 7 is the low bit of the raw rotation, so with it set `t - 1` never wraps. */
  lemma FlaggedRotationIsOdd(d6: byte, d7: byte)
    ensures Flag(d7, 5) <==> RotationRaw(d6, d7) % 2 == 1
  {
    assert Pow2(5) == 32 && Pow2(3) == 8 && Pow2(1) == 2;
    var q := d7 / 32;
    var f := Field(d7, 5, 3);
    assert f == q % 8 && (Flag(d7, 5) <==> q % 2 == 1);
    ModUnique(q, 2, 4 * (q / 8) + f / 2, f % 2);
    ModUnique(d6 * 8 + f, 2, d6 * 4 + f / 2, f % 2);
  }

  /**
   * The Intuos3 marker-pen rotation, in the unsigned arithmetic of the
   * source and read back as an `int`. No step wraps for good: the result
   * equals the signed reading of the formula, within -900..899.
   */
  function MarkerRotation(d6: byte, d7: byte): (r: int)
    ensures -900 <= r <= 899
    ensures var t := RotationRaw(d6, d7);
            r == (if Flag(d7, 5) then (if t > 900 then (t - 1) / 2 - 1350 else (t - 1) / 2 + 450) else 450 - t / 2)
  {
    var t := RotationRaw(d6, d7);
    FlaggedRotationIsOdd(d6, d7);
    if Flag(d7, 5) then
      var h := U32(t - 1) / 2;
      assert h == (t - 1) / 2 by { SmallU32(t - 1); }
      if t > 900 then
        Int32OfU32(h - 1350);
        Int32(U32(h - 1350))
      else
        Int32OfU32(h + 450);
        Int32(U32(h + 450))
    else
      Int32OfU32(450 - t / 2);
      Int32(U32(450 - t / 2))
  }

  /** A value already in `0 .. 2^32-1` is its own unsigned reading. */
  lemma SmallU32(x: int)
    requires 0 <= x < TWO32
    ensures U32(x) == x
  {
    ModUnique(x, TWO32, 0, x);
  }

  /**
   * The 4D-mouse rotation as written: `-t / 2` negates the unsigned `t`
   * before halving, so a non-zero `t` without bit 5 wraps to a large
   * positive value.
   */
  function Rotation4DAsWritten(d6: byte, d7: byte): int {
    var t: int := RotationRaw(d6, d7);
    if Flag(d7, 5) then Int32(U32(t - 1) / 2) else Int32(U32(-t) / 2)
  }

  /** The 4D-mouse rotation as evidently intended: `(t - 1) / 2` with bit 5 set, `-(t / 2)` without. */
  function Rotation4D(d6: byte, d7: byte): (r: int)
    ensures -1023 <= r <= 1023
    ensures r < 0 ==> !Flag(d7, 5)
    ensures !Flag(d7, 5) ==> r <= 0 && -r == RotationRaw(d6, d7) / 2
    ensures Flag(d7, 5) ==> 2 * r + 1 == RotationRaw(d6, d7)
  {
    var t := RotationRaw(d6, d7);
    FlaggedRotationIsOdd(d6, d7);
    if Flag(d7, 5) then (t - 1) / 2 else -(t / 2)
  }

  /** The two agree exactly when the value is not negative. */
  lemma Rotation4DAgreement(d6: byte, d7: byte)
    ensures Flag(d7, 5) || RotationRaw(d6, d7) < 2 ==> Rotation4DAsWritten(d6, d7) == Rotation4D(d6, d7)
    ensures !Flag(d7, 5) && RotationRaw(d6, d7) >= 2 ==>
              Rotation4DAsWritten(d6, d7) >= TWO31 - 1024 && Rotation4D(d6, d7) < 0
  {
    var t: int := RotationRaw(d6, d7);
    FlaggedRotationIsOdd(d6, d7);
    if Flag(d7, 5) {
      SmallU32(t - 1);
    } else if t == 0 {
      SmallU32(0);
    } else {
      NegatedEvenU32(t);
    }
  }

  /** `-t` as an `unsigned int`, halved, for an even `t` from 2 up. */
  lemma NegatedEvenU32(t: int)
    requires 2 <= t < 2048 && t % 2 == 0
    ensures U32(-t) / 2 == TWO31 - t / 2
  {
    ModUnique(-t, TWO32, -1, TWO32 - t);
    ModUnique(TWO32 - t, 2, TWO31 - t / 2, 0);
  }

  /** Byte 6 zero and byte 7 0x40: a rotation of -1 is reported as 2147483647. */
  lemma Rotation4DCounterexample()
    ensures Rotation4DAsWritten(0, 0x40) == 0x7FFF_FFFF
    ensures Rotation4D(0, 0x40) == -1
  {
    assert Pow2(5) == 32 && Pow2(3) == 8 && Pow2(1) == 2;
    assert Field(0x40, 5, 3) == 2 && Field(0x40, 5, 1) == 0;
    NegatedEvenU32(2);
  }

  // ---- Mouse, lens and marker-pen packets ----
  // The branches of the puck handling, in the order `wacom_intuos_irq` tests them.

  /** A rotation packet: bit 1 of byte 1 set. */
  predicate IsRotationPacket(data: seq<byte>)
    requires |data| >= REPORT_LEN
  {
    IsPuck(data[1]) && Flag(data[1], 1)
  }

  /** A 4D-mouse packet: bit 4 of byte 1 clear, on tablets before the Intuos3. */
  predicate Is4DPacket(ftype: int, data: seq<byte>)
    requires |data| >= REPORT_LEN
  {
    IsPuck(data[1]) && !Flag(data[1], 1) && !Flag(data[1], 4) && ftype < INTUOS3S
  }

  /** A 2D-mouse packet: any other packet of a slot holding the mouse tool. */
  predicate Is2DPacket(ftype: int, tool: int, data: seq<byte>)
    requires |data| >= REPORT_LEN
  {
    IsPuck(data[1]) && !Flag(data[1], 1) && !Is4DPacket(ftype, data) && tool == BTN_TOOL_MOUSE
  }

  /** A lens-cursor packet: the rest, on tablets before the Intuos3 and on the large Intuos3. */
  predicate IsLensPacket(ftype: int, tool: int, data: seq<byte>)
    requires |data| >= REPORT_LEN
  {
    IsPuck(data[1]) && !Flag(data[1], 1) && !Is4DPacket(ftype, data) && tool != BTN_TOOL_MOUSE &&
    (ftype < INTUOS3S || ftype == INTUOS3L)
  }

  /** 4D mouse: left, middle and right from bits 0-2 of byte 8, side bit 5, extra bit 4, then the throttle. */
  function Mouse4DReports(data: seq<byte>): seq<Report>
    requires |data| >= REPORT_LEN
  {
    var d8 := data[8];
    [Key(BTN_LEFT, Flag(d8, 0)), Key(BTN_MIDDLE, Flag(d8, 1)), Key(BTN_RIGHT, Flag(d8, 2)),
     Key(BTN_SIDE, Flag(d8, 5)), Key(BTN_EXTRA, Flag(d8, 4)),
     Abs(ABS_THROTTLE, Throttle(data[6], data[7], d8))]
  }

  /** 2D mouse: left, middle and right from bits 2-4 of byte 8, the wheel step, and side (bit 6) and extra (bit 5) when `sides`. */
  function Mouse2DReports(data: seq<byte>, sides: bool): seq<Report>
    requires |data| >= REPORT_LEN
  {
    var d8 := data[8];
    [Key(BTN_LEFT, Flag(d8, 2)), Key(BTN_MIDDLE, Flag(d8, 3)), Key(BTN_RIGHT, Flag(d8, 4)),
     Rel(REL_WHEEL, Field(d8, 0, 1) - Field(d8, 1, 1))] +
    (if sides then [Key(BTN_SIDE, Flag(d8, 6)), Key(BTN_EXTRA, Flag(d8, 5))] else [])
  }

  /** Lens cursor: left, middle and right from bits 0-2 of byte 8, side bit 4, extra bit 3. */
  function LensReports(data: seq<byte>): seq<Report>
    requires |data| >= REPORT_LEN
  {
    var d8 := data[8];
    [Key(BTN_LEFT, Flag(d8, 0)), Key(BTN_MIDDLE, Flag(d8, 1)), Key(BTN_RIGHT, Flag(d8, 2)),
     Key(BTN_SIDE, Flag(d8, 4)), Key(BTN_EXTRA, Flag(d8, 3))]
  }

  /** The puck branches, given the 4D rotation value and the 2D side-button guard to use. */
  function Puck(ftype: int, tool: int, data: seq<byte>, rz: int, sides: bool): seq<Report>
    requires |data| >= REPORT_LEN
  {
    if !IsPuck(data[1]) then []
    else if IsRotationPacket(data) then
      if ftype >= INTUOS3S then [Abs(ABS_Z, MarkerRotation(data[6], data[7]))] else [Abs(ABS_RZ, rz)]
    else if Is4DPacket(ftype, data) then Mouse4DReports(data)
    else if Is2DPacket(ftype, tool, data) then Mouse2DReports(data, sides)
    else if IsLensPacket(ftype, tool, data) then LensReports(data)
    else []
  }

  /** The Intuos3 2D-mouse side-button guard as written: `type <= INTUOS3S && type >= INTUOS3L`. */
  predicate SideButtonsAsWritten(ftype: int) {
    ftype <= INTUOS3S && ftype >= INTUOS3L
  }

  /** The guard as evidently intended: the Intuos3 family, INTUOS3S through INTUOS3L. */
  predicate SideButtons(ftype: int) {
    ftype >= INTUOS3S && ftype <= INTUOS3L
  }

  /** As written the guard holds for no tablet; the intended one holds for exactly the three Intuos3 types. */
  lemma SideButtonGuards(ftype: int)
    ensures !SideButtonsAsWritten(ftype)
    ensures SideButtons(ftype) <==> ftype in {INTUOS3S, INTUOS3, INTUOS3L}
  {
  }

  /**
   * The buttons (and throttle, wheel, rotation) of a mouse, lens or
   * marker-pen packet, as written: the 4D rotation wraps through unsigned
   * arithmetic and the 2D mouse never reports its side buttons.
   */
  function PuckReports(ftype: int, tool: int, data: seq<byte>): (rs: seq<Report>)
    requires |data| >= REPORT_LEN
    ensures !IsPuck(data[1]) ==> rs == []
    ensures IsRotationPacket(data) ==>
              rs == (if ftype >= INTUOS3S then [Abs(ABS_Z, MarkerRotation(data[6], data[7]))]
                     else [Abs(ABS_RZ, Rotation4DAsWritten(data[6], data[7]))])
    ensures Is4DPacket(ftype, data) ==> rs == Mouse4DReports(data)
    ensures Is2DPacket(ftype, tool, data) ==>
              rs == Mouse2DReports(data, false) && |rs| == 4 && rs[3].Rel? && -1 <= rs[3].value <= 1
    ensures IsLensPacket(ftype, tool, data) ==> rs == LensReports(data)
    ensures (IsPuck(data[1]) && !IsRotationPacket(data) && !Is4DPacket(ftype, data) &&
             !Is2DPacket(ftype, tool, data) && !IsLensPacket(ftype, tool, data)) ==> rs == []
  {
    SideButtonGuards(ftype);
    Puck(ftype, tool, data, Rotation4DAsWritten(data[6], data[7]), SideButtonsAsWritten(ftype))
  }

  /** The puck reports as evidently intended: the signed 4D rotation and the Intuos3 2D side buttons. */
  function PuckReportsIntended(ftype: int, tool: int, data: seq<byte>): (rs: seq<Report>)
    requires |data| >= REPORT_LEN
    ensures IsRotationPacket(data) && ftype < INTUOS3S ==> rs == [Abs(ABS_RZ, Rotation4D(data[6], data[7]))]
    ensures Is2DPacket(ftype, tool, data) ==>
              rs == Mouse2DReports(data, SideButtons(ftype)) && |rs| == (if SideButtons(ftype) then 6 else 4)
    ensures !(IsRotationPacket(data) && ftype < INTUOS3S) && !Is2DPacket(ftype, tool, data) ==>
              rs == PuckReports(ftype, tool, data)
  {
    Puck(ftype, tool, data, Rotation4D(data[6], data[7]), SideButtons(ftype))
  }

  /**
   * Where the code as written and the intended reports part: a 4D rotation
   * without bit 5 and a raw value of 2 or more, and a 2D-mouse packet on an
   * Intuos3.
   */
  predicate PuckDiffers(ftype: int, tool: int, data: seq<byte>)
    requires |data| >= REPORT_LEN
  {
    (IsRotationPacket(data) && ftype < INTUOS3S && !Flag(data[7], 5) && RotationRaw(data[6], data[7]) >= 2) ||
    (Is2DPacket(ftype, tool, data) && SideButtons(ftype))
  }

  lemma PuckReportsDiffer(ftype: int, tool: int, data: seq<byte>)
    requires |data| >= REPORT_LEN
    ensures PuckReportsIntended(ftype, tool, data) != PuckReports(ftype, tool, data) <==> PuckDiffers(ftype, tool, data)
  {
    var a, b := PuckReports(ftype, tool, data), PuckReportsIntended(ftype, tool, data);
    if IsRotationPacket(data) && ftype < INTUOS3S {
      Rotation4DAgreement(data[6], data[7]);
      assert a[0].value == Rotation4DAsWritten(data[6], data[7]) && b[0].value == Rotation4D(data[6], data[7]);
    }
  }

  /**
   * The 4D-mouse throttle: ten bits of magnitude, negated in unsigned
   * arithmetic when bit 3 of byte 8 is set. The negation reads back as the
   * signed `-t`, so the throttle lies within -1023..1023.
   */
  function Throttle(d6: byte, d7: byte, d8: byte): (r: int)
    ensures -1023 <= r <= 1023
    ensures Flag(d8, 3) ==> r == -(TenBits(d6, d7) as int)
    ensures !Flag(d8, 3) ==> r == TenBits(d6, d7)
  {
    var t: int := TenBits(d6, d7);
    if Flag(d8, 3) then
      var r := Int32(U32(-t));
      assert r == -t by { Int32OfU32(-t); }
      r
    else t
  }

  // ---- Pad ----

  /** Pad activity: any of the five low bits of bytes 5 and 6, or either strip. */
  predicate PadActive(data: seq<byte>)
    requires |data| >= REPORT_LEN
  {
    Field(data[5], 0, 5) != 0 || Field(data[6], 0, 5) != 0 || Field(data[1], 0, 5) != 0 ||
    data[2] != 0 || Field(data[3], 0, 5) != 0 || data[4] != 0
  }

  /** The ten pad buttons: BTN_0-3 and BTN_8 from byte 5, BTN_4-7 and BTN_9 from byte 6. */
  function PadButtons(d5: byte, d6: byte): (rs: seq<Report>)
    ensures |rs| == 10
    ensures forall i :: 0 <= i < 10 ==> rs[i].Key? && rs[i].code == BTN_0 + i
  {
    [Key(BTN_0, Flag(d5, 0)), Key(BTN_0 + 1, Flag(d5, 1)), Key(BTN_0 + 2, Flag(d5, 2)), Key(BTN_0 + 3, Flag(d5, 3)),
     Key(BTN_0 + 4, Flag(d6, 0)), Key(BTN_0 + 5, Flag(d6, 1)), Key(BTN_0 + 6, Flag(d6, 2)), Key(BTN_0 + 7, Flag(d6, 3)),
     Key(BTN_0 + 8, Flag(d5, 4)), Key(BTN_0 + 9, Flag(d6, 4))]
  }

  lemma LowFiveBits(b: byte)
    ensures Field(b, 0, 5) != 0 <==> Flag(b, 0) || Flag(b, 1) || Flag(b, 2) || Flag(b, 3) || Flag(b, 4)
  {
    assert Pow2(0) == 1 && Pow2(1) == 2 && Pow2(2) == 4 && Pow2(3) == 8 && Pow2(4) == 16 && Pow2(5) == 32;
    LowBitsSum(b);
  }

  /** The low five bits of a byte, one bit at a time. */
  lemma LowBitsSum(b: byte)
    ensures b % 32 == b % 2 + 2 * ((b / 2) % 2) + 4 * ((b / 4) % 2) + 8 * ((b / 8) % 2) + 16 * ((b / 16) % 2)
  {
    ModDouble(b, 1);
    ModDouble(b, 2);
    ModDouble(b, 4);
    ModDouble(b, 8);
    ModDouble(b, 16);
  }

  /** A pad report: the pad tool is in proximity exactly when a pad button is down or a strip is off zero. */
  function PadStep(w: Wacom, data: seq<byte>): (r: Step)
    requires ValidWacom(w) && |data| >= REPORT_LEN
    ensures ValidWacom(r.w) && r.w.tool[1] == BTN_TOOL_FINGER && r.w.tool[0] == w.tool[0]
    ensures r.w.id == w.id && r.w.serial == w.serial
    ensures |r.reports| == 16 && r.reports[..10] == PadButtons(data[5], data[6])
    ensures r.reports[10] == Abs(ABS_RX, Field(data[1], 0, 5) * 256 + data[2])
    ensures r.reports[11] == Abs(ABS_RY, Field(data[3], 0, 5) * 256 + data[4])
    ensures r.reports[12] == Key(BTN_TOOL_FINGER, PadActive(data))
    ensures r.reports[13..] == [Abs(ABS_MISC, PAD_DEVICE_ID), Msc(MSC_SERIAL, Int32(0xffff_ffff)), Sync]
  {
    var pad := PadButtons(data[5], data[6]);
    var rs := pad +
      [Abs(ABS_RX, Field(data[1], 0, 5) * 256 + data[2]), Abs(ABS_RY, Field(data[3], 0, 5) * 256 + data[4]),
       Key(BTN_TOOL_FINGER, PadActive(data)), Abs(ABS_MISC, PAD_DEVICE_ID), Msc(MSC_SERIAL, Int32(0xffff_ffff)), Sync];
    assert rs[..10] == pad;
    Step(w.(tool := w.tool[1 := BTN_TOOL_FINGER]), rs)
  }

  /** The pad tool is in proximity exactly when a pad button is down or a strip is off zero. */
  lemma PadProximity(w: Wacom, data: seq<byte>)
    requires ValidWacom(w) && |data| >= REPORT_LEN
    ensures var rs := PadStep(w, data).reports;
            rs[12].down <==> (exists i :: 0 <= i < 10 && rs[i].down) || rs[10].value != 0 || rs[11].value != 0
  {
    var rs := PadStep(w, data).reports;
    var pad := PadButtons(data[5], data[6]);
    assert rs[..10] == pad;
    LowFiveBits(data[5]);
    LowFiveBits(data[6]);
    assert Field(data[1], 0, 5) * 256 + data[2] != 0 <==> Field(data[1], 0, 5) != 0 || data[2] != 0;
    assert Field(data[3], 0, 5) * 256 + data[4] != 0 <==> Field(data[3], 0, 5) != 0 || data[4] != 0;
    if (exists i :: 0 <= i < 10 && rs[i].down) {
      var i :| 0 <= i < 10 && rs[i].down;
      assert pad[i].down;
    }
    if Flag(data[5], 0) { assert rs[0].down; }
    if Flag(data[5], 1) { assert rs[1].down; }
    if Flag(data[5], 2) { assert rs[2].down; }
    if Flag(data[5], 3) { assert rs[3].down; }
    if Flag(data[6], 0) { assert rs[4].down; }
    if Flag(data[6], 1) { assert rs[5].down; }
    if Flag(data[6], 2) { assert rs[6].down; }
    if Flag(data[6], 3) { assert rs[7].down; }
    if Flag(data[5], 4) { assert rs[8].down; }
    if Flag(data[6], 4) { assert rs[9].down; }
  }

  // ---- The report handler ----

  /** A position packet: report 2, 5 or 6 that is neither a tool enter nor a tool exit. */
  predicate IsMotion(data: seq<byte>)
    requires |data| >= REPORT_LEN
  {
    data[0] in {2, 5, 6} && !WacomV.IsToolEnter(data[1]) && !WacomV.IsProxOut(data[1])
  }

  /** A position packet the handler drops: a lens on the smaller Intuos3, or a Cintiq packet without the ready bit. */
  predicate Dropped(ftype: int, tool: int, data: seq<byte>)
    requires |data| >= REPORT_LEN
  {
    (tool == BTN_TOOL_LENS && (ftype == INTUOS3 || ftype == INTUOS3S)) || (ftype == CINTIQ && !Flag(data[1], 6))
  }

  /** The end of every position report: the slot's tool id, its tool key down, its serial, a sync. */
  function ToolTail(w: Wacom, idx: nat): seq<Report>
    requires ValidWacom(w) && idx < 2
  {
    [Abs(ABS_MISC, w.id[idx]), Key(w.tool[idx], true), Msc(MSC_SERIAL, Int32(w.serial[idx])), Sync]
  }

  /** The report handler, with the puck reports as written (`intended` false) or as intended. */
  function Dispatch(ftype: int, w: Wacom, data: seq<byte>, intended: bool): Step
    requires ValidWacom(w) && |data| >= REPORT_LEN
  {
    if data[0] !in {2, 5, 6, 12} then Ignore(w)
    else if data[0] == 12 then PadStep(w, data)
    else
      match InOut(w, data)
      case Some(st) => st
      case None =>
        var idx := data[1] % 2;
        var tool := w.tool[idx];
        if Dropped(ftype, tool, data) then Ignore(w)
        else
          var puck := if intended then PuckReportsIntended(ftype, tool, data) else PuckReports(ftype, tool, data);
          Step(w, Position(ftype, data) + General(data) + puck + ToolTail(w, idx))
  }

  /**
   * `wacom_intuos_irq`: reports other than 2, 5, 6 and 12 are ignored;
   * report 12 is the pad; enter and exit packets go to `InOut`; lens
   * packets on the smaller Intuos3 and Cintiq packets without the ready
   * bit are dropped; every other packet reports position, general and puck
   * fields, then the tool id, the tool key, the serial and a sync.
   */
  function Irq(ftype: int, w: Wacom, data: seq<byte>): (r: Step)
    requires ValidWacom(w) && |data| >= REPORT_LEN
    ensures ValidWacom(r.w)
    ensures data[0] !in {2, 5, 6, 12} ==> r == Ignore(w)
    ensures data[0] == 12 ==> r == PadStep(w, data)
    ensures data[0] in {2, 5, 6} && (WacomV.IsToolEnter(data[1]) || WacomV.IsProxOut(data[1])) ==>
              r == InOut(w, data).value
    ensures data[0] in {2, 5, 6} && !WacomV.IsToolEnter(data[1]) ==> r.w == w
    // a position packet reports nothing exactly when it is dropped ...
    ensures IsMotion(data) ==> (r.reports == [] <==> Dropped(ftype, w.tool[data[1] % 2], data))
    // ... and otherwise position, general and puck fields, then the slot's tool
    ensures IsMotion(data) && !Dropped(ftype, w.tool[data[1] % 2], data) ==>
              var idx := data[1] % 2;
              r.reports == Position(ftype, data) + General(data) + PuckReports(ftype, w.tool[idx], data) + ToolTail(w, idx)
  {
    Dispatch(ftype, w, data, false)
  }

  /** The report handler as evidently intended: the same, with the intended puck reports. */
  function IrqIntended(ftype: int, w: Wacom, data: seq<byte>): (r: Step)
    requires ValidWacom(w) && |data| >= REPORT_LEN
    ensures !IsMotion(data) ==> r == Irq(ftype, w, data)
    ensures r.w == Irq(ftype, w, data).w
    ensures IsMotion(data) ==> (r.reports == [] <==> Dropped(ftype, w.tool[data[1] % 2], data))
    ensures IsMotion(data) && !Dropped(ftype, w.tool[data[1] % 2], data) ==>
              var idx := data[1] % 2;
              r.reports == Position(ftype, data) + General(data) + PuckReportsIntended(ftype, w.tool[idx], data) +
                           ToolTail(w, idx)
  {
    Dispatch(ftype, w, data, true)
  }

  /** Two report lists that differ only in their middle part differ exactly when the middles do. */
  lemma MiddleDiffers(a: seq<Report>, p: seq<Report>, q: seq<Report>, t: seq<Report>)
    ensures a + p + t == a + q + t <==> p == q
  {
    if a + p + t == a + q + t {
      assert |p| == |q|;
      assert p == (a + p + t)[|a|..|a| + |p|];
      assert q == (a + q + t)[|a|..|a| + |q|];
    }
  }

  /**
   * The handler as written and as intended tell apart exactly the position
   * packets that are kept and whose puck fields differ.
   */
  lemma IrqDiffer(ftype: int, w: Wacom, data: seq<byte>)
    requires ValidWacom(w) && |data| >= REPORT_LEN
    ensures IrqIntended(ftype, w, data) != Irq(ftype, w, data) <==>
              IsMotion(data) && !Dropped(ftype, w.tool[data[1] % 2], data) && PuckDiffers(ftype, w.tool[data[1] % 2], data)
  {
    var idx := data[1] % 2;
    var tool := w.tool[idx];
    if IsMotion(data) && !Dropped(ftype, tool, data) {
      PuckReportsDiffer(ftype, tool, data);
      MiddleDiffers(Position(ftype, data) + General(data), PuckReports(ftype, tool, data),
                    PuckReportsIntended(ftype, tool, data), ToolTail(w, idx));
    }
  }

  // ---- Pen round trip ----

  /** What a pen packet carries: position, hover distance, pressure, tilt and the two side switches. */
  datatype PenSample = PenSample(x: nat, y: nat, distance: nat, pressure: nat, tiltx: nat, tilty: nat,
                                 stylus: bool, stylus2: bool)

  /** The ranges a tablet of type `ftype` can carry. */
  predicate ValidPenSample(ftype: int, p: PenSample) {
    && (if ftype >= INTUOS3S then p.x < 0x2_0000 && p.y < 0x2_0000 && p.distance < 64
        else p.x < 0x1_0000 && p.y < 0x1_0000 && p.distance < 32)
    && p.pressure < 1024 && p.tiltx < 128 && p.tilty < 128
  }

  /** The header of a pen packet for slot `idx`: a pen packet with the ready bit and the switches in bits 1 and 2. */
  function PenHeader(idx: nat, stylus: bool, stylus2: bool): (h: byte)
    requires idx < 2
  {
    0xe0 + 4 * Bit(stylus2) + 2 * Bit(stylus) + idx
  }

  /** A pen report of tablet type `ftype` for slot `idx` carrying `p`. */
  function EncodePen(ftype: int, idx: nat, p: PenSample): (d: seq<byte>)
    requires idx < 2 && ValidPenSample(ftype, p)
    ensures |d| == REPORT_LEN
  {
    var tail := [p.pressure / 4, (p.pressure % 4) * 64 + p.tiltx / 2, (p.tiltx % 2) * 128 + p.tilty];
    if ftype >= INTUOS3S then
      [2, PenHeader(idx, p.stylus, p.stylus2), p.x / 512, (p.x / 2) % 256, p.y / 512, (p.y / 2) % 256] + tail +
      [p.distance * 4 + (p.x % 2) * 2 + p.y % 2]
    else
      [2, PenHeader(idx, p.stylus, p.stylus2), p.x / 256, p.x % 256, p.y / 256, p.y % 256] + tail + [p.distance * 8]
  }

  /** The header is a pen packet of slot `idx`, with the ready bit, carrying the switches. */
  lemma PenHeaderFields(idx: nat, stylus: bool, stylus2: bool)
    requires idx < 2
    ensures var h := PenHeader(idx, stylus, stylus2);
            && WacomV.IsPen(h) && !WacomV.IsToolEnter(h) && !WacomV.IsProxOut(h) && !IsPuck(h) && h % 2 == idx
            && Flag(h, 1) == stylus && Flag(h, 2) == stylus2 && Flag(h, 6)
  {
    var h := PenHeader(idx, stylus, stylus2);
    var low := 4 * Bit(stylus2) + 2 * Bit(stylus) + idx;
    assert Pow2(1) == 2 && Pow2(2) == 4 && Pow2(6) == 64;
    ModUnique(h, 2, 0x70 + 2 * Bit(stylus2) + Bit(stylus), idx);
    ModUnique(h, 4, 0x38 + Bit(stylus2), 2 * Bit(stylus) + idx);
    ModUnique(h, 8, 28, low);
    ModUnique(h, 64, 3, 32 + low);
    ModUnique(h, 128, 1, 0x60 + low);
    ModUnique(0x70 + 2 * Bit(stylus2) + Bit(stylus), 2, 0x38 + Bit(stylus2), Bit(stylus));
    ModUnique(0x38 + Bit(stylus2), 2, 0x1c, Bit(stylus2));
    ModUnique(0x38 + Bit(stylus2), 16, 3, 8 + Bit(stylus2));
    ModUnique(0x70 + 2 * Bit(stylus2) + Bit(stylus), 32, 3, 16 + 2 * Bit(stylus2) + Bit(stylus));
    ModUnique(28, 8, 3, 4);
    ModUnique(3, 2, 1, 1);
  }

  /** Pressure, tilt and switches of an encoded pen report read back. */
  lemma PenGeneralFields(ftype: int, idx: nat, p: PenSample)
    requires idx < 2 && ValidPenSample(ftype, p)
    ensures var d := EncodePen(ftype, idx, p);
            General(d) == [Abs(ABS_PRESSURE, p.pressure), Abs(ABS_TILT_X, p.tiltx), Abs(ABS_TILT_Y, p.tilty),
                           Key(BTN_STYLUS, p.stylus), Key(BTN_STYLUS2, p.stylus2), Key(BTN_TOUCH, p.pressure > 10)]
  {
    var d := EncodePen(ftype, idx, p);
    PenHeaderFields(idx, p.stylus, p.stylus2);
    assert Pow2(0) == 1 && Pow2(1) == 2 && Pow2(2) == 4 && Pow2(6) == 64 && Pow2(7) == 128;
    ModUnique(d[7], 64, p.pressure % 4, p.tiltx / 2);
    ModUnique(d[8], 128, p.tiltx % 2, p.tilty);
    ModUnique(d[7] / 64, 4, 0, p.pressure % 4);
    ModUnique(d[8] / 128, 2, 0, p.tiltx % 2);
    assert TenBits(d[6], d[7]) == p.pressure;
    assert TiltX(d[7], d[8]) == p.tiltx;
    assert TiltY(d[8]) == p.tilty;
  }

  /** Position and distance of an encoded pen report read back, in either layout. */
  lemma PenPositionFields(ftype: int, idx: nat, p: PenSample)
    requires idx < 2 && ValidPenSample(ftype, p)
    ensures Position(ftype, EncodePen(ftype, idx, p)) == [Abs(ABS_X, p.x), Abs(ABS_Y, p.y), Abs(ABS_DISTANCE, p.distance)]
  {
    var d := EncodePen(ftype, idx, p);
    assert Pow2(0) == 1 && Pow2(1) == 2 && Pow2(2) == 4 && Pow2(3) == 8 && Pow2(5) == 32 && Pow2(6) == 64;
    if ftype >= INTUOS3S {
      DivDivMul(p.x, 2, 256);
      DivDivMul(p.y, 2, 256);
      ModUnique(d[9], 2, p.distance * 2 + p.x % 2, p.y % 2);
      ModUnique(d[9] / 2, 2, p.distance, p.x % 2);
      ModUnique(d[9], 4, p.distance, (p.x % 2) * 2 + p.y % 2);
      ModUnique(d[9] / 4, 64, 0, p.distance);
    } else {
      ModUnique(d[9], 8, p.distance, 0);
      ModUnique(d[9] / 8, 32, 0, p.distance);
    }
  }

  /**
   * A pen report built from a sample is reported back field for field,
   * followed by the slot's tool; only a lens slot on the smaller Intuos3
   * drops it.
   */
  lemma PenRoundTrip(ftype: int, w: Wacom, idx: nat, p: PenSample)
    requires ValidWacom(w) && idx < 2 && ValidPenSample(ftype, p)
    ensures var r := Irq(ftype, w, EncodePen(ftype, idx, p));
            && r.w == w
            && (Dropped(ftype, w.tool[idx], EncodePen(ftype, idx, p)) <==>
                  w.tool[idx] == BTN_TOOL_LENS && (ftype == INTUOS3 || ftype == INTUOS3S))
            && (!Dropped(ftype, w.tool[idx], EncodePen(ftype, idx, p)) ==>
                  r.reports == [Abs(ABS_X, p.x), Abs(ABS_Y, p.y), Abs(ABS_DISTANCE, p.distance),
                                Abs(ABS_PRESSURE, p.pressure), Abs(ABS_TILT_X, p.tiltx), Abs(ABS_TILT_Y, p.tilty),
                                Key(BTN_STYLUS, p.stylus), Key(BTN_STYLUS2, p.stylus2), Key(BTN_TOUCH, p.pressure > 10)] +
                               ToolTail(w, idx))
  {
    var d := EncodePen(ftype, idx, p);
    PenHeaderFields(idx, p.stylus, p.stylus2);
    assert d[1] == PenHeader(idx, p.stylus, p.stylus2);
    PenPositionFields(ftype, idx, p);
    PenGeneralFields(ftype, idx, p);
  }

  // ---- Enter round trip ----

  /** An enter report for tool slot `idx`, tool id `id` and serial `serial`. */
  function EncodeEnter(idx: nat, id: nat, serial: u32): (d: seq<byte>)
    requires idx < 2 && id < 0x1000
    ensures |d| == REPORT_LEN
  {
    [2, 0xc0 + idx, id / 16, (id % 16) * 16 + serial / 0x1000_0000, (serial / 0x10_0000) % 256,
     (serial / 0x1000) % 256, (serial / 16) % 256, (serial % 16) * 16, 0, 0]
  }

  lemma SerialSplit32(s: u32)
    ensures s == (s / 0x1000_0000) * 0x1000_0000 + ((s / 0x10_0000) % 256) * 0x10_0000 +
                 ((s / 0x1000) % 256) * 0x1000 + ((s / 16) % 256) * 16 + s % 16
  {
    DivDivMul(s, 16, 256);
    DivDivMul(s, 0x1000, 256);
    DivDivMul(s, 0x10_0000, 256);
  }

  /** The bytes of an encoded enter report read back as an enter of slot `idx` with the encoded id and serial. */
  lemma EnterReportFields(idx: nat, id: nat, serial: u32)
    requires idx < 2 && id < 0x1000
    ensures var d := EncodeEnter(idx, id, serial);
            && WacomV.IsToolEnter(d[1]) && d[1] % 2 == idx
            && EnterId(d[2], d[3]) == id && EnterSerial(d[3], d[4], d[5], d[6], d[7]) == serial
  {
    var d := EncodeEnter(idx, id, serial);
    assert Pow2(0) == 1 && Pow2(2) == 4 && Pow2(4) == 16;
    ModUnique(0xc0 + idx, 2, 0x60, idx);
    ModUnique(0xc0 + idx, 4, 0x30, idx);
    ModUnique(d[3], 16, id % 16, serial / 0x1000_0000);
    ModUnique(d[7], 16, serial % 16, 0);
    assert Field(d[3], 4, 4) == id % 16;
    assert Field(d[3], 0, 4) == serial / 0x1000_0000;
    assert Field(d[7], 4, 4) == serial % 16;
    SerialSplit32(serial);
  }

  /** Decoding an encoded enter report stores exactly the encoded id and serial, and reports nothing. */
  lemma EnterRoundTrip(ftype: int, w: Wacom, idx: nat, id: nat, serial: u32)
    requires ValidWacom(w) && idx < 2 && id < 0x1000
    ensures var r := Irq(ftype, w, EncodeEnter(idx, id, serial));
            && r.reports == []
            && r.w.id[idx] == id && r.w.serial[idx] == serial && r.w.tool[idx] == IntuosTool(id)
            && r.w.id[1 - idx] == w.id[1 - idx] && r.w.serial[1 - idx] == w.serial[1 - idx]
  {
    EnterReportFields(idx, id, serial);
  }
}

=== FILE: kernel_pen.dfy ===
/**
 * The kernel's decoders for the pen-only USB tablets: `wacom_pl_irq`
 * (PL and DTF displays), `wacom_penpartner_irq` and `wacom_ptu_irq`.
 *
 * The PL decoder keeps the proximity state in `tool[0]` and the tool key
 * in `tool[1]`; PenPartner keeps its tool and id in slot 0; the PTU keeps
 * nothing.
 */
module KernelPen {
  import opened Bits
  import opened ByteFlags
  import opened Consts
  import opened KernelReport

  /** Length of a pen-tablet report. */
  const REPORT_LEN: nat := 8

  /** The value the PL decoder stores in `tool[0]` for "in proximity": the proximity bit itself. */
  const PL_PROX: int := 0x40

  // ---- PL ----

  /**
   * A PL coordinate: the low byte OR'ed with the middle byte shifted by
   * seven and the two low bits of the high byte shifted by 14. The three
   * parts are disjoint, and the value a plain 16-bit sum, whenever bit 7 of
   * the low and middle bytes is clear.
   */
  function PlCoordinate(lo: byte, mid: byte, hi: byte): (c: nat)
    ensures c < 0x1_0000
    ensures lo < 128 && mid < 128 ==> c == lo + mid * 128 + Field(hi, 0, 2) * 0x4000
  {
    PlCoordinateParts(lo, mid, hi);
    BitOr(BitOr(lo, mid * 128), Field(hi, 0, 2) * 0x4000)
  }

  /** The powers of two a PL coordinate is built from. */
  lemma CoordinatePowers()
    ensures Pow2(7) == 128 && Pow2(14) == 0x4000 && Pow2(15) == 0x8000 && Pow2(16) == 0x1_0000
  {
    assert Pow2(7) == 128;
    assert Pow2(14) == 0x4000;
    assert Pow2(15) == 0x8000;
  }

  /** The low byte and the middle byte: disjoint below bit 15. */
  lemma LowParts(lo: byte, mid: byte)
    ensures BitOr(lo, mid * 128) < 0x8000
    ensures lo < 128 && mid < 128 ==> BitOr(lo, mid * 128) == lo + mid * 128
  {
    CoordinatePowers();
    BitOrBound(lo, mid * 128, 15);
    if lo < 128 && mid < 128 {
      BitOrDisjoint(lo, mid, 7);
    }
  }

  /** Adding the high bits: below 65536, and a plain sum when disjoint. */
  lemma HighPart(low: nat, f: nat)
    requires low < 0x8000 && f < 4
    ensures BitOr(low, f * 0x4000) < 0x1_0000
    ensures low < 0x4000 ==> BitOr(low, f * 0x4000) == low + f * 0x4000
  {
    CoordinatePowers();
    BitOrBound(low, f * 0x4000, 16);
    if low < 0x4000 {
      BitOrDisjoint(low, f, 14);
    }
  }

  lemma PlCoordinateParts(lo: byte, mid: byte, hi: byte)
    ensures BitOr(BitOr(lo, mid * 128), Field(hi, 0, 2) * 0x4000) < 0x1_0000
    ensures lo < 128 && mid < 128 ==>
              BitOr(BitOr(lo, mid * 128), Field(hi, 0, 2) * 0x4000) == lo + mid * 128 + Field(hi, 0, 2) * 0x4000
  {
    var f := Field(hi, 0, 2);
    assert f < 4 by { assert Pow2(2) == 4; }
    LowParts(lo, mid);
    HighPart(BitOr(lo, mid * 128), f);
  }

  /**
   * PL pressure: bits 7..0 of the sample read as a signed char, widened by
   * a bit of byte 4 when the tablet reports more than 256 levels, then
   * offset by half the range.
   */
  function PlPressure(pmax: int, d4: byte, d7: byte): (r: int)
    ensures pmax <= 255 ==> -128 <= r - CDiv(pmax + 1, 2) < 128
    ensures pmax > 255 ==> -256 <= r - CDiv(pmax + 1, 2) < 256
  {
    var p := SignedChar((d7 * 2 + Field(d4, 2, 1)) % 256);
    var q := if pmax > 255 then p * 2 + Field(d4, 6, 1) else p;
    q + CDiv(pmax + 1, 2)
  }

  /**
   * For the 256- and 512-level tablets the offset turns the
   * two's-complement sample into an unsigned one: the pressure is the raw
   * 8- or 9-bit sample with its top bit flipped, so it lies in
   * 0..pressure_max.
   */
  lemma PlPressureUnsigned(pmax: int, d4: byte, d7: byte)
    requires pmax == 255 || pmax == 511
    ensures var v := (d7 * 2 + Field(d4, 2, 1)) % 256;
            var r := PlPressure(pmax, d4, d7);
            && 0 <= r <= pmax
            && (pmax == 255 ==> r == (v + 128) % 256)
            && (pmax == 511 ==> r == (v * 2 + Field(d4, 6, 1) + 256) % 512)
  {
    var v := (d7 * 2 + Field(d4, 2, 1)) % 256;
    var b := Field(d4, 6, 1);
    assert b < 2 by { assert Pow2(1) == 2; }
    assert CDiv(pmax + 1, 2) == (pmax + 1) / 2;
    var wrap := if v >= 128 then 1 else 0;
    assert SignedChar(v) == v - 256 * wrap;
    if pmax == 255 {
      ModUnique(v + 128, 256, wrap, v + 128 - 256 * wrap);
    } else {
      ModUnique(v * 2 + b + 256, 512, wrap, v * 2 + b + 256 - 512 * wrap);
    }
  }

  /** An eraser already in proximity whose second side switch has been let go. */
  predicate PlEraserRelease(w: Wacom, data: seq<byte>)
    requires ValidWacom(w) && |data| >= REPORT_LEN
  {
    w.tool[0] != 0 && w.tool[1] == BTN_TOOL_RUBBER && !Flag(data[4], 5)
  }

  /**
   * `wacom_pl_irq`. Reports other than 2 are ignored. Coming into
   * proximity picks the eraser when the DTF eraser bit or the second side
   * switch is set, the pen otherwise; an eraser that was entered with the
   * side switch held and sees it released is first taken out of proximity
   * (and nothing else is reported); out of proximity the current tool is
   * released.
   */
  function PlIrq(pmax: int, w: Wacom, data: seq<byte>): (r: Step)
    requires ValidWacom(w) && |data| >= REPORT_LEN
    ensures ValidWacom(r.w)
    ensures data[0] != 2 ==> r == Ignore(w)
    ensures data[0] == 2 ==>
              && r.w.tool[1] in {BTN_TOOL_PEN, BTN_TOOL_RUBBER}
              && r.w.id == w.id && r.w.serial == w.serial
              && |r.reports| >= 2 && r.reports[|r.reports| - 1] == Sync
              && r.reports[0].Key?
    ensures data[0] == 2 && !Flag(data[1], 6) ==>
              && r.w.tool[0] == 0
              && (r.w.tool[1] == BTN_TOOL_RUBBER <==> w.tool[1] == BTN_TOOL_RUBBER)
              && r.reports == [Key(r.w.tool[1], false), Abs(ABS_MISC, 0), Sync]
    ensures data[0] == 2 && Flag(data[1], 6) && w.tool[0] == 0 ==>
              && r.w.tool[0] == PL_PROX
              && (r.w.tool[1] == BTN_TOOL_RUBBER <==> Flag(data[1], 4) || Flag(data[4], 5))
    ensures data[0] == 2 && Flag(data[1], 6) && PlEraserRelease(w, data) ==>
              r == Step(w.(tool := w.tool[1 := BTN_TOOL_PEN]), [Key(BTN_TOOL_RUBBER, false), Sync])
    ensures data[0] == 2 && Flag(data[1], 6) && w.tool[0] != 0 && !PlEraserRelease(w, data) ==>
              r.w.tool[0] == PL_PROX && (r.w.tool[1] == BTN_TOOL_RUBBER <==> w.tool[1] == BTN_TOOL_RUBBER)
    ensures data[0] == 2 && Flag(data[1], 6) && !PlEraserRelease(w, data) ==>
              && |r.reports| == 9
              && r.reports[0] == Key(r.w.tool[1], true)
              && r.reports[1] == Abs(ABS_MISC, if r.w.tool[1] == BTN_TOOL_RUBBER then ERASER_DEVICE_ID else STYLUS_DEVICE_ID)
              && r.reports[2] == Abs(ABS_X, PlCoordinate(data[3], data[2], data[1]))
              && r.reports[3] == Abs(ABS_Y, PlCoordinate(data[6], data[5], data[4]))
              && r.reports[4] == Abs(ABS_PRESSURE, PlPressure(pmax, data[4], data[7]))
              && r.reports[5] == Key(BTN_TOUCH, Flag(data[4], 3))
              && r.reports[6] == Key(BTN_STYLUS, Flag(data[4], 4))
              && r.reports[7] == Key(BTN_STYLUS2, r.w.tool[1] == BTN_TOOL_PEN && Flag(data[4], 5))
              && r.reports[8] == Sync
  {
    var d1, d4 := data[1], data[4];
    if data[0] != 2 then Ignore(w)
    else if !Flag(d1, 6) then
      var tool := if w.tool[1] != BTN_TOOL_RUBBER then BTN_TOOL_PEN else BTN_TOOL_RUBBER;
      Step(w.(tool := [0, tool]), [Key(tool, false), Abs(ABS_MISC, 0), Sync])
    else if PlEraserRelease(w, data) then
      Step(w.(tool := w.tool[1 := BTN_TOOL_PEN]), [Key(BTN_TOOL_RUBBER, false), Sync])
    else
      var chosen := if w.tool[0] == 0 then
                      (if Flag(d1, 4) || Flag(d4, 5) then BTN_TOOL_RUBBER else BTN_TOOL_PEN)
                    else w.tool[1];
      var tool := if chosen != BTN_TOOL_RUBBER then BTN_TOOL_PEN else BTN_TOOL_RUBBER;
      var id := if tool == BTN_TOOL_RUBBER then ERASER_DEVICE_ID else STYLUS_DEVICE_ID;
      Step(w.(tool := [PL_PROX, tool]),
           [Key(tool, true), Abs(ABS_MISC, id),
            Abs(ABS_X, PlCoordinate(data[3], data[2], d1)), Abs(ABS_Y, PlCoordinate(data[6], data[5], d4)),
            Abs(ABS_PRESSURE, PlPressure(pmax, d4, data[7])),
            Key(BTN_TOUCH, Flag(d4, 3)), Key(BTN_STYLUS, Flag(d4, 4)),
            Key(BTN_STYLUS2, tool == BTN_TOOL_PEN && Flag(d4, 5)), Sync])
  }

  /** Whatever tool a PL report brings into proximity, the next out-of-proximity report releases that same key. */
  lemma PlReleasesTheToolItEntered(pmax: int, w: Wacom, inData: seq<byte>, outData: seq<byte>)
    requires ValidWacom(w) && |inData| >= REPORT_LEN && |outData| >= REPORT_LEN
    requires inData[0] == 2 && outData[0] == 2 && !Flag(outData[1], 6)
    requires Flag(inData[1], 6) && !PlEraserRelease(w, inData)
    ensures var r1 := PlIrq(pmax, w, inData);
            var r2 := PlIrq(pmax, r1.w, outData);
            r1.reports[0] == Key(r1.w.tool[1], true) && r2.reports[0] == Key(r1.w.tool[1], false)
  {
  }

  // ---- PenPartner ----

  /**
   * `wacom_penpartner_irq`. Report 1 in proximity (bit 7 of byte 5)
   * remembers the eraser or the pen from bit 5 and reports it; out of
   * proximity it releases the remembered tool. Report 2 always reports the
   * pen. Pressure is the signed byte 6 plus 127; touch is pressure above
   * zero on report 1 and above 47 (with bit 5 clear) on report 2. Other
   * reports are ignored.
   */
  function PenPartnerIrq(w: Wacom, data: seq<byte>): (r: Step)
    requires ValidWacom(w) && |data| >= REPORT_LEN
    ensures ValidWacom(r.w) && r.w.tool[1] == w.tool[1] && r.w.id[1] == w.id[1] && r.w.serial == w.serial
    ensures data[0] !in {1, 2} ==> r == Ignore(w)
    ensures data[0] in {1, 2} ==> |r.reports| >= 5 && r.reports[|r.reports| - 1] == Sync
    ensures data[0] == 1 && Flag(data[5], 7) ==>
              var p := SignedChar(data[6]) + 127;
              && (r.w.tool[0] == BTN_TOOL_RUBBER <==> Flag(data[5], 5))
              && (r.w.tool[0] == BTN_TOOL_RUBBER || r.w.tool[0] == BTN_TOOL_PEN)
              && r.w.id[0] == (if r.w.tool[0] == BTN_TOOL_RUBBER then ERASER_DEVICE_ID else STYLUS_DEVICE_ID)
              && r.reports[0] == Key(r.w.tool[0], true)
              && r.reports[1] == Abs(ABS_MISC, r.w.id[0])
              && r.reports[2] == Abs(ABS_X, Le16(data[1], data[2]))
              && r.reports[3] == Abs(ABS_Y, Le16(data[3], data[4]))
              && |r.reports| == 8
              && r.reports[4] == Abs(ABS_PRESSURE, p) && -1 <= p <= 254
              && r.reports[5] == Key(BTN_TOUCH, p > 0)
              && r.reports[6] == Key(BTN_STYLUS, Flag(data[5], 6))
    ensures data[0] == 1 && !Flag(data[5], 7) ==>
              r == Step(w, [Key(w.tool[0], false), Abs(ABS_MISC, 0), Abs(ABS_PRESSURE, -1), Key(BTN_TOUCH, false), Sync])
    ensures data[0] == 2 ==>
              var p := SignedChar(data[6]) + 127;
              && r.w == w
              && r.reports[0] == Key(BTN_TOOL_PEN, true)
              && |r.reports| == 8
              && r.reports[1] == Abs(ABS_MISC, STYLUS_DEVICE_ID)
              && r.reports[2] == Abs(ABS_X, Le16(data[1], data[2]))
              && r.reports[3] == Abs(ABS_Y, Le16(data[3], data[4]))
              && r.reports[4] == Abs(ABS_PRESSURE, p)
              && r.reports[5] == Key(BTN_TOUCH, p > 47 && !Flag(data[5], 5))
              && r.reports[6] == Key(BTN_STYLUS, Flag(data[5], 6))
  {
    var d5 := data[5];
    var sc := SignedChar(data[6]);
    if data[0] == 1 then
      if Flag(d5, 7) then
        var tool := if Flag(d5, 5) then BTN_TOOL_RUBBER else BTN_TOOL_PEN;
        var id := if Flag(d5, 5) then ERASER_DEVICE_ID else STYLUS_DEVICE_ID;
        Step(w.(tool := w.tool[0 := tool], id := w.id[0 := id]),
             [Key(tool, true), Abs(ABS_MISC, id), Abs(ABS_X, Le16(data[1], data[2])), Abs(ABS_Y, Le16(data[3], data[4])),
              Abs(ABS_PRESSURE, sc + 127), Key(BTN_TOUCH, sc > -127), Key(BTN_STYLUS, Flag(d5, 6)), Sync])
      else
        Step(w, [Key(w.tool[0], false), Abs(ABS_MISC, 0), Abs(ABS_PRESSURE, -1), Key(BTN_TOUCH, false), Sync])
    else if data[0] == 2 then
      Step(w, [Key(BTN_TOOL_PEN, true), Abs(ABS_MISC, STYLUS_DEVICE_ID),
               Abs(ABS_X, Le16(data[1], data[2])), Abs(ABS_Y, Le16(data[3], data[4])),
               Abs(ABS_PRESSURE, sc + 127), Key(BTN_TOUCH, sc > -80 && !Flag(d5, 5)), Key(BTN_STYLUS, Flag(d5, 6)), Sync])
    else Ignore(w)
  }

  /** A PenPartner tool that report 1 brought into proximity is the one the next out-of-proximity report 1 releases. */
  lemma PenPartnerReleasesTheToolItEntered(w: Wacom, inData: seq<byte>, outData: seq<byte>)
    requires ValidWacom(w) && |inData| >= REPORT_LEN && |outData| >= REPORT_LEN
    requires inData[0] == 1 && Flag(inData[5], 7) && outData[0] == 1 && !Flag(outData[5], 7)
    ensures var r1 := PenPartnerIrq(w, inData);
            var r2 := PenPartnerIrq(r1.w, outData);
            r2.reports[0] == Key(r1.reports[0].code, false) && r2.w == r1.w
  {
  }

  // ---- PTU ----

  /**
   * `wacom_ptu_irq`: bit 2 of byte 1 selects the eraser (touch from bit 3)
   * over the pen (touch from bit 0); bit 5 is proximity; coordinates and
   * pressure are little-endian 16-bit words. Other reports are ignored.
   */
  function PtuIrq(w: Wacom, data: seq<byte>): (r: Step)
    requires |data| >= REPORT_LEN
    ensures r.w == w
    ensures data[0] != 2 ==> r.reports == []
    ensures data[0] == 2 ==>
              var eraser := Flag(data[1], 2);
              && |r.reports| == 9
              && r.reports[0] == Key(if eraser then BTN_TOOL_RUBBER else BTN_TOOL_PEN, Flag(data[1], 5))
              && r.reports[1] == Key(BTN_TOUCH, if eraser then Flag(data[1], 3) else Flag(data[1], 0))
              && r.reports[2] == Abs(ABS_MISC, if eraser then ERASER_DEVICE_ID else STYLUS_DEVICE_ID)
              && r.reports[3] == Abs(ABS_X, Le16(data[2], data[3]))
              && r.reports[4] == Abs(ABS_Y, Le16(data[4], data[5]))
              && r.reports[5] == Abs(ABS_PRESSURE, Le16(data[6], data[7]))
              && r.reports[6] == Key(BTN_STYLUS, Flag(data[1], 1))
              && r.reports[7] == Key(BTN_STYLUS2, Flag(data[1], 4))
              && r.reports[8] == Sync
  {
    var d1 := data[1];
    if data[0] != 2 then Ignore(w)
    else
      var eraser := Flag(d1, 2);
      var tool := if eraser then BTN_TOOL_RUBBER else BTN_TOOL_PEN;
      var touch := if eraser then Flag(d1, 3) else Flag(d1, 0);
      var id := if eraser then ERASER_DEVICE_ID else STYLUS_DEVICE_ID;
      Step(w, [Key(tool, Flag(d1, 5)), Key(BTN_TOUCH, touch), Abs(ABS_MISC, id),
               Abs(ABS_X, Le16(data[2], data[3])), Abs(ABS_Y, Le16(data[4], data[5])),
               Abs(ABS_PRESSURE, Le16(data[6], data[7])), Key(BTN_STYLUS, Flag(d1, 1)),
               Key(BTN_STYLUS2, Flag(d1, 4)), Sync])
  }

  // ---- Encoder round trips ----

  /** What a PTU report carries: the tool, its switches, and three 16-bit values. */
  datatype PtuSample = PtuSample(eraser: bool, prox: bool, touch: bool, stylus: bool, stylus2: bool,
                                 x: nat, y: nat, pressure: nat)

  predicate ValidPtuSample(s: PtuSample) {
    s.x < 0x1_0000 && s.y < 0x1_0000 && s.pressure < 0x1_0000
  }

  /** Byte 1 of a PTU report: the pen's touch in bit 0, the eraser's in bit 3. */
  function PtuStatus(s: PtuSample): byte {
    var bits := [!s.eraser && s.touch, s.stylus, s.eraser, s.eraser && s.touch, s.stylus2, s.prox, false, false];
    FromBitsFlags(bits);
    FromBits(bits)
  }

  /** A PTU report carrying `s`, words little-endian. */
  function EncodePtu(s: PtuSample): (d: seq<byte>)
    requires ValidPtuSample(s)
    ensures |d| == REPORT_LEN
  {
    [2, PtuStatus(s), s.x % 256, s.x / 256, s.y % 256, s.y / 256, s.pressure % 256, s.pressure / 256]
  }

  /** A PTU report built from any sample is reported back field for field. */
  lemma PtuRoundTrip(w: Wacom, s: PtuSample)
    requires ValidPtuSample(s)
    ensures PtuIrq(w, EncodePtu(s)) ==
              Step(w, [Key(if s.eraser then BTN_TOOL_RUBBER else BTN_TOOL_PEN, s.prox), Key(BTN_TOUCH, s.touch),
                       Abs(ABS_MISC, if s.eraser then ERASER_DEVICE_ID else STYLUS_DEVICE_ID),
                       Abs(ABS_X, s.x), Abs(ABS_Y, s.y), Abs(ABS_PRESSURE, s.pressure),
                       Key(BTN_STYLUS, s.stylus), Key(BTN_STYLUS2, s.stylus2), Sync])
  {
    var bits := [!s.eraser && s.touch, s.stylus, s.eraser, s.eraser && s.touch, s.stylus2, s.prox, false, false];
    FromBitsFlags(bits);
    var d := EncodePtu(s);
    assert d[1] == FromBits(bits);
    assert Le16(d[2], d[3]) == s.x && Le16(d[4], d[5]) == s.y && Le16(d[6], d[7]) == s.pressure;
  }

  /**
   * What a PenPartner report carries: proximity (report 1 only), the
   * eraser bit, the side switch, the position and a pressure in -1..254.
   */
  datatype PenPartnerSample = PenPartnerSample(prox: bool, eraser: bool, stylus: bool, x: nat, y: nat, pressure: int)

  predicate ValidPenPartnerSample(s: PenPartnerSample) {
    s.x < 0x1_0000 && s.y < 0x1_0000 && -1 <= s.pressure <= 254
  }

  /** Byte 5 of a PenPartner report: eraser, side switch and proximity in bits 5, 6 and 7. */
  function PenPartnerStatus(s: PenPartnerSample): byte {
    var bits := [false, false, false, false, false, s.eraser, s.stylus, s.prox];
    FromBitsFlags(bits);
    FromBits(bits)
  }

  /** Report `report` of a PenPartner carrying `s`; the pressure travels as a signed byte less 127. */
  function EncodePenPartner(report: byte, s: PenPartnerSample): (d: seq<byte>)
    requires ValidPenPartnerSample(s)
    ensures |d| == REPORT_LEN
  {
    [report, s.x % 256, s.x / 256, s.y % 256, s.y / 256, PenPartnerStatus(s), (s.pressure - 127) % 256, 0]
  }

  /**
   * A PenPartner report built from any sample is reported back: report 1
   * in proximity remembers and reports its tool, out of proximity releases
   * the remembered tool; report 2 is always the pen, touching above 47
   * unless bit 5 is set.
   */
  lemma PenPartnerRoundTrip(w: Wacom, s: PenPartnerSample)
    requires ValidWacom(w) && ValidPenPartnerSample(s)
    ensures var tool := if s.eraser then BTN_TOOL_RUBBER else BTN_TOOL_PEN;
            var id := if s.eraser then ERASER_DEVICE_ID else STYLUS_DEVICE_ID;
            PenPartnerIrq(w, EncodePenPartner(1, s)) ==
              if s.prox then
                Step(w.(tool := w.tool[0 := tool], id := w.id[0 := id]),
                     [Key(tool, true), Abs(ABS_MISC, id), Abs(ABS_X, s.x), Abs(ABS_Y, s.y),
                      Abs(ABS_PRESSURE, s.pressure), Key(BTN_TOUCH, s.pressure > 0), Key(BTN_STYLUS, s.stylus), Sync])
              else
                Step(w, [Key(w.tool[0], false), Abs(ABS_MISC, 0), Abs(ABS_PRESSURE, -1), Key(BTN_TOUCH, false), Sync])
    ensures PenPartnerIrq(w, EncodePenPartner(2, s)) ==
              Step(w, [Key(BTN_TOOL_PEN, true), Abs(ABS_MISC, STYLUS_DEVICE_ID), Abs(ABS_X, s.x), Abs(ABS_Y, s.y),
                       Abs(ABS_PRESSURE, s.pressure), Key(BTN_TOUCH, s.pressure > 47 && !s.eraser),
                       Key(BTN_STYLUS, s.stylus), Sync])
  {
    var bits := [false, false, false, false, false, s.eraser, s.stylus, s.prox];
    FromBitsFlags(bits);
    assert PenPartnerStatus(s) == FromBits(bits);
    var b6: byte := (s.pressure - 127) % 256;
    var wrap := if s.pressure < 127 then -1 else 0;
    ModUnique(s.pressure - 127, 256, wrap, s.pressure - 127 - 256 * wrap);
    assert SignedChar(b6) == s.pressure - 127;
    assert Le16(s.x % 256, s.x / 256) == s.x && Le16(s.y % 256, s.y / 256) == s.y;
  }
}

=== FILE: kernel_report.dfy ===
/**
 * What the kernel decoders of wacom.c produce and keep: the input reports
 * they send (`input_report_key`, `input_report_abs`, `input_report_rel`,
 * `input_event(EV_MSC, …)`, `input_sync`) and the per-tool memory of the
 * `struct wacom` they read and write.
 *
 * `input_report_key` passes `!!value`, so a key report carries a boolean.
 */
module KernelReport {
  import opened Bits

  datatype Report =
    | Key(code: int, down: bool)
    | Abs(code: int, value: int)
    | Rel(code: int, value: int)
    | Msc(code: int, value: int)
    | Sync

  /** The tablet families of the driver's feature table, in enum order. */
  const PENPARTNER: int := 0
  const VOLITO1: int := 1
  const GRAPHIRE: int := 2
  const G4: int := 3
  const PL: int := 4
  const INTUOS: int := 5
  const INTUOS3S: int := 6
  const INTUOS3: int := 7
  const INTUOS3L: int := 8
  const CINTIQ: int := 9
  const MO: int := 10
  const BEE: int := 11

  /** The per-tool memory of `struct wacom`: two tools, their ids and 32-bit serials. */
  datatype Wacom = Wacom(tool: seq<int>, id: seq<int>, serial: seq<u32>)

  predicate ValidWacom(w: Wacom) {
    |w.tool| == 2 && |w.id| == 2 && |w.serial| == 2
  }

  /** One decoder call: the memory afterwards and the reports sent, in order. */
  datatype Step = Step(w: Wacom, reports: seq<Report>)

  /** The decoder sent nothing and changed nothing. */
  function Ignore(w: Wacom): Step {
    Step(w, [])
  }
}

=== FILE: read_buffer.dfy ===
/**
 * The framing loop of `xf86WcmReadPacket`: one read appends what the device
 * has (up to the free space) to the shared buffer, whole packets are handed
 * to the model's parser until it misbehaves or too few bytes remain, and
 * the unparsed tail moves to the front for the next read.
 *
 * The parser is a parameter: from the driver state and the bytes starting
 * at the current position it yields the new driver state and the number
 * of bytes it consumed (`cnt`). The read is a parameter too: the bytes the
 * device has ready.
 */
module ReadBuffer {
  import opened Bits

  /** `sizeof(common->buffer)`. */
  const BUFFER_SIZE: nat := 256

  /** What the parse loop leaves: the driver state, the final position and the offsets the parser was called at. */
  datatype Drained<S> = Drained(state: S, pos: int, calls: seq<int>)

  /**
   * The parse loop as a recursion: call the parser while at least
   * `pktLen` bytes remain past `pos`, advance by what it returns, stop on a
   * non-positive return.
   */
  function Drain<S>(parse: (S, seq<byte>) -> (S, int), pktLen: nat, s: S, data: seq<byte>, pos: nat): (r: Drained<S>)
    ensures r.pos >= pos
    decreases |data| - pos
  {
    if |data| - pos < pktLen then Drained(s, pos, [])
    else
      var (s', cnt) := parse(s, data[pos..]);
      if cnt <= 0 then Drained(s', pos, [pos])
      else
        var rest := Drain(parse, pktLen, s', data, pos + cnt);
        Drained(rest.state, rest.pos, [pos] + rest.calls)
  }

  /**
   * The parser is only called where a whole packet is present, at
   * strictly increasing offsets starting from `pos`; the loop ends at the
   * last call's offset (the parser returned a non-positive count) or where
   * less than a packet remains.
   */
  lemma {:induction false} DrainCalls<S>(parse: (S, seq<byte>) -> (S, int), pktLen: nat, s: S, data: seq<byte>, pos: nat)
    ensures var r := Drain(parse, pktLen, s, data, pos);
            && (forall i :: 0 <= i < |r.calls| ==> pos <= r.calls[i] && |data| - r.calls[i] >= pktLen)
            && (forall i :: 0 <= i < |r.calls| - 1 ==> r.calls[i] < r.calls[i + 1])
            && (|r.calls| > 0 ==> r.calls[0] == pos && r.calls[|r.calls| - 1] <= r.pos)
            && (|r.calls| == 0 <==> |data| - pos < pktLen)
            && (|data| - r.pos < pktLen || (|r.calls| > 0 && r.calls[|r.calls| - 1] == r.pos))
    decreases |data| - pos
  {
    if |data| - pos >= pktLen {
      var (s', cnt) := parse(s, data[pos..]);
      if cnt > 0 {
        DrainCalls(parse, pktLen, s', data, pos + cnt);
      }
    }
  }

  /**
   * The leftover step: after parsing up to `pos` the unparsed bytes move to
   * the front; with nothing parsed the buffer is untouched, with everything
   * parsed it is emptied. The parsed prefix and the kept bytes make up the
   * whole buffer.
   */
  function Compact(data: seq<byte>, pos: int): (r: seq<byte>)
    requires pos >= 0
    ensures pos == 0 ==> r == data
    ensures pos >= |data| ==> r == []
    ensures pos <= |data| ==> data[..pos] + r == data
    ensures |r| <= |data|
  {
    if pos == 0 then data
    else if pos < |data| then data[pos..]
    else []
  }

  /** The bytes a read appends: what the device has, capped at the free space. */
  function ReadInto(buf: seq<byte>, avail: seq<byte>): (r: seq<byte>)
    requires |buf| <= BUFFER_SIZE
    ensures |r| == |buf| + (if |avail| < BUFFER_SIZE - |buf| then |avail| else BUFFER_SIZE - |buf|)
    ensures |r| <= BUFFER_SIZE
    ensures r[..|buf|] == buf
    ensures r[|buf|..] == avail[..|r| - |buf|]
  {
    var take := if |avail| < BUFFER_SIZE - |buf| then |avail| else BUFFER_SIZE - |buf|;
    buf + avail[..take]
  }

  /**
   * One `xf86WcmReadPacket`: a read returning nothing (error or end of
   * file, including a full buffer) is a failure that leaves the buffer as
   * it was, upon which the driver switches its devices off; otherwise the
   * result is the parse loop over the grown buffer and its compacted tail.
   */
  datatype ReadOutcome<S> =
    | ReadFailed
    | ReadDone(state: S, buf: seq<byte>, calls: seq<int>)

  /** The loop's record so far, `calls`, in front of what the rest of the loop does. */
  function After<S>(calls: seq<int>, d: Drained<S>): Drained<S> {
    Drained(d.state, d.pos, calls + d.calls)
  }

  lemma DrainAdvance<S>(parse: (S, seq<byte>) -> (S, int), pktLen: nat, s: S, data: seq<byte>, pos: nat, calls: seq<int>)
    requires |data| - pos >= pktLen && parse(s, data[pos..]).1 > 0
    ensures var (s', cnt) := parse(s, data[pos..]);
            After(calls, Drain(parse, pktLen, s, data, pos)) == After(calls + [pos], Drain(parse, pktLen, s', data, pos + cnt))
  {
    var (s', cnt) := parse(s, data[pos..]);
    var rest := Drain(parse, pktLen, s', data, pos + cnt);
    assert Drain(parse, pktLen, s, data, pos) == Drained(rest.state, rest.pos, [pos] + rest.calls);
    assert calls + ([pos] + rest.calls) == (calls + [pos]) + rest.calls;
  }

  method ReadPacket<S>(parse: (S, seq<byte>) -> (S, int), pktLen: nat, s0: S, buf: seq<byte>, avail: seq<byte>)
    returns (r: ReadOutcome<S>)
    requires |buf| <= BUFFER_SIZE
    ensures r.ReadFailed? <==> |avail| == 0 || |buf| == BUFFER_SIZE
    ensures r.ReadDone? ==>
              var data := ReadInto(buf, avail);
              var d := Drain(parse, pktLen, s0, data, 0);
              r.state == d.state && r.calls == d.calls && r.buf == Compact(data, d.pos)
    ensures r.ReadDone? ==> |r.buf| <= BUFFER_SIZE
  {
    var remaining := BUFFER_SIZE - |buf|;
    var len := if |avail| < remaining then |avail| else remaining;
    if len <= 0 {
      return ReadFailed;
    }
    var data := buf + avail[..len];
    assert data == ReadInto(buf, avail);
    ghost var full := Drain(parse, pktLen, s0, data, 0);
    var s := s0;
    var pos: nat := 0;
    var calls: seq<int> := [];
    while |data| - pos >= pktLen
      invariant full == After(calls, Drain(parse, pktLen, s, data, pos))
      decreases |data| - pos
    {
      var (s', cnt) := parse(s, data[pos..]);
      if cnt <= 0 {
        assert Drain(parse, pktLen, s, data, pos) == Drained(s', pos, [pos]);
        calls := calls + [pos];
        s := s';
        return ReadDone(s, Compact(data, pos), calls);
      }
      DrainAdvance(parse, pktLen, s, data, pos, calls);
      calls := calls + [pos];
      s := s';
      pos := pos + cnt;
    }
    assert calls + [] == calls;
    return ReadDone(s, Compact(data, pos), calls);
  }
}

=== FILE: serial_frame.dfy ===
/**
 * Frame synchronisation of the serial protocols (`xf86WcmSerialValidate`).
 *
 * A serial frame of length `len` is well formed when its first byte has
 * the header bit set and every other byte has it clear. On a violation
 * the validator returns how many bytes to drop so that the next attempt
 * starts at the next byte that carries a header bit.
 */
module SerialFrame {
  import opened Bits

  /** The reference definition of a synchronised frame. */
  predicate WellFramed(data: seq<byte>, len: nat)
    requires len <= |data|
  {
    len == 0 || (HeaderBit(data[0]) && forall j :: 1 <= j < len ==> !HeaderBit(data[j]))
  }

  /** First index in `[i, len)` whose byte carries a header bit, or `len`. */
  function FirstSync(data: seq<byte>, i: nat, len: nat): (k: nat)
    requires 1 <= i <= len <= |data|
    ensures i <= k <= len
    ensures k < len ==> HeaderBit(data[k])
    ensures forall j :: i <= j < k ==> !HeaderBit(data[j])
    decreases len - i
  {
    if i == len then len
    else if HeaderBit(data[i]) then i
    else FirstSync(data, i + 1, len)
  }

  /**
   * The skip count of a frame: 0 when it is well formed; otherwise the
   * offset of the first later byte that carries a header bit; otherwise
   * (only byte 0 is wrong) the whole frame length.
   */
  function Validate(data: seq<byte>, len: nat): (skip: nat)
    requires len <= |data|
    ensures skip <= len
    ensures skip == 0 <==> WellFramed(data, len)
    ensures 0 < skip < len ==>
              HeaderBit(data[skip]) && forall j :: 1 <= j < skip ==> !HeaderBit(data[j])
    ensures skip == len && len > 0 ==>
              !HeaderBit(data[0]) && forall j :: 1 <= j < len ==> !HeaderBit(data[j])
  {
    if len == 0 then 0
    else
      var k := FirstSync(data, 1, len);
      if k < len then k
      else if HeaderBit(data[0]) then 0
      else len
  }
}

=== FILE: serial_init.dfy ===
/**
 * Model detection of serial tablets (`serialInitTablet`) and the
 * parameters each model's init function sets.
 *
 * The tablet answers the model request with a string of the form
 * `~#<model> V<rom version>`. The driver cuts the string at the first '-'
 * after the last 'V', then picks the model from the two characters at
 * indexes 2 and 3. Characters past the end of the answer read as NUL.
 */
module SerialInit {
  import opened Wrappers
  import Bits
  import WacomV
  import WacomIV

  datatype SerialModel =
    | SerialIntuos | SerialIntuos2 | SerialCintiq | SerialPenPartner | SerialGraphire | SerialProtocol4

  /** The character at index `i` of a NUL-terminated answer. */
  function CharAt(s: string, i: nat): char {
    if i < |s| then s[i] else '\0'
  }

  /** The last index holding `c`, if any. */
  function LastIndexOf(s: string, c: char): (r: Option<nat>)
    ensures r.Some? ==> r.value < |s| && s[r.value] == c && forall j :: r.value < j < |s| ==> s[j] != c
    ensures r.None? ==> forall j :: 0 <= j < |s| ==> s[j] != c
  {
    if |s| == 0 then None
    else if s[|s| - 1] == c then Some(|s| - 1)
    else LastIndexOf(s[..|s| - 1], c)
  }

  /** The first index at or after `i` holding `c`, or `|s|`. */
  function IndexFrom(s: string, c: char, i: nat): (k: nat)
    requires i <= |s|
    ensures i <= k <= |s|
    ensures k < |s| ==> s[k] == c
    ensures forall j :: i <= j < k ==> s[j] != c
    decreases |s| - i
  {
    if i == |s| then |s|
    else if s[i] == c then i
    else IndexFrom(s, c, i + 1)
  }

  /**
   * The answer with the ROM version's suffix cut off: ended at the first
   * '-' after the last 'V'. With no 'V' the driver writes before the start
   * of its buffer; that case yields `None`.
   */
  function CutVersion(answer: string): (r: Option<string>)
    ensures r.None? <==> 'V' !in answer
    ensures r.Some? ==> r.value <= answer && LastIndexOf(answer, 'V').Some? &&
                        LastIndexOf(answer, 'V').value < |r.value|
    ensures r.Some? ==> '-' !in r.value[LastIndexOf(answer, 'V').value..]
    ensures r.Some? && |r.value| < |answer| ==> answer[|r.value|] == '-'
  {
    match LastIndexOf(answer, 'V')
    case None => None
    case Some(v) => Some(answer[..IndexFrom(answer, '-', v)])
  }

  /** The model and the tablet id a model answer selects. */
  datatype Detected = Detected(model: SerialModel, tablet_id: int)

  function Detect(id: string): (d: Detected)
    ensures d.model == SerialIntuos <==> CharAt(id, 2) == 'G' && CharAt(id, 3) == 'D'
    ensures d.model == SerialIntuos2 <==> CharAt(id, 2) == 'X' && CharAt(id, 3) == 'D'
    ensures d.model == SerialCintiq <==>
              (CharAt(id, 2) == 'P' && CharAt(id, 3) == 'L') || (CharAt(id, 2) == 'D' && CharAt(id, 3) == 'T')
    ensures d.model == SerialPenPartner <==> CharAt(id, 2) == 'C' && CharAt(id, 3) == 'T'
    ensures d.model == SerialGraphire <==> CharAt(id, 2) == 'E' && CharAt(id, 3) == 'T'
    ensures d.tablet_id == TabletId(d.model)
  {
    var c2, c3 := CharAt(id, 2), CharAt(id, 3);
    if c2 == 'G' && c3 == 'D' then Detected(SerialIntuos, 0x20)
    else if c2 == 'X' && c3 == 'D' then Detected(SerialIntuos2, 0x40)
    else if (c2 == 'P' && c3 == 'L') || (c2 == 'D' && c3 == 'T') then Detected(SerialCintiq, 0x30)
    else if c2 == 'C' && c3 == 'T' then Detected(SerialPenPartner, 0x00)
    else if c2 == 'E' && c3 == 'T' then Detected(SerialGraphire, 0x10)
    else Detected(SerialProtocol4, 0x03)
  }

  /** The tablet id each serial model is given. */
  function TabletId(m: SerialModel): int {
    match m
    case SerialIntuos => 0x20
    case SerialIntuos2 => 0x40
    case SerialCintiq => 0x30
    case SerialPenPartner => 0x00
    case SerialGraphire => 0x10
    case SerialProtocol4 => 0x03
  }

  /**
   * The two model characters of each serial model's answer. Any pair the
   * table does not list detects as protocol 4; "UD" is the UltraPad's.
   */
  function ModelCode(m: SerialModel): string {
    match m
    case SerialIntuos => "GD"
    case SerialIntuos2 => "XD"
    case SerialCintiq => "PL"
    case SerialPenPartner => "CT"
    case SerialGraphire => "ET"
    case SerialProtocol4 => "UD"
  }

  /**
   * Detection inverts the answer: whatever follows the model characters,
   * an answer `~#<code>...` detects the model it was built for, with that
   * model's tablet id, and the tablet id alone tells the detected model.
   */
  lemma DetectRoundTrip(m: SerialModel, rest: string)
    ensures var d := Detect("~#" + ModelCode(m) + rest);
            d.model == m && d.tablet_id == TabletId(m)
    ensures forall id: string :: Detect(id).tablet_id == TabletId(m) <==> Detect(id).model == m
  {
    var a := "~#" + ModelCode(m) + rest;
    assert CharAt(a, 2) == ModelCode(m)[0] && CharAt(a, 3) == ModelCode(m)[1];
  }

  /** The frame decoder each model table installs. */
  datatype Parser = Protocol5 | Protocol4(dialect: WacomIV.Dialect)

  function ParserOf(m: SerialModel): Parser {
    match m
    case SerialIntuos => Protocol5
    case SerialIntuos2 => Protocol5
    case SerialCintiq => Protocol4(WacomIV.Cintiq)
    case SerialPenPartner => Protocol4(WacomIV.Protocol4)
    case SerialGraphire => Protocol4(WacomIV.Graphire)
    case SerialProtocol4 => Protocol4(WacomIV.Protocol4)
  }

  /** The tablet parameters the model init functions set. */
  datatype Params = Params(protocol: int, pktLength: nat, maxX: int, maxY: int, maxZ: int,
                           resolX: int, resolY: int, tilt: bool)

  /** Maximum pressure of a Cintiq (PL series) from characters 5, 6 and 8 of its name. */
  function CintiqMaxZ(id: string, maxZ: int): (z: int)
    ensures CharAt(id, 5) in "2345678" ==> z == 255 || z == 511
    ensures CharAt(id, 5) !in "2345678" ==> z == maxZ
    ensures z == 511 <==> (CharAt(id, 5) == '5' && CharAt(id, 6) == '5') || CharAt(id, 5) in "78" ||
                          (CharAt(id, 5) !in "2345678" && maxZ == 511)
  {
    var c5 := CharAt(id, 5);
    if c5 == '2' then (if CharAt(id, 6) == '5' then 255 else 255)
    else if c5 == '3' then 255
    else if c5 == '4' then 255
    else if c5 == '5' then (if CharAt(id, 6) == '5' then 511 else 255)
    else if c5 == '6' then (if CharAt(id, 8) == 'S' then 255 else 255)
    else if c5 == '7' then 511
    else if c5 == '8' then 511
    else maxZ
  }

  /**
   * The parameters after the model's init function, from those before.
   * `romAtLeast12` stands for the ROM version comparison with 1.2.
   */
  function Init(m: SerialModel, id: string, romAtLeast12: bool, p: Params): (r: Params)
    ensures r.protocol == (if ParserOf(m) == Protocol5 then 5 else 4)
    ensures r.pktLength == (if ParserOf(m) == Protocol5 then WacomV.PKT_LEN else WacomIV.PKT_LEN)
    ensures ParserOf(m) == Protocol5 ==> r.maxZ == 1023 && r.tilt
    ensures ParserOf(m) != Protocol5 ==> r.tilt == p.tilt
    ensures m == SerialGraphire ==> r.maxX == 5103 && r.maxY == 3711
    ensures m != SerialGraphire ==> r.maxX == p.maxX && r.maxY == p.maxY
    ensures ParserOf(m) == Protocol5 ==> r.resolX == 2540 && r.resolY == 2540
    // a PL-710 ('7' at index 5) has the fine resolution; the other Cintiqs the coarse one
    ensures m == SerialCintiq ==>
              && r.resolX == r.resolY == (if CharAt(id, 5) == '7' then 2540 else 508)
              && r.maxZ == CintiqMaxZ(id, p.maxZ)
    ensures m == SerialPenPartner ==> r.maxZ == 255 && r.resolX == 1000 && r.resolY == 1000
    ensures m == SerialGraphire ==> r.maxZ == 511 && r.resolX == 1016 && r.resolY == 1016
    // a protocol-4 tablet keeps a preset maximum, else takes it from the ROM version
    ensures m == SerialProtocol4 ==>
              && r.maxZ == (if p.maxZ != 0 then p.maxZ else if romAtLeast12 then 255 else 120)
              && r.resolX == p.resolX && r.resolY == p.resolY
  {
    match m
    case SerialIntuos => p.(protocol := 5, maxZ := 1023, resolX := 2540, resolY := 2540, pktLength := 9, tilt := true)
    case SerialIntuos2 => p.(protocol := 5, maxZ := 1023, resolX := 2540, resolY := 2540, pktLength := 9, tilt := true)
    case SerialCintiq =>
      var res := if CharAt(id, 5) == '7' then 2540 else 508;
      p.(protocol := 4, pktLength := 7, resolX := res, resolY := res, maxZ := CintiqMaxZ(id, p.maxZ))
    case SerialPenPartner => p.(protocol := 4, pktLength := 7, maxZ := 255, resolX := 1000, resolY := 1000)
    case SerialGraphire =>
      p.(protocol := 4, pktLength := 7, maxX := 5103, maxY := 3711, maxZ := 511, resolX := 1016, resolY := 1016)
    case SerialProtocol4 =>
      p.(protocol := 4, pktLength := 7, maxZ := if p.maxZ != 0 then p.maxZ else if romAtLeast12 then 255 else 120)
  }

  /**
   * Whenever a Wacom-IV model's init chooses the maximum pressure itself
   * (any model but an unrecognised Cintiq or a preset Protocol-4 tablet),
   * and the ROM is 1.2 or later, every pressure its decoder can produce
   * lies within that maximum.
   */
  lemma PressureWithinMax(m: SerialModel, id: string, p: Params, cfg: WacomIV.Config, data: seq<Bits.byte>)
    requires ParserOf(m).Protocol4? && |data| >= WacomIV.PKT_LEN
    requires m == SerialCintiq ==> CharAt(id, 5) in "2345678"
    requires m == SerialProtocol4 ==> p.maxZ == 0
    requires cfg.maxZ == Init(m, id, true, p).maxZ
    ensures 0 <= WacomIV.PressureOf(ParserOf(m).dialect, cfg, data) <= cfg.maxZ
  {
  }

  /**
   * With a ROM before 1.2 a Protocol-4 tablet with no preset maximum gets a
   * maximum pressure of 120, while its frames carry seven bits of pressure:
   * a byte 6 of 0x3f reads as 127.
   */
  lemma OldRomPressureAboveMax(p: Params)
    requires p.maxZ == 0
    ensures var z := Init(SerialProtocol4, "", false, p).maxZ;
            && z == 120
            && WacomIV.PressureOf(WacomIV.Protocol4, WacomIV.Config(z, false, 0, 0), [0x80, 0, 0, 0, 0, 0, 0x3f]) == 127
  {
    assert Bits.Pow2(6) == 64 && Bits.Pow2(1) == 2;
    assert Bits.Field(0x3f, 0, 6) == 63 && !Bits.Flag(0x3f, 6);
  }
}

=== FILE: serial_iv.dfy ===
/**
 * Wacom-IV ("protocol 4") serial frames: `serialParseProtocol4`,
 * `serialParseCintiq`, `serialParseGraphire` and their shared tail
 * `serialParseP4Common`.
 *
 * A frame is seven bytes, followed by two tilt bytes when tilt reporting
 * is on. There is a single channel (0). The three dialects differ only in
 * how they read pressure, and the Graphire reads a relative wheel for its
 * mouse.
 */
module WacomIV {
  import opened Bits
  import opened Consts
  import opened Channels
  import opened SerialFrame

  /** Frame length set by every Wacom-IV model's init function. */
  const PKT_LEN: nat := 7

  datatype Dialect = Protocol4 | Cintiq | Graphire

  /** The tablet parameters the decoders read from the shared tablet record. */
  datatype Config = Config(maxZ: int, tilt: bool, maxTiltX: int, maxTiltY: int)

  /** Bytes a decoder reads: the frame, and the tilt bytes when tilt is on. */
  function Needed(cfg: Config): nat {
    if cfg.tilt then 9 else PKT_LEN
  }

  // ---- Pressure ----

  /** The seven magnitude bits P6..P0: P6..P1 in byte 6, P0 in byte 3. */
  function Magnitude7(d3: byte, d6: byte): (m: nat)
    ensures m < 128
  {
    Field(d6, 0, 6) * 2 + Field(d3, 2, 1)
  }

  /** Pressure of a tablet whose maximum is 255: the magnitude, plus 0x80 when the sign bit is clear. */
  function Pressure255(d3: byte, d6: byte): (p: nat)
    ensures p < 256
    ensures p == Magnitude7(d3, d6) + (if Flag(d6, 6) then 0 else 0x80)
  {
    Field(d6, 0, 6) * 2 + Field(d3, 2, 1) + (if Flag(d6, 6) then 0 else 0x80)
  }

  /**
   * Pressure of the 511-maximum formula (Graphire, and Cintiq when the
   * maximum is not 255). Its byte-0 term `(d0 & ZAXIS_BIT) >> 6` shifts
   * bit 2 out entirely and is always zero.
   */
  function Pressure511(d0: byte, d3: byte, d6: byte): (p: nat)
    ensures p < 512 && p % 2 == 0
    ensures p == Magnitude7(d3, d6) * 2 + (if Flag(d6, 6) then 0 else 0x100)
  {
    var zaxis := (Field(d0, 2, 1) * 4) / 64;
    assert Pow2(1) == 2 && Pow2(6) == 64;
    assert zaxis == 0;
    Field(d6, 0, 6) * 4 + Field(d3, 2, 1) * 2 + zaxis + (if Flag(d6, 6) then 0 else 0x100)
  }

  /** Pressure of a protocol-4 tablet whose maximum is not 255: six bits, plus 0x40 when the sign bit is clear. */
  function Pressure127(d6: byte): (p: nat)
    ensures p < 128
    ensures p == Field(d6, 0, 6) + (if Flag(d6, 6) then 0 else 0x40)
  {
    Field(d6, 0, 6) + (if Flag(d6, 6) then 0 else 0x40)
  }

  /** The pressure each dialect reads. */
  function PressureOf(dialect: Dialect, cfg: Config, data: seq<byte>): (p: nat)
    requires |data| >= PKT_LEN
    ensures cfg.maxZ == 255 && dialect != Graphire ==> p == Pressure255(data[3], data[6])
    ensures cfg.maxZ != 255 && dialect == Protocol4 ==> p == Pressure127(data[6])
    ensures (cfg.maxZ != 255 || dialect == Graphire) && dialect != Protocol4 ==>
              p == Pressure511(data[0], data[3], data[6])
  {
    match dialect
    case Protocol4 => if cfg.maxZ == 255 then Pressure255(data[3], data[6]) else Pressure127(data[6])
    case Cintiq => if cfg.maxZ == 255 then Pressure255(data[3], data[6]) else Pressure511(data[0], data[3], data[6])
    case Graphire => Pressure511(data[0], data[3], data[6])
  }

  // ---- Shared fields ----

  /** X: two bits of byte 0 above the unmasked bytes 1 and 2. */
  function XOf(d0: byte, d1: byte, d2: byte): nat {
    Field(d0, 0, 2) * 0x4000 + d1 * 128 + d2
  }

  /** Y: two bits of byte 3 above the unmasked bytes 4 and 5. */
  function YOf(d3: byte, d4: byte, d5: byte): nat {
    Field(d3, 0, 2) * 0x4000 + d4 * 128 + d5
  }

  /** A tilt byte: TILT_BITS of magnitude, less half the maximum tilt when the sign bit is set. */
  function TiltOf(b: byte, maxTilt: int): int {
    Field(b, 0, 6) - (if Flag(b, 6) then CDiv(maxTilt, 2) else 0)
  }

  /** The button bits B3..B0 of byte 3 (`(d3 & BUTTONS_BITS) >> 3`). */
  function ButtonsOf(d3: byte): (b: nat)
    ensures b < 16
  {
    Field(d3, 3, 4)
  }

  /** The tool class the frame itself suggests: pointer bit, then side switch, then Graphire eraser bit. */
  function CurrentType(d0: byte, buttons: nat): (c: int)
    ensures c in {STYLUS_ID, CURSOR_ID, ERASER_ID}
    ensures BitSet(buttons, 3) ==> c == ERASER_ID
    ensures !BitSet(buttons, 3) ==>
              c == (if !Flag(d0, 5) then CURSOR_ID else if BitSet(buttons, 2) then ERASER_ID else STYLUS_ID)
  {
    var c := if Flag(d0, 5) then (if BitSet(buttons, 2) then ERASER_ID else STYLUS_ID) else CURSOR_ID;
    if BitSet(buttons, 3) then ERASER_ID else c
  }

  /** The record after `serialParseP4Common`, and whether a prox-out was sent first. */
  datatype Common = Common(ds: DeviceState, proxOutFirst: bool)

  /**
   * `serialParseP4Common`: position and proximity from the frame, the tool
   * class latched when the tool comes into proximity, and eraser records
   * stripped of their buttons.
   */
  function P4Common(cfg: Config, data: seq<byte>, last: DeviceState, ds: DeviceState): (r: Common)
    requires |data| >= Needed(cfg)
    // the class changes only on entry into proximity, or away from the eraser while buttons are down
    ensures r.ds.device_type != ds.device_type ==>
              (last.proximity == 0 && r.ds.proximity != 0) ||
              (r.proxOutFirst && ds.device_type == ERASER_ID)
    // a prox-out is sent only when the eraser gives way, with buttons down, in proximity
    ensures r.proxOutFirst ==>
              ds.device_type == ERASER_ID && r.ds.device_type != ERASER_ID &&
              ds.buttons != 0 && r.ds.proximity != 0 && last.proximity != 0
    ensures last.proximity == 0 && r.ds.proximity != 0 ==>
              r.ds.device_type == CurrentType(data[0], ds.buttons)
    // an eraser record carries no buttons and the eraser's id
    ensures r.ds.device_type == ERASER_ID ==> r.ds.buttons == 0 && r.ds.device_id == ERASER_DEVICE_ID
    ensures r.ds.device_type != ERASER_ID ==>
              r.ds.buttons == ds.buttons &&
              r.ds.device_id == (if r.ds.device_type == CURSOR_ID then CURSOR_DEVICE_ID else STYLUS_DEVICE_ID)
    ensures r.ds.proximity == Field(data[0], 6, 1) * 64
    ensures r.ds.x == XOf(data[0], data[1], data[2]) && r.ds.y == YOf(data[3], data[4], data[5])
    ensures cfg.tilt && Flag(data[0], 5) ==>
              r.ds.tiltx == TiltOf(data[7], cfg.maxTiltX) && r.ds.tilty == TiltOf(data[8], cfg.maxTiltY)
    ensures !(cfg.tilt && Flag(data[0], 5)) ==> r.ds.tiltx == ds.tiltx && r.ds.tilty == ds.tilty
  {
    var d0 := data[0];
    var isStylus := Flag(d0, 5);
    var cur := CurrentType(d0, ds.buttons);
    var ds1 := ds.(proximity := Field(d0, 6, 1) * 64,
                   x := XOf(d0, data[1], data[2]), y := YOf(data[3], data[4], data[5]));
    var ds2 := if cfg.tilt && isStylus then
                 ds1.(tiltx := TiltOf(data[7], cfg.maxTiltX), tilty := TiltOf(data[8], cfg.maxTiltY))
               else ds1;
    var entering := last.proximity == 0 && ds2.proximity != 0;
    var switching := !entering && ds2.buttons != 0 && ds2.proximity != 0 &&
                     ds2.device_type != cur && ds2.device_type == ERASER_ID;
    var ds3 := if entering || switching then ds2.(device_type := cur) else ds2;
    var ds4 := ds3.(device_id := if ds3.device_type == CURSOR_ID then CURSOR_DEVICE_ID else STYLUS_DEVICE_ID);
    var ds5 := if ds4.device_type == ERASER_ID then ds4.(buttons := 0, device_id := ERASER_DEVICE_ID) else ds4;
    Common(ds5, switching)
  }

  /** The Graphire mouse's relative wheel: two bits of byte 6, negative when bit 6 is set. */
  function GraphireWheel(d6: byte): (w: int)
    ensures -3 <= w <= 3
  {
    var m := Field(d6, 4, 2);
    if Flag(d6, 6) then -(m as int) else m
  }

  /** The tablet after one parser call, and the parser's return value. */
  datatype Parsed = Parsed(tablet: Tablet, consumed: int)

  /**
   * One Wacom-IV parser call: a frame that fails validation is skipped;
   * otherwise channel 0's record is rebuilt from the frame and emitted,
   * preceded by an all-zero prox-out record when the eraser gives way.
   */
  function ParseIV(dialect: Dialect, cfg: Config, t: Tablet, data: seq<byte>): (r: Parsed)
    requires ValidTable(t.channels) && |data| >= Needed(cfg)
    ensures ValidTable(r.tablet.channels)
    ensures !WellFramed(data, PKT_LEN) ==> r.tablet == t && 1 <= r.consumed <= PKT_LEN
    ensures WellFramed(data, PKT_LEN) ==>
              && r.consumed == PKT_LEN
              && r.tablet.channels[0].last == r.tablet.channels[0].work
              && (r.tablet.log == t.log + [Emission(0, r.tablet.channels[0].work)] ||
                  r.tablet.log == t.log + [Emission(0, ZeroState), Emission(0, r.tablet.channels[0].work)])
    ensures forall i :: 1 <= i < MAX_CHANNELS ==> r.tablet.channels[i] == t.channels[i]
  {
    var n := Validate(data, PKT_LEN);
    if n > 0 then Parsed(t, n)
    else
      var ds0 := ResetRelative(t.channels[0].work);
      var ds1 := ds0.(pressure := PressureOf(dialect, cfg, data), buttons := ButtonsOf(data[3]));
      var c := P4Common(cfg, data, t.channels[0].last, ds1);
      var ds := if dialect == Graphire && c.ds.device_type == CURSOR_ID
                then c.ds.(relwheel := GraphireWheel(data[6])) else c.ds;
      var t1 := if c.proxOutFirst then Emit(t, 0, ZeroState) else t;
      Parsed(Emit(SetWork(t1, 0, ds), 0, ds), PKT_LEN)
  }

  /** A validated frame yields a 16-bit position. */
  lemma PositionBounds(dialect: Dialect, cfg: Config, t: Tablet, data: seq<byte>)
    requires ValidTable(t.channels) && |data| >= Needed(cfg) && WellFramed(data, PKT_LEN)
    ensures var ds := ParseIV(dialect, cfg, t, data).tablet.channels[0].work;
            0 <= ds.x < 0x1_0000 && 0 <= ds.y < 0x1_0000
  {
    assert !HeaderBit(data[1]) && !HeaderBit(data[2]);
    assert !HeaderBit(data[4]) && !HeaderBit(data[5]);
    assert Pow2(2) == 4;
  }

  /**
   * The tool class survives every frame while the tool stays in
   * proximity, except a change away from the eraser; that change is
   * announced by exactly one all-zero prox-out record before the frame's
   * own record.
   */
  lemma ClassLatched(dialect: Dialect, cfg: Config, t: Tablet, data: seq<byte>)
    requires ValidTable(t.channels) && |data| >= Needed(cfg) && WellFramed(data, PKT_LEN)
    requires t.channels[0].last.proximity != 0
    ensures var r := ParseIV(dialect, cfg, t, data);
            var before := t.channels[0].work.device_type;
            var after := r.tablet.channels[0].work.device_type;
            && (after != before ==>
                  before == ERASER_ID && after != ERASER_ID &&
                  r.tablet.log == t.log + [Emission(0, ZeroState), Emission(0, r.tablet.channels[0].work)])
            && (after == before ==> r.tablet.log == t.log + [Emission(0, r.tablet.channels[0].work)])
  {
  }

  // ---- Encoder: a protocol-4 frame laid out as the decoder reads it ----

  /** Sign-and-magnitude tilt byte: magnitude in bits 5..0, sign in bit 6. */
  function TiltByte(negative: bool, mag: nat): (b: byte)
    requires mag < 64
    ensures b < 128
  {
    (if negative then 64 else 0) + mag
  }

  /**
   * A protocol-4 frame: proximity, pointer (stylus) bit, 16-bit X and Y,
   * buttons B3..B0, pressure magnitude P6..P0 with its sign, and the two
   * tilt bytes.
   */
  function EncodeIV(prox: bool, stylus: bool, x: nat, y: nat, buttons: nat, mag: nat,
                    negative: bool, tx: byte, ty: byte): (f: seq<byte>)
    requires x < 0x1_0000 && y < 0x1_0000 && buttons < 16 && mag < 128 && tx < 128 && ty < 128
    ensures |f| == 9
  {
    [0x80 + (if prox then 0x40 else 0) + (if stylus then 0x20 else 0) + x / 0x4000,
     (x / 128) % 128, x % 128,
     buttons * 8 + (mag % 2) * 4 + y / 0x4000, (y / 128) % 128, y % 128,
     (if negative then 0x40 else 0) + mag / 2, tx, ty]
  }

  lemma HeaderByteFields(prox: bool, stylus: bool, xh: nat)
    requires xh < 4
    ensures var b := 0x80 + (if prox then 0x40 else 0) + (if stylus then 0x20 else 0) + xh;
            b < 256 && HeaderBit(b) && Field(b, 0, 2) == xh && (Flag(b, 5) <==> stylus) &&
            Field(b, 6, 1) == (if prox then 1 else 0)
  {
    assert Pow2(0) == 1 && Pow2(1) == 2 && Pow2(2) == 4 && Pow2(5) == 32 && Pow2(6) == 64;
  }

  lemma ButtonByteFields(buttons: nat, p0: nat, yh: nat)
    requires buttons < 16 && p0 < 2 && yh < 4
    ensures var b := buttons * 8 + p0 * 4 + yh;
            b < 128 && Field(b, 3, 4) == buttons && Field(b, 2, 1) == p0 && Field(b, 0, 2) == yh
  {
    assert Pow2(0) == 1 && Pow2(1) == 2 && Pow2(2) == 4 && Pow2(3) == 8 && Pow2(4) == 16;
  }

  lemma PressureByteFields(negative: bool, mh: nat)
    requires mh < 64
    ensures var b := (if negative then 0x40 else 0) + mh;
            b < 128 && Field(b, 0, 6) == mh && (Flag(b, 6) <==> negative)
  {
    assert Pow2(0) == 1 && Pow2(1) == 2 && Pow2(6) == 64;
  }

  lemma SixteenBitSplit(v: nat)
    requires v < 0x1_0000
    ensures v == (v / 0x4000) * 0x4000 + ((v / 128) % 128) * 128 + v % 128
  {
    DivDivMul(v, 128, 128);
  }

  /** A stylus frame passes validation and its bytes read back as the encoded position and pressure. */
  lemma StylusFrameFields(prox: bool, x: nat, y: nat, mag: nat, negative: bool, tx: byte, ty: byte)
    requires x < 0x1_0000 && y < 0x1_0000 && mag < 128 && tx < 128 && ty < 128
    ensures var f := EncodeIV(prox, true, x, y, 0, mag, negative, tx, ty);
            && WellFramed(f, PKT_LEN)
            && XOf(f[0], f[1], f[2]) == x && YOf(f[3], f[4], f[5]) == y
            && Pressure255(f[3], f[6]) == mag + (if negative then 0 else 0x80)
  {
    var f := EncodeIV(prox, true, x, y, 0, mag, negative, tx, ty);
    HeaderByteFields(prox, true, x / 0x4000);
    ButtonByteFields(0, mag % 2, y / 0x4000);
    PressureByteFields(negative, mag / 2);
    SixteenBitSplit(x);
    SixteenBitSplit(y);
    assert forall j :: 1 <= j < PKT_LEN ==> f[j] < 128;
    assert Magnitude7(f[3], f[6]) == mag;
  }

  /** A validated frame leaves channel 0 with the frame's position and the dialect's pressure reading. */
  lemma ParsedPositionAndPressure(dialect: Dialect, cfg: Config, t: Tablet, data: seq<byte>)
    requires ValidTable(t.channels) && |data| >= Needed(cfg) && WellFramed(data, PKT_LEN)
    ensures var ds := ParseIV(dialect, cfg, t, data).tablet.channels[0].work;
            && ds.x == XOf(data[0], data[1], data[2]) && ds.y == YOf(data[3], data[4], data[5])
            && ds.pressure == PressureOf(dialect, cfg, data)
  {
  }

  /**
   * On a tablet whose maximum pressure is 255, a stylus frame decodes to
   * the encoded position, and to the encoded pressure magnitude raised by
   * 0x80 when the sign bit is clear.
   */
  lemma Pressure255RoundTrip(dialect: Dialect, cfg: Config, t: Tablet, prox: bool, x: nat, y: nat,
                             mag: nat, negative: bool, tx: byte, ty: byte)
    requires ValidTable(t.channels) && cfg.maxZ == 255 && dialect != Graphire
    requires x < 0x1_0000 && y < 0x1_0000 && mag < 128 && tx < 128 && ty < 128
    ensures var f := EncodeIV(prox, true, x, y, 0, mag, negative, tx, ty);
            var ds := ParseIV(dialect, cfg, t, f).tablet.channels[0].work;
            ds.x == x && ds.y == y && ds.pressure == mag + (if negative then 0 else 0x80)
  {
    var f := EncodeIV(prox, true, x, y, 0, mag, negative, tx, ty);
    StylusFrameFields(prox, x, y, mag, negative, tx, ty);
    ParsedPositionAndPressure(dialect, cfg, t, f);
  }
}

=== FILE: serial_v.dfy ===
/**
 * Wacom-V ("protocol 5") serial frames: `serialParseProtocol5`.
 *
 * A frame is nine bytes; bytes 1..8 carry seven payload bits each. Bit 0
 * of byte 0 selects one of two channels, and the remaining bits of byte 0
 * select the kind of record by mask matching.
 */
module WacomV {
  import opened Bits
  import opened Consts
  import opened Channels
  import opened ToolIds
  import opened SerialFrame

  /** Frame length set by `serialInitIntuos` and `serialInitIntuos2`. */
  const PKT_LEN: nat := 9

  // ---- Record kinds, by the bits of byte 0 ----

  /** `(h & 0xfc) == 0xc0`: a tool enters proximity. */
  predicate IsToolEnter(h: byte) { h / 4 == 0x30 }
  /** `(h & 0xfe) == 0x80`: the tool leaves proximity. */
  predicate IsProxOut(h: byte) { h / 2 == 0x40 }
  /** `(h & 0xb8) == 0xa0`: a pen or eraser packet. */
  predicate IsPen(h: byte) { h / 128 == 1 && (h / 8) % 8 == 4 }
  /** `(h & 0xbe) == 0xb4`: the airbrush second packet. */
  predicate IsAirbrush(h: byte) { h / 128 == 1 && (h / 2) % 32 == 26 }
  /** `(h & 0xbe) == 0xa8` or `0xb0`: 4D-mouse first, lens or 2D-mouse packet. */
  predicate IsMouseFirst(h: byte) { h / 128 == 1 && ((h / 2) % 32 == 20 || (h / 2) % 32 == 24) }
  /** `(h & 0xbe) == 0xaa`: the 4D-mouse second packet. */
  predicate IsMouseSecond(h: byte) { h / 128 == 1 && (h / 2) % 32 == 21 }

  lemma RecordKindMasks(h: bv8)
    ensures IsToolEnter(h as int) <==> h & 0xfc == 0xc0
    ensures IsProxOut(h as int) <==> h & 0xfe == 0x80
    ensures IsPen(h as int) <==> h & 0xb8 == 0xa0
    ensures IsAirbrush(h as int) <==> h & 0xbe == 0xb4
    ensures IsMouseFirst(h as int) <==> (h & 0xbe == 0xa8 || h & 0xbe == 0xb0)
    ensures IsMouseSecond(h as int) <==> h & 0xbe == 0xaa
  {
  }

  /** No byte matches two kinds, so the order of the tests is immaterial. */
  lemma RecordKindsDisjoint(h: byte)
    ensures IsToolEnter(h) ==> !IsProxOut(h) && !IsPen(h) && !IsAirbrush(h) && !IsMouseFirst(h) && !IsMouseSecond(h)
    ensures IsProxOut(h) ==> !IsPen(h) && !IsAirbrush(h) && !IsMouseFirst(h) && !IsMouseSecond(h)
    ensures IsPen(h) ==> !IsAirbrush(h) && !IsMouseFirst(h) && !IsMouseSecond(h)
    ensures IsAirbrush(h) ==> !IsMouseFirst(h) && !IsMouseSecond(h)
    ensures IsMouseFirst(h) ==> !IsMouseSecond(h)
  {
  }

  // ---- Fields ----

  /** The 12-bit tool id of an enter record: bytes 1 and 2. */
  function ToolIdOf(d1: byte, d2: byte): (id: nat)
    ensures id < 0x1000
  {
    Field(d1, 0, 7) * 32 + Field(d2, 2, 5)
  }

  /** The 32-bit tool serial number of an enter record: bytes 2..7. */
  function SerialOf(d2: byte, d3: byte, d4: byte, d5: byte, d6: byte, d7: byte): (s: nat)
    ensures s < TWO32
  {
    Field(d2, 0, 2) * 0x4000_0000 + Field(d3, 0, 7) * 0x80_0000 + Field(d4, 0, 7) * 0x1_0000
      + Field(d5, 0, 7) * 0x200 + Field(d6, 0, 7) * 4 + Field(d7, 5, 2)
  }

  /** The 16-bit X coordinate: bytes 1..3. */
  function XOf(d1: byte, d2: byte, d3: byte): (x: nat)
    ensures x < 0x1_0000
  {
    Field(d1, 0, 7) * 0x200 + Field(d2, 0, 7) * 4 + Field(d3, 5, 2)
  }

  /** The 16-bit Y coordinate: bytes 3..5. */
  function YOf(d3: byte, d4: byte, d5: byte): (y: nat)
    ensures y < 0x1_0000
  {
    Field(d3, 0, 5) * 0x800 + Field(d4, 0, 7) * 16 + Field(d5, 3, 4)
  }

  /** Pressure, airbrush wheel and 4D throttle magnitude: 10 bits of bytes 5, 6. */
  function TenBits(d5: byte, d6: byte): (v: nat)
    ensures v < 1024
  {
    Field(d5, 0, 3) * 128 + Field(d6, 0, 7)
  }

  /** A tilt byte: TILT_BITS of magnitude, and a sign bit worth -(TILT_BITS + 1). */
  function TiltOf(b: byte): (t: int)
    ensures -64 <= t < 64
  {
    Field(b, 0, 6) - (if Flag(b, 6) then 64 else 0)
  }

  /** The 11-bit raw rotation of the 4D-mouse second packet: bytes 6, 7. */
  function RotationRawOf(d6: byte, d7: byte): (raw: nat)
    ensures raw < 2048
  {
    Field(d6, 0, 4) * 128 + Field(d7, 0, 7)
  }

  /** The pen's side-switch bits of byte 0, kept in place (`h & 0x06`). */
  function PenButtonsOf(h: byte): (b: nat)
    ensures b <= 6 && b % 2 == 0
  {
    Field(h, 1, 2) * 2
  }

  /** The proximity bit of byte 0, kept in place (`h & PROXIMITY_BIT`). */
  function ProximityOf(h: byte): (p: int)
    ensures p == 0 || p == PROXIMITY_BIT
  {
    Field(h, 6, 1) * 64
  }

  /** 4D-mouse buttons of byte 8: `((d8 & 0x70) >> 1) | (d8 & 0x07)`. */
  function Buttons4DOf(d8: byte): (b: nat)
    ensures b < 64
  {
    Field(d8, 4, 3) * 8 + Field(d8, 0, 3)
  }

  /** 2D-mouse buttons of byte 8: `(d8 & 0x1c) >> 2`. */
  function Buttons2DOf(d8: byte): (b: nat)
    ensures b < 8
  {
    Field(d8, 2, 3)
  }

  /** 2D-mouse wheel step of byte 8: bit 1 counts +1, bit 0 counts -1. */
  function Wheel2DOf(d8: byte): (w: int)
    ensures -1 <= w <= 1
  {
    Field(d8, 1, 1) - Field(d8, 0, 1)
  }

  /** Whether the first 4D-mouse packet after entry is dropped: `(id & 0xf06) != 0x802`. */
  predicate DiscardsFirst(id: nat) {
    !((id / 256) % 16 == 8 && (id / 2) % 4 == 1)
  }

  /** The 4D rotation: `-raw` below 900, `1799 - raw` from 900 on. */
  function Rotation(raw: nat): (r: int)
    requires raw < 2048
    ensures -899 <= r <= 899
    ensures raw < 900 ==> r <= 0 && r + raw == 0
    ensures 900 <= raw ==> r + raw == 1799
  {
    if raw < 900 then -(raw as int) else 1799 - raw
  }

  // ---- Decoding one validated frame ----

  /** The driver class of a tool id, as recorded in `device_type`. */
  function ToolClass(id: nat): (c: int)
    ensures c in {STYLUS_ID, CURSOR_ID, ERASER_ID}
  {
    if StylusTool(id) then STYLUS_ID else if CursorTool(id) then CURSOR_ID else ERASER_ID
  }

  /** What a validated frame leaves in its channel, and whether it is emitted. */
  datatype Decoded = Decoded(ds: DeviceState, emit: bool)

  function EnterRecord(data: seq<byte>): DeviceState
    requires |data| >= PKT_LEN
  {
    var id := ToolIdOf(data[1], data[2]);
    ZeroState.(proximity := 1, device_id := id,
               serial_num := SerialOf(data[2], data[3], data[4], data[5], data[6], data[7]),
               discard_first := DiscardsFirst(id), device_type := ToolClass(id))
  }

  function PenRecord(ds: DeviceState, data: seq<byte>): DeviceState
    requires |data| >= PKT_LEN
  {
    var h := data[0];
    var ds1 := ds.(x := XOf(data[1], data[2], data[3]), y := YOf(data[3], data[4], data[5]));
    var ds2 := if IsPen(h) then ds1.(pressure := TenBits(data[5], data[6]), buttons := PenButtonsOf(h))
               else ds1.(abswheel := TenBits(data[5], data[6]));
    ds2.(tiltx := TiltOf(data[7]), tilty := TiltOf(data[8]), proximity := ProximityOf(h))
  }

  function MouseFirstRecord(ds: DeviceState, data: seq<byte>): Decoded
    requires |data| >= PKT_LEN
  {
    var ds1 := ds.(x := XOf(data[1], data[2], data[3]), y := YOf(data[3], data[4], data[5]), tilty := 0);
    var d8 := data[8];
    var r :=
      if Mouse4D(ds1.device_id) then
        var mag := TenBits(data[5], data[6]);
        Decoded(ds1.(throttle := if Flag(d8, 3) then -(mag as int) else mag, buttons := Buttons4DOf(d8)),
                !ds1.discard_first)
      else if LensCursor(ds1.device_id) then Decoded(ds1.(buttons := d8), true)
      else if Mouse2D(ds1.device_id) then
        Decoded(ds1.(buttons := Buttons2DOf(d8), relwheel := Wheel2DOf(d8)), true)
      else Decoded(ds1, false);
    r.(ds := r.ds.(proximity := ProximityOf(data[0])))
  }

  function MouseSecondRecord(ds: DeviceState, data: seq<byte>): DeviceState
    requires |data| >= PKT_LEN
  {
    ds.(x := XOf(data[1], data[2], data[3]), y := YOf(data[3], data[4], data[5]),
        rotation := Rotation(RotationRawOf(data[6], data[7])),
        proximity := ProximityOf(data[0]), discard_first := false)
  }

  /** The record a validated frame makes of the channel's previous working record. */
  function DecodeRecord(work: DeviceState, data: seq<byte>): (r: Decoded)
    requires |data| >= PKT_LEN
    ensures r.ds.relwheel != 0 ==> IsMouseFirst(data[0]) && Mouse2D(r.ds.device_id)
  {
    var h := data[0];
    var ds := ResetRelative(work);
    if IsToolEnter(h) then Decoded(EnterRecord(data), false)
    else if IsProxOut(h) then Decoded(ds.(proximity := 0), true)
    else if IsPen(h) || IsAirbrush(h) then Decoded(PenRecord(ds, data), true)
    else if IsMouseFirst(h) then MouseFirstRecord(ds, data)
    else if IsMouseSecond(h) then Decoded(MouseSecondRecord(ds, data), true)
    else Decoded(ds, false)
  }

  /** The tablet after one parser call, and the parser's return value. */
  datatype Parsed = Parsed(tablet: Tablet, consumed: int)

  /**
   * `serialParseProtocol5`: a frame that fails validation is skipped;
   * otherwise it updates the working record of channel `data[0] & 1`,
   * emits it when the record kind calls for it, and consumes the frame.
   */
  function ParseProtocol5(t: Tablet, data: seq<byte>): (r: Parsed)
    requires ValidTable(t.channels) && |data| >= PKT_LEN
    ensures ValidTable(r.tablet.channels)
    ensures !WellFramed(data, PKT_LEN) ==> r.tablet == t && 1 <= r.consumed <= PKT_LEN
    ensures WellFramed(data, PKT_LEN) ==> r.consumed == PKT_LEN
    ensures forall i :: 0 <= i < MAX_CHANNELS && i != data[0] % 2 ==>
              r.tablet.channels[i] == t.channels[i]
    ensures r.tablet.log == t.log ||
            (r.tablet.log == t.log + [Emission(data[0] % 2, r.tablet.channels[data[0] % 2].work)]
             && r.tablet.channels[data[0] % 2].last == r.tablet.channels[data[0] % 2].work)
  {
    var n := Validate(data, PKT_LEN);
    if n > 0 then Parsed(t, n)
    else
      var ch := data[0] % 2;
      var d := DecodeRecord(t.channels[ch].work, data);
      var t1 := SetWork(t, ch, d.ds);
      Parsed(if d.emit then Emit(t1, ch, d.ds) else t1, PKT_LEN)
  }

  /** Proof step: a frame that passes validation takes the decoding branch of the parser. */
  lemma ParseWellFramed(t: Tablet, data: seq<byte>)
    requires ValidTable(t.channels) && |data| >= PKT_LEN && WellFramed(data, PKT_LEN)
    ensures var ch := data[0] % 2;
            var d := DecodeRecord(t.channels[ch].work, data);
            var t1 := SetWork(t, ch, d.ds);
            ParseProtocol5(t, data) == Parsed(if d.emit then Emit(t1, ch, d.ds) else t1, PKT_LEN)
  {
  }

  // ---- Properties of single frames ----

  /**
   * A tool-enter frame starts its channel's record from scratch with
   * proximity 1, the frame's tool id and serial number, and emits nothing.
   */
  lemma ToolEnterFrame(t: Tablet, data: seq<byte>)
    requires ValidTable(t.channels) && |data| >= PKT_LEN
    requires WellFramed(data, PKT_LEN) && IsToolEnter(data[0])
    ensures var r := ParseProtocol5(t, data);
            var ds := r.tablet.channels[data[0] % 2].work;
            && r.tablet.log == t.log
            && r.tablet.channels[data[0] % 2].last == t.channels[data[0] % 2].last
            && ds.proximity == 1
            && ds.device_id == ToolIdOf(data[1], data[2])
            && ds.serial_num == SerialOf(data[2], data[3], data[4], data[5], data[6], data[7])
            && (ds.discard_first <==> DiscardsFirst(ds.device_id))
            && ds.(device_id := 0, serial_num := 0, proximity := 0, discard_first := false,
                   device_type := 0) == ZeroState
  {
  }

  /** A prox-out frame emits the previous record with proximity 0 and no relative motion. */
  lemma ProxOutFrame(t: Tablet, data: seq<byte>)
    requires ValidTable(t.channels) && |data| >= PKT_LEN
    requires WellFramed(data, PKT_LEN) && IsProxOut(data[0])
    ensures var ch := data[0] % 2;
            ParseProtocol5(t, data).tablet.log
              == t.log + [Emission(ch, t.channels[ch].work.(relwheel := 0, proximity := 0))]
  {
  }

  /** A frame of no known kind emits nothing and only clears the relative wheel. */
  lemma UnknownFrame(t: Tablet, data: seq<byte>)
    requires ValidTable(t.channels) && |data| >= PKT_LEN
    requires WellFramed(data, PKT_LEN)
    requires !IsToolEnter(data[0]) && !IsProxOut(data[0]) && !IsPen(data[0])
    requires !IsAirbrush(data[0]) && !IsMouseFirst(data[0]) && !IsMouseSecond(data[0])
    ensures var r := ParseProtocol5(t, data);
            var ch := data[0] % 2;
            && r.consumed == PKT_LEN
            && r.tablet.log == t.log
            && r.tablet.channels[ch] == t.channels[ch].(work := t.channels[ch].work.(relwheel := 0))
  {
  }

  /**
   * Every frame that carries a position leaves X and Y below 65536, and a
   * pen frame's pressure (an airbrush frame's wheel) below 1024.
   */
  lemma PositionBounds(t: Tablet, data: seq<byte>)
    requires ValidTable(t.channels) && |data| >= PKT_LEN
    requires WellFramed(data, PKT_LEN)
    requires IsPen(data[0]) || IsAirbrush(data[0]) || IsMouseFirst(data[0]) || IsMouseSecond(data[0])
    ensures var ds := ParseProtocol5(t, data).tablet.channels[data[0] % 2].work;
            0 <= ds.x < 0x1_0000 && 0 <= ds.y < 0x1_0000
            && (IsPen(data[0]) ==> 0 <= ds.pressure < 1024)
            && (IsAirbrush(data[0]) ==> 0 <= ds.abswheel < 1024)
  {
    RecordKindsDisjoint(data[0]);
  }

  /**
   * A 4D-mouse first packet is emitted exactly when the channel's record
   * does not ask for its first packet to be discarded.
   */
  lemma Mouse4DFirstPacket(t: Tablet, data: seq<byte>)
    requires ValidTable(t.channels) && |data| >= PKT_LEN
    requires WellFramed(data, PKT_LEN) && IsMouseFirst(data[0])
    requires Mouse4D(t.channels[data[0] % 2].work.device_id)
    ensures var r := ParseProtocol5(t, data);
            (|r.tablet.log| == |t.log| + 1) == !t.channels[data[0] % 2].work.discard_first
  {
    RecordKindsDisjoint(data[0]);
  }

  /** The 4D-mouse second packet is always emitted and clears `discard_first`. */
  lemma Mouse4DSecondPacket(t: Tablet, data: seq<byte>)
    requires ValidTable(t.channels) && |data| >= PKT_LEN
    requires WellFramed(data, PKT_LEN) && IsMouseSecond(data[0])
    ensures var r := ParseProtocol5(t, data);
            var ds := r.tablet.channels[data[0] % 2].work;
            !ds.discard_first && -899 <= ds.rotation <= 899
            && r.tablet.log == t.log + [Emission(data[0] % 2, ds)]
  {
    RecordKindsDisjoint(data[0]);
  }

  // ---- Encoders: the frame layout read the other way round ----

  /** The seven-bit tilt byte of a tilt value in -64..63. */
  function TiltByte(v: int): (b: byte)
    requires -64 <= v < 64
    ensures b < 128
  {
    if v < 0 then v + 128 else v
  }

  /** The tool-enter frame announcing tool `id` with serial `serial` on channel `ch`. */
  function EncodeEnter(ch: nat, id: nat, serial: nat): (f: seq<byte>)
    requires ch < 2 && id < 0x1000 && serial < TWO32
    ensures |f| == PKT_LEN
  {
    [0xc0 + ch, id / 32, (id % 32) * 4 + serial / 0x4000_0000,
     (serial / 0x80_0000) % 128, (serial / 0x1_0000) % 128, (serial / 0x200) % 128,
     (serial / 4) % 128, (serial % 4) * 32, 0]
  }

  /** The pen frame for a position, pressure, side switches and tilt on channel `ch`. */
  function EncodePen(ch: nat, prox: bool, x: nat, y: nat, pressure: nat, switches: nat,
                     tiltx: int, tilty: int): (f: seq<byte>)
    requires ch < 2 && x < 0x1_0000 && y < 0x1_0000 && pressure < 1024 && switches < 4
    requires -64 <= tiltx < 64 && -64 <= tilty < 64
    ensures |f| == PKT_LEN
  {
    [0xa0 + (if prox then 0x40 else 0) + switches * 2 + ch,
     x / 0x200, (x / 4) % 128, (x % 4) * 32 + y / 0x800, (y / 16) % 128,
     (y % 16) * 8 + pressure / 128, pressure % 128, TiltByte(tiltx), TiltByte(tilty)]
  }

  lemma FieldsOfSevenBits(b: byte)
    requires b < 128
    ensures Field(b, 0, 7) == b
  {
    assert Pow2(0) == 1 && Pow2(7) == 128;
  }

  lemma SerialSplit(s: nat)
    requires s < TWO32
    ensures s == (s / 0x4000_0000) * 0x4000_0000 + ((s / 0x80_0000) % 128) * 0x80_0000
               + ((s / 0x1_0000) % 128) * 0x1_0000 + ((s / 0x200) % 128) * 0x200
               + ((s / 4) % 128) * 4 + s % 4
  {
    DivDivMul(s, 4, 128);
    DivDivMul(s, 0x200, 128);
    DivDivMul(s, 0x1_0000, 128);
    DivDivMul(s, 0x80_0000, 128);
  }

  lemma IdAndSerialRoundTrip(id: nat, serial: nat)
    requires id < 0x1000 && serial < TWO32
    ensures ToolIdOf(id / 32, (id % 32) * 4 + serial / 0x4000_0000) == id
    ensures SerialOf((id % 32) * 4 + serial / 0x4000_0000, (serial / 0x80_0000) % 128,
                     (serial / 0x1_0000) % 128, (serial / 0x200) % 128, (serial / 4) % 128,
                     (serial % 4) * 32) == serial
  {
    var d2 := (id % 32) * 4 + serial / 0x4000_0000;
    assert Pow2(2) == 4 && Pow2(5) == 32 && Pow2(0) == 1;
    ModUnique(d2, 4, id % 32, serial / 0x4000_0000);
    ModUnique((serial % 4) * 32, 32, serial % 4, 0);
    FieldsOfSevenBits(id / 32);
    assert Field(d2, 2, 5) == id % 32;
    assert Field(d2, 0, 2) == serial / 0x4000_0000;
    FieldsOfSevenBits((serial / 0x80_0000) % 128);
    FieldsOfSevenBits((serial / 0x1_0000) % 128);
    FieldsOfSevenBits((serial / 0x200) % 128);
    FieldsOfSevenBits((serial / 4) % 128);
    assert Field((serial % 4) * 32, 5, 2) == serial % 4;
    SerialSplit(serial);
  }

  lemma PositionRoundTrip(x: nat, y: nat, pressure: nat)
    requires x < 0x1_0000 && y < 0x1_0000 && pressure < 1024
    ensures XOf(x / 0x200, (x / 4) % 128, (x % 4) * 32 + y / 0x800) == x
    ensures YOf((x % 4) * 32 + y / 0x800, (y / 16) % 128, (y % 16) * 8 + pressure / 128) == y
    ensures TenBits((y % 16) * 8 + pressure / 128, pressure % 128) == pressure
  {
    var d3 := (x % 4) * 32 + y / 0x800;
    var d5 := (y % 16) * 8 + pressure / 128;
    assert Pow2(0) == 1 && Pow2(2) == 4 && Pow2(3) == 8 && Pow2(4) == 16 && Pow2(5) == 32 && Pow2(7) == 128;
    DivDivMul(x, 4, 128);
    DivDivMul(y, 16, 128);
    ModUnique(d3, 32, x % 4, y / 0x800);
    ModUnique(d5, 8, y % 16, pressure / 128);
    assert Field(d3, 5, 2) == x % 4 && Field(d3, 0, 5) == y / 0x800;
    assert Field(d5, 3, 4) == y % 16 && Field(d5, 0, 3) == pressure / 128;
    FieldsOfSevenBits(x / 0x200);
    FieldsOfSevenBits((x / 4) % 128);
    FieldsOfSevenBits((y / 16) % 128);
    FieldsOfSevenBits(pressure % 128);
  }

  lemma TiltRoundTrip(v: int)
    requires -64 <= v < 64
    ensures TiltOf(TiltByte(v)) == v
  {
    assert Pow2(0) == 1 && Pow2(6) == 64 && Pow2(1) == 2;
  }

  /** Decoding an encoded tool-enter frame recovers the tool id and serial number. */
  lemma EnterRoundTrip(t: Tablet, ch: nat, id: nat, serial: nat)
    requires ValidTable(t.channels)
    requires ch < 2 && id < 0x1000 && serial < TWO32
    ensures var f := EncodeEnter(ch, id, serial);
            var r := ParseProtocol5(t, f);
            && WellFramed(f, PKT_LEN)
            && f[0] % 2 == ch
            && r.consumed == PKT_LEN
            && r.tablet.log == t.log
            && r.tablet.channels[ch].work.device_id == id
            && r.tablet.channels[ch].work.serial_num == serial
            && r.tablet.channels[ch].work.proximity == 1
  {
    var f := EncodeEnter(ch, id, serial);
    EnterFrameValid(ch, id, serial);
    EnterFrameFields(ch, id, serial);
    EnterRecordFields(f);
    assert DecodeRecord(t.channels[ch].work, f) == Decoded(EnterRecord(f), false);
    ParseWellFramed(t, f);
  }

  /** An encoded tool-enter frame passes validation as a tool-enter record of channel `ch`. */
  lemma EnterFrameValid(ch: nat, id: nat, serial: nat)
    requires ch < 2 && id < 0x1000 && serial < TWO32
    ensures var f := EncodeEnter(ch, id, serial);
            WellFramed(f, PKT_LEN) && IsToolEnter(f[0]) && f[0] % 2 == ch
  {
    var f := EncodeEnter(ch, id, serial);
    assert forall j :: 1 <= j < PKT_LEN ==> f[j] < 128;
    ModUnique(0xc0 + ch, 2, 0x60, ch);
    ModUnique(0xc0 + ch, 4, 0x30, ch);
  }

  /** An encoded tool-enter frame reads back as the encoded tool id and serial. */
  lemma EnterFrameFields(ch: nat, id: nat, serial: nat)
    requires ch < 2 && id < 0x1000 && serial < TWO32
    ensures var f := EncodeEnter(ch, id, serial);
            ToolIdOf(f[1], f[2]) == id && SerialOf(f[2], f[3], f[4], f[5], f[6], f[7]) == serial
  {
    var f := EncodeEnter(ch, id, serial);
    var d1, d2 := id / 32, (id % 32) * 4 + serial / 0x4000_0000;
    var d3, d4, d5 := (serial / 0x80_0000) % 128, (serial / 0x1_0000) % 128, (serial / 0x200) % 128;
    var d6, d7 := (serial / 4) % 128, (serial % 4) * 32;
    assert f[1] == d1 && f[2] == d2 && f[3] == d3 && f[4] == d4 && f[5] == d5 && f[6] == d6 && f[7] == d7;
    IdAndSerialRoundTrip(id, serial);
  }

  /** A tool-enter record takes its tool id from bytes 1, 2 and its serial from bytes 2..7. */
  lemma EnterRecordFields(f: seq<byte>)
    requires |f| >= PKT_LEN
    ensures EnterRecord(f).device_id == ToolIdOf(f[1], f[2])
    ensures EnterRecord(f).serial_num == SerialOf(f[2], f[3], f[4], f[5], f[6], f[7])
  {
  }

  /** Decoding an encoded pen frame emits exactly the encoded values. */
  lemma PenRoundTrip(t: Tablet, ch: nat, prox: bool, x: nat, y: nat, pressure: nat,
                     switches: nat, tiltx: int, tilty: int)
    requires ValidTable(t.channels)
    requires ch < 2 && x < 0x1_0000 && y < 0x1_0000 && pressure < 1024 && switches < 4
    requires -64 <= tiltx < 64 && -64 <= tilty < 64
    ensures var f := EncodePen(ch, prox, x, y, pressure, switches, tiltx, tilty);
            var r := ParseProtocol5(t, f);
            var ds := r.tablet.channels[ch].work;
            && WellFramed(f, PKT_LEN)
            && r.tablet.log == t.log + [Emission(ch, ds)]
            && ds.x == x && ds.y == y && ds.pressure == pressure
            && ds.buttons == switches * 2
            && ds.tiltx == tiltx && ds.tilty == tilty
            && ds.proximity == (if prox then PROXIMITY_BIT else 0)
  {
    var f := EncodePen(ch, prox, x, y, pressure, switches, tiltx, tilty);
    PenFrameFields(ch, prox, x, y, pressure, switches, tiltx, tilty);
    PenHeader(ch, prox, switches);
    var ds := ResetRelative(t.channels[ch].work);
    PenFields(ds, f);
    assert DecodeRecord(t.channels[ch].work, f) == Decoded(PenRecord(ds, f), true);
    ParseWellFramed(t, f);
  }

  /** An encoded pen frame passes validation and its body bytes read back as the encoded values. */
  lemma PenFrameFields(ch: nat, prox: bool, x: nat, y: nat, pressure: nat, switches: nat, tiltx: int, tilty: int)
    requires ch < 2 && x < 0x1_0000 && y < 0x1_0000 && pressure < 1024 && switches < 4
    requires -64 <= tiltx < 64 && -64 <= tilty < 64
    ensures var f := EncodePen(ch, prox, x, y, pressure, switches, tiltx, tilty);
            && WellFramed(f, PKT_LEN)
            && XOf(f[1], f[2], f[3]) == x && YOf(f[3], f[4], f[5]) == y && TenBits(f[5], f[6]) == pressure
            && TiltOf(f[7]) == tiltx && TiltOf(f[8]) == tilty
  {
    var f := EncodePen(ch, prox, x, y, pressure, switches, tiltx, tilty);
    assert forall j :: 1 <= j < PKT_LEN ==> f[j] < 128;
    PositionRoundTrip(x, y, pressure);
    TiltRoundTrip(tiltx);
    TiltRoundTrip(tilty);
  }

  /** The header byte of an encoded pen frame reads back as a pen record of channel `ch`. */
  lemma PenHeader(ch: nat, prox: bool, switches: nat)
    requires ch < 2 && switches < 4
    ensures var h := 0xa0 + (if prox then 0x40 else 0) + switches * 2 + ch;
            && IsPen(h) && !IsToolEnter(h) && !IsProxOut(h) && h % 2 == ch
            && PenButtonsOf(h) == switches * 2
            && ProximityOf(h) == (if prox then PROXIMITY_BIT else 0)
  {
    var h := 0xa0 + (if prox then 0x40 else 0) + switches * 2 + ch;
    assert Pow2(1) == 2 && Pow2(2) == 4 && Pow2(6) == 64;
    assert Field(h, 1, 2) == switches;
    assert Field(h, 6, 1) == (if prox then 1 else 0);
  }

  /** A pen record takes its position, pressure and tilt from the frame body and its switches and proximity from the header. */
  lemma PenFields(ds: DeviceState, f: seq<byte>)
    requires |f| == PKT_LEN && IsPen(f[0])
    ensures var r := PenRecord(ds, f);
            && r.x == XOf(f[1], f[2], f[3]) && r.y == YOf(f[3], f[4], f[5]) && r.pressure == TenBits(f[5], f[6])
            && r.tiltx == TiltOf(f[7]) && r.tilty == TiltOf(f[8])
            && r.buttons == PenButtonsOf(f[0]) && r.proximity == ProximityOf(f[0])
  {
  }
}

=== FILE: tool_ids.dfy ===
/**
 * Intuos tool identity: the 12-bit tool id a tablet reports when a tool
 * enters proximity, the kernel's id-to-tool table (wacom.c:568-615), and
 * the driver's tool-class predicates.
 *
 * The driver predicates STYLUS_TOOL, CURSOR_TOOL, MOUSE_4D, LENS_CURSOR and
 * MOUSE_2D live in xf86Wacom.h, which is not part of this model; they are
 * defined here from the same id table: the 4D mice are ids 0x094 and 0x09c,
 * the 2D mice 0x007 and 0x017, the lens cursors 0x096 and 0x097, a cursor
 * is any of those, an eraser is an id the table maps to the rubber tool,
 * and every other id is a stylus.
 */
module ToolIds {
  import opened Consts

  // The case labels of the `switch (wacom->id[idx])` of `wacom_intuos_inout`,
  // grouped by the tool they select.
  const PencilIds: set<int> := {0x812, 0x801, 0x012}
  const PenIds: set<int> := {0x822, 0x842, 0x852, 0x823, 0x813, 0x885, 0x022}
  const BrushIds: set<int> := {0x832, 0x032}
  const MouseIds: set<int> := {0x007, 0x09c, 0x094, 0x017}
  const LensIds: set<int> := {0x096, 0x097}
  const RubberIds: set<int> := {0x82a, 0x85a, 0x91a, 0xd1a, 0x0fa, 0x82b, 0x81b, 0x91b}
  const AirbrushIds: set<int> := {0xd12, 0x912, 0x112, 0x913}

  /** True when `id` is one of the case labels. */
  predicate Listed(id: int) {
    id in PencilIds || id in PenIds || id in BrushIds || id in MouseIds ||
    id in LensIds || id in RubberIds || id in AirbrushIds
  }

  /** No id is a case label twice, so the order of the tests below is immaterial. */
  lemma GroupsDisjoint()
    ensures PencilIds * PenIds == {} && PencilIds * BrushIds == {} && PencilIds * MouseIds == {}
    ensures PencilIds * LensIds == {} && PencilIds * RubberIds == {} && PencilIds * AirbrushIds == {}
    ensures PenIds * BrushIds == {} && PenIds * MouseIds == {} && PenIds * LensIds == {}
    ensures PenIds * RubberIds == {} && PenIds * AirbrushIds == {}
    ensures BrushIds * MouseIds == {} && BrushIds * LensIds == {} && BrushIds * RubberIds == {}
    ensures BrushIds * AirbrushIds == {}
    ensures MouseIds * LensIds == {} && MouseIds * RubberIds == {} && MouseIds * AirbrushIds == {}
    ensures LensIds * RubberIds == {} && LensIds * AirbrushIds == {} && RubberIds * AirbrushIds == {}
  {
  }

  /**
   * The tool key the kernel assigns to a tool id: each listed id selects
   * its group's tool, and an unknown id selects the pen.
   */
  function IntuosTool(id: int): (tool: int)
    ensures tool == BTN_TOOL_PENCIL <==> id in PencilIds
    ensures tool == BTN_TOOL_BRUSH <==> id in BrushIds
    ensures tool == BTN_TOOL_MOUSE <==> id in MouseIds
    ensures tool == BTN_TOOL_LENS <==> id in LensIds
    ensures tool == BTN_TOOL_RUBBER <==> id in RubberIds
    ensures tool == BTN_TOOL_AIRBRUSH <==> id in AirbrushIds
    ensures tool == BTN_TOOL_PEN <==> id in PenIds || !Listed(id)
  {
    if id in PencilIds then BTN_TOOL_PENCIL
    else if id in PenIds then BTN_TOOL_PEN
    else if id in BrushIds then BTN_TOOL_BRUSH
    else if id in MouseIds then BTN_TOOL_MOUSE
    else if id in LensIds then BTN_TOOL_LENS
    else if id in RubberIds then BTN_TOOL_RUBBER
    else if id in AirbrushIds then BTN_TOOL_AIRBRUSH
    else BTN_TOOL_PEN
  }

  // ---- Driver tool classes ----

  predicate Mouse4D(id: int) { id == 0x094 || id == 0x09c }
  predicate Mouse2D(id: int) { id == 0x007 || id == 0x017 }
  predicate LensCursor(id: int) { id == 0x096 || id == 0x097 }

  predicate CursorTool(id: int) { Mouse4D(id) || Mouse2D(id) || LensCursor(id) }

  predicate StylusTool(id: int) {
    !CursorTool(id) && IntuosTool(id) != BTN_TOOL_RUBBER
  }
}

=== FILE: tool_size.dfy ===
/**
 * The integer part of `xf86WcmInitialToolSize`: a device takes the
 * tablet's (or, for touch, the touch sensor's) maxima and resolution,
 * swaps the two maxima for a quarter-turn rotation, and fills every
 * unset bottom edge of every tool area with the maximum.
 */
module ToolSize {
  // The rotation codes are labels of this model; only the test for CW or CCW matters.
  const ROTATE_NONE: int := 0
  const ROTATE_CW: int := 1
  const ROTATE_CCW: int := 2
  const ROTATE_HALF: int := 3

  datatype Sizes = Sizes(maxX: int, maxY: int, resolX: int, resolY: int)

  /** A tool's active area; a bottom edge of 0 means "not set". */
  datatype Area = Area(topX: int, topY: int, bottomX: int, bottomY: int)

  /** An area with its unset bottom edges filled. */
  function FillArea(a: Area, maxX: int, maxY: int): (r: Area)
    // the top corner and every bottom edge already set are kept ...
    ensures r.topX == a.topX && r.topY == a.topY
    ensures a.bottomX != 0 ==> r.bottomX == a.bottomX
    ensures a.bottomY != 0 ==> r.bottomY == a.bottomY
    // ... and an unset bottom edge takes the maximum
    ensures a.bottomX == 0 ==> r.bottomX == maxX
    ensures a.bottomY == 0 ==> r.bottomY == maxY
  {
    Area(a.topX, a.topY, if a.bottomX == 0 then maxX else a.bottomX, if a.bottomY == 0 then maxY else a.bottomY)
  }

  function FillAreas(areas: seq<Area>, maxX: int, maxY: int): (r: seq<Area>)
    ensures |r| == |areas|
    ensures forall k :: 0 <= k < |areas| ==> r[k] == FillArea(areas[k], maxX, maxY)
  {
    if |areas| == 0 then [] else [FillArea(areas[0], maxX, maxY)] + FillAreas(areas[1..], maxX, maxY)
  }

  /**
   * The device's sizes and every tool's areas after the setup: the
   * maxima come from the touch sensor for a touch device and from the
   * tablet otherwise, swapped under CW or CCW rotation; each area's unset
   * bottom edges take the (rotated) maxima and nothing else changes.
   */
  function InitialToolSize(isTouch: bool, tablet: Sizes, touch: Sizes, rotate: int, tools: seq<seq<Area>>)
    : (r: (Sizes, seq<seq<Area>>))
    ensures var base := if isTouch then touch else tablet;
            var quarter := rotate == ROTATE_CW || rotate == ROTATE_CCW;
            && r.0.resolX == base.resolX && r.0.resolY == base.resolY
            && r.0.maxX == (if quarter then base.maxY else base.maxX)
            && r.0.maxY == (if quarter then base.maxX else base.maxY)
    ensures |r.1| == |tools|
    ensures forall t :: 0 <= t < |tools| ==> |r.1[t]| == |tools[t]|
    ensures forall t, k :: 0 <= t < |tools| && 0 <= k < |tools[t]| ==>
              r.1[t][k] == FillArea(tools[t][k], r.0.maxX, r.0.maxY)
  {
    var base := if isTouch then touch else tablet;
    var sizes := if rotate == ROTATE_CW || rotate == ROTATE_CCW then base.(maxX := base.maxY, maxY := base.maxX) else base;
    (sizes, seq(|tools|, t requires 0 <= t < |tools| => FillAreas(tools[t], sizes.maxX, sizes.maxY)))
  }

  /** Filling is idempotent: a second pass with the same maxima changes nothing. */
  lemma FillIdempotent(a: Area, maxX: int, maxY: int)
    requires maxX != 0 && maxY != 0
    ensures FillArea(FillArea(a, maxX, maxY), maxX, maxY) == FillArea(a, maxX, maxY)
  {
  }

  /** After the setup every area of a tablet with non-zero maxima has both bottom edges set. */
  lemma NoUnsetEdges(isTouch: bool, tablet: Sizes, touch: Sizes, rotate: int, tools: seq<seq<Area>>, t: nat, k: nat)
    requires (if isTouch then touch else tablet).maxX != 0 && (if isTouch then touch else tablet).maxY != 0
    requires t < |tools| && k < |tools[t]|
    ensures var r := InitialToolSize(isTouch, tablet, touch, rotate, tools);
            r.1[t][k].bottomX != 0 && r.1[t][k].bottomY != 0
  {
  }
}

=== FILE: usb_events.dfy ===
/**
 * The USB back end's event accumulator (`usbParseEvent`) and the fold of
 * one group of events into a channel's record (`usbParseChannel`).
 *
 * Kernel input events are queued until an end-of-record marker arrives:
 * MSC_SERIAL on kernels that do not send SYN_REPORT, SYN_REPORT once one
 * has been seen. A marker picks a channel and folds the queued group into
 * that channel's working record, which is then emitted.
 */
module UsbEvents {
  import opened Wrappers
  import opened Bits
  import opened Consts
  import opened Channels

  /** One `struct input_event`, without its timestamp. */
  datatype Event = Event(etype: int, code: int, value: int)

  /** The tablet facts the accumulator reads. */
  datatype UsbConfig = UsbConfig(protocol: int, tablet_id: int, padkeys: seq<int>)

  /** The accumulator state: queued events, last tool serial, marker mode, channels and log. */
  datatype UsbState = UsbState(queue: seq<Event>, lastSerial: int, useSyn: bool, tablet: Tablet)

  predicate IsSerialMarker(e: Event) { e.etype == EV_MSC && e.code == MSC_SERIAL }
  predicate IsSynMarker(e: Event) { e.etype == EV_SYN && e.code == SYN_REPORT }

  // ---- Channel allocation ----

  /** A channel cleared to zeroes and marked in proximity (the in-prox event may have been missed). */
  const ClaimedChannel: Channel := EmptyChannel.(work := ZeroState.(proximity := 1))

  /** The lowest index at or after `i` of an in-proximity channel carrying `serial`. */
  function FirstMatch(chs: seq<Channel>, serial: int, i: nat): (r: Option<nat>)
    requires i <= |chs|
    ensures r.Some? ==> i <= r.value < |chs| && chs[r.value].work.proximity != 0 &&
                        chs[r.value].work.serial_num == serial
    ensures r.Some? ==> forall j :: i <= j < r.value ==>
                          !(chs[j].work.proximity != 0 && chs[j].work.serial_num == serial)
    ensures r.None? ==> forall j :: i <= j < |chs| ==>
                          !(chs[j].work.proximity != 0 && chs[j].work.serial_num == serial)
    decreases |chs| - i
  {
    if i == |chs| then None
    else if chs[i].work.proximity != 0 && chs[i].work.serial_num == serial then Some(i)
    else FirstMatch(chs, serial, i + 1)
  }

  /** The lowest index at or after `i` of an out-of-proximity channel. */
  function FirstFree(chs: seq<Channel>, i: nat): (r: Option<nat>)
    requires i <= |chs|
    ensures r.Some? ==> i <= r.value < |chs| && chs[r.value].work.proximity == 0
    ensures r.Some? ==> forall j :: i <= j < r.value ==> chs[j].work.proximity != 0
    ensures r.None? ==> forall j :: i <= j < |chs| ==> chs[j].work.proximity != 0
    decreases |chs| - i
  {
    if i == |chs| then None
    else if chs[i].work.proximity == 0 then Some(i)
    else FirstFree(chs, i + 1)
  }

  /** The channel chosen for a group, and the table after any claim. */
  datatype Slot = Slot(ch: nat, channels: seq<Channel>)

  /** Claim channel `i` when it is out of proximity; leave it as is otherwise. */
  function ClaimIfFree(chs: seq<Channel>, i: nat): seq<Channel>
    requires i < |chs|
  {
    if chs[i].work.proximity == 0 then chs[i := ClaimedChannel] else chs
  }

  /** The channel-selection step of `usbParseEvent`. */
  function Allocate(protocol: int, chs: seq<Channel>, serial: int): (r: Option<Slot>)
    requires ValidTable(chs)
    ensures r.Some? ==> r.value.ch < MAX_CHANNELS && ValidTable(r.value.channels)
    ensures r.Some? ==> forall j :: 0 <= j < MAX_CHANNELS && j != r.value.ch ==> r.value.channels[j] == chs[j]
    // protocol 4: a fixed slot, 1 for the pad's serial 0xF0 and 0 otherwise
    ensures protocol == 4 ==> r.Some? && r.value.ch == (if serial == 0xf0 then 1 else 0)
    ensures protocol == 4 && r.Some? ==>
              r.value.channels[r.value.ch] ==
                (if chs[r.value.ch].work.proximity == 0 then ClaimedChannel else chs[r.value.ch])
    // protocol 5: the lowest in-proximity channel with this serial is reused unchanged ...
    ensures protocol != 4 && r.Some? && chs[r.value.ch].work.proximity != 0 ==>
              chs[r.value.ch].work.serial_num == serial && r.value.channels == chs &&
              forall j :: 0 <= j < r.value.ch ==> !(chs[j].work.proximity != 0 && chs[j].work.serial_num == serial)
    // ... otherwise the lowest free channel is claimed ...
    ensures protocol != 4 && r.Some? && chs[r.value.ch].work.proximity == 0 ==>
              r.value.channels[r.value.ch] == ClaimedChannel &&
              (forall j :: 0 <= j < MAX_CHANNELS ==> !(chs[j].work.proximity != 0 && chs[j].work.serial_num == serial)) &&
              (forall j :: 0 <= j < r.value.ch ==> chs[j].work.proximity != 0)
    // ... and with neither there is no channel
    ensures r.None? <==>
              protocol != 4 &&
              (forall j :: 0 <= j < MAX_CHANNELS ==> !(chs[j].work.proximity != 0 && chs[j].work.serial_num == serial)) &&
              (forall j :: 0 <= j < MAX_CHANNELS ==> chs[j].work.proximity != 0)
  {
    if protocol == 4 then
      var i := if serial == 0xf0 then 1 else 0;
      Some(Slot(i, ClaimIfFree(chs, i)))
    else
      match FirstMatch(chs, serial, 0)
      case Some(i) => Some(Slot(i, chs))
      case None =>
        match FirstFree(chs, 0)
        case Some(i) => Some(Slot(i, chs[i := ClaimedChannel]))
        case None => None
  }

  // ---- Folding one group ----

  /** The index of the first pad key equal to `code`, if any. */
  function PadKeyIndex(padkeys: seq<int>, code: int): (r: Option<nat>)
    ensures r.Some? ==> r.value < |padkeys| && padkeys[r.value] == code &&
                        forall j :: 0 <= j < r.value ==> padkeys[j] != code
    ensures r.None? ==> code !in padkeys
  {
    if |padkeys| == 0 then None
    else if padkeys[0] == code then Some(0)
    else match PadKeyIndex(padkeys[1..], code)
      case Some(k) => Some(k + 1)
      case None => None
  }

  /** The `buttons` bit pad key `k` drives. */
  function PadKeyBit(k: nat): nat {
    MAX_MOUSE_BUTTONS / 2 + k
  }

  /** `MOD_BUTTONS`: set bit `bit` of the buttons when `value` is non-zero, clear it otherwise. */
  function ModButtons(ds: DeviceState, bit: nat, value: int): DeviceState {
    ds.(buttons := SetBit(ds.buttons, bit, value != 0))
  }

  /** The effect of one event of a group on the record, in the order `usbParseChannel` tests. */
  function ApplyEvent(cfg: UsbConfig, ds: DeviceState, e: Event): DeviceState {
    var v := e.value;
    if e.etype == EV_ABS then
      if e.code == ABS_X then ds.(x := v)
      else if e.code == ABS_Y then ds.(y := v)
      else if e.code == ABS_RX then ds.(stripx := v)
      else if e.code == ABS_RY then ds.(stripy := v)
      else if e.code == ABS_RZ then ds.(rotation := v)
      else if e.code == ABS_TILT_X then ds.(tiltx := v - 64)
      else if e.code == ABS_TILT_Y then ds.(tilty := v - 64)
      else if e.code == ABS_PRESSURE then ds.(pressure := v)
      else if e.code == ABS_DISTANCE then ds.(distance := v)
      else if e.code == ABS_WHEEL || e.code == ABS_Z then ds.(abswheel := v)
      else if e.code == ABS_THROTTLE then ds.(throttle := v)
      else if e.code == ABS_MISC && v != 0 then ds.(device_id := v)
      else ds
    else if e.etype == EV_REL then
      if e.code == REL_WHEEL then ds.(relwheel := -v) else ds
    else if e.etype == EV_KEY then
      var c := e.code;
      var prox := if v != 0 then 1 else 0;
      if c == BTN_TOOL_PEN || c == BTN_TOOL_PENCIL || c == BTN_TOOL_BRUSH || c == BTN_TOOL_AIRBRUSH then
        ds.(device_type := STYLUS_ID, proximity := prox)
      else if c == BTN_TOOL_RUBBER then
        ds.(device_type := ERASER_ID, proximity := if prox != 0 then ERASER_PROX else 0)
      else if c == BTN_TOOL_MOUSE || c == BTN_TOOL_LENS then ds.(device_type := CURSOR_ID, proximity := prox)
      else if c == BTN_TOOL_FINGER then ds.(device_type := PAD_ID, proximity := prox)
      else if c == BTN_TOUCH then ds
      else if c == BTN_STYLUS || c == BTN_MIDDLE then ModButtons(ds, 1, v)
      else if c == BTN_STYLUS2 || c == BTN_RIGHT then ModButtons(ds, 2, v)
      else if c == BTN_LEFT then ModButtons(ds, 0, v)
      else if c == BTN_SIDE then ModButtons(ds, 3, v)
      else if c == BTN_EXTRA then ModButtons(ds, 4, v)
      else match PadKeyIndex(cfg.padkeys, c)
        case Some(k) => ModButtons(ds, PadKeyBit(k), v)
        case None => ds
    else ds
  }

  /** The events of a group applied in order. */
  function Fold(cfg: UsbConfig, ds: DeviceState, es: seq<Event>): DeviceState
    decreases |es|
  {
    if |es| == 0 then ds else ApplyEvent(cfg, Fold(cfg, ds, es[..|es| - 1]), es[|es| - 1])
  }

  /** The fields of the record a group's events can write. */
  datatype Axis =
    | AxX | AxY | AxStripX | AxStripY | AxRotation | AxTiltX | AxTiltY | AxPressure
    | AxDistance | AxAbsWheel | AxThrottle | AxDeviceId | AxRelWheel | AxDeviceType | AxProximity

  function Get(ds: DeviceState, a: Axis): int {
    match a
    case AxX => ds.x
    case AxY => ds.y
    case AxStripX => ds.stripx
    case AxStripY => ds.stripy
    case AxRotation => ds.rotation
    case AxTiltX => ds.tiltx
    case AxTiltY => ds.tilty
    case AxPressure => ds.pressure
    case AxDistance => ds.distance
    case AxAbsWheel => ds.abswheel
    case AxThrottle => ds.throttle
    case AxDeviceId => ds.device_id
    case AxRelWheel => ds.relwheel
    case AxDeviceType => ds.device_type
    case AxProximity => ds.proximity
  }

  /** The class and proximity value a tool key stands for, if `code` is one. */
  function ToolKey(code: int, value: int): Option<(int, int)> {
    var prox := if value != 0 then 1 else 0;
    if code in {BTN_TOOL_PEN, BTN_TOOL_PENCIL, BTN_TOOL_BRUSH, BTN_TOOL_AIRBRUSH} then Some((STYLUS_ID, prox))
    else if code == BTN_TOOL_RUBBER then Some((ERASER_ID, if value != 0 then ERASER_PROX else 0))
    else if code in {BTN_TOOL_MOUSE, BTN_TOOL_LENS} then Some((CURSOR_ID, prox))
    else if code == BTN_TOOL_FINGER then Some((PAD_ID, prox))
    else None
  }

  /** The absolute axis an EV_ABS code drives, if any. */
  function AbsAxis(code: int): Option<Axis> {
    if code == ABS_X then Some(AxX)
    else if code == ABS_Y then Some(AxY)
    else if code == ABS_RX then Some(AxStripX)
    else if code == ABS_RY then Some(AxStripY)
    else if code == ABS_RZ then Some(AxRotation)
    else if code == ABS_TILT_X then Some(AxTiltX)
    else if code == ABS_TILT_Y then Some(AxTiltY)
    else if code == ABS_PRESSURE then Some(AxPressure)
    else if code == ABS_DISTANCE then Some(AxDistance)
    else if code == ABS_WHEEL || code == ABS_Z then Some(AxAbsWheel)
    else if code == ABS_THROTTLE then Some(AxThrottle)
    else if code == ABS_MISC then Some(AxDeviceId)
    else None
  }

  /**
   * What an event writes into field `a`, if anything: absolute axes their
   * value (tilt re-centred by 64, a zero ABS_MISC ignored), REL_WHEEL its
   * negation, tool keys the class and the proximity.
   */
  function Written(e: Event, a: Axis): Option<int> {
    if e.etype == EV_ABS then
      if AbsAxis(e.code) == Some(a) && !(a == AxDeviceId && e.value == 0) then
        Some(if a == AxTiltX || a == AxTiltY then e.value - 64 else e.value)
      else None
    else if e.etype == EV_REL then
      if a == AxRelWheel && e.code == REL_WHEEL then Some(-e.value) else None
    else if e.etype == EV_KEY then
      match ToolKey(e.code, e.value)
      case Some(tp) =>
        if a == AxDeviceType then Some(tp.0) else if a == AxProximity then Some(tp.1) else None
      case None => None
    else None
  }

  /** The button bit a key event drives, if any. */
  function ButtonBit(cfg: UsbConfig, e: Event): Option<nat> {
    if e.etype != EV_KEY || ToolKey(e.code, e.value).Some? || e.code == BTN_TOUCH then None
    else if e.code == BTN_STYLUS || e.code == BTN_MIDDLE then Some(1)
    else if e.code == BTN_STYLUS2 || e.code == BTN_RIGHT then Some(2)
    else if e.code == BTN_LEFT then Some(0)
    else if e.code == BTN_SIDE then Some(3)
    else if e.code == BTN_EXTRA then Some(4)
    else match PadKeyIndex(cfg.padkeys, e.code)
      case Some(j) => Some(PadKeyBit(j))
      case None => None
  }

  /** Whether an event sets (true) or clears (false) button bit `k`, if it drives that bit. */
  function ButtonWritten(cfg: UsbConfig, e: Event, k: nat): Option<bool> {
    if ButtonBit(cfg, e) == Some(k) then Some(e.value != 0) else None
  }

  /** One event changes a field exactly as `Written` says and leaves it alone otherwise. */
  lemma ApplyWrites(cfg: UsbConfig, ds: DeviceState, e: Event, a: Axis)
    ensures Get(ApplyEvent(cfg, ds, e), a) == (match Written(e, a) case Some(v) => v case None => Get(ds, a))
  {
  }

  /** One event changes a button bit exactly as `ButtonWritten` says: `MOD_BUTTONS` touches one bit. */
  lemma ApplyButtons(cfg: UsbConfig, ds: DeviceState, e: Event, k: nat)
    ensures BitSet(ApplyEvent(cfg, ds, e).buttons, k) ==
              (match ButtonWritten(cfg, e, k) case Some(on) => on case None => BitSet(ds.buttons, k))
  {
    var r := ApplyEvent(cfg, ds, e);
    match ButtonBit(cfg, e)
    case Some(bit) =>
      assert r.buttons == SetBit(ds.buttons, bit, e.value != 0);
      SetBitOnlyTouchesBitK(ds.buttons, bit, e.value != 0, k);
    case None =>
      assert r.buttons == ds.buttons;
  }

  /**
   * Last writer wins: after a group, a field holds what the last event
   * writing it wrote, and its old value when no event writes it.
   */
  lemma {:induction false} FoldLastWriter(cfg: UsbConfig, ds: DeviceState, es: seq<Event>, a: Axis, k: int)
    requires -1 <= k < |es|
    requires k >= 0 ==> Written(es[k], a).Some?
    requires forall j :: k < j < |es| ==> Written(es[j], a).None?
    ensures Get(Fold(cfg, ds, es), a) == (if k < 0 then Get(ds, a) else Written(es[k], a).value)
    decreases |es|
  {
    if |es| > 0 {
      var n := |es| - 1;
      var prefix := es[..n];
      ApplyWrites(cfg, Fold(cfg, ds, prefix), es[n], a);
      if k < n {
        assert forall j :: k < j < |prefix| ==> prefix[j] == es[j];
        FoldLastWriter(cfg, ds, prefix, a, k);
      }
    }
  }

  /** Last writer wins for each button bit as well. */
  lemma {:induction false} FoldButtonLastWriter(cfg: UsbConfig, ds: DeviceState, es: seq<Event>, b: nat, k: int)
    requires -1 <= k < |es|
    requires k >= 0 ==> ButtonWritten(cfg, es[k], b).Some?
    requires forall j :: k < j < |es| ==> ButtonWritten(cfg, es[j], b).None?
    ensures BitSet(Fold(cfg, ds, es).buttons, b) ==
              (if k < 0 then BitSet(ds.buttons, b) else ButtonWritten(cfg, es[k], b).value)
    decreases |es|
  {
    if |es| > 0 {
      var n := |es| - 1;
      var prefix := es[..n];
      ApplyButtons(cfg, Fold(cfg, ds, prefix), es[n], b);
      if k < n {
        assert forall j :: k < j < |prefix| ==> prefix[j] == es[j];
        FoldButtonLastWriter(cfg, ds, prefix, b, k);
      }
    }
  }

  /** No event of a group changes the serial number or the discard flag. */
  lemma {:induction false} FoldKeepsSerial(cfg: UsbConfig, ds: DeviceState, es: seq<Event>)
    ensures Fold(cfg, ds, es).serial_num == ds.serial_num
    decreases |es|
  {
    if |es| > 0 {
      FoldKeepsSerial(cfg, ds, es[..|es| - 1]);
    }
  }

  /**
   * `usbParseChannel`: fold the group into the channel's record, starting
   * from a zero relative wheel and the group's serial; force proximity off
   * on old kernels when the id or serial is zero; emit the record unless
   * it is an eraser on a DTF-720 (tablet id 0xC0).
   */
  function ParseChannel(cfg: UsbConfig, useSyn: bool, t: Tablet, ch: nat, serial: int, es: seq<Event>): (r: Tablet)
    requires ValidTable(t.channels) && ch < MAX_CHANNELS
    ensures ValidTable(r.channels)
    ensures forall j :: 0 <= j < MAX_CHANNELS && j != ch ==> r.channels[j] == t.channels[j]
    ensures r.channels[ch].work.serial_num == serial
    ensures !useSyn && (r.channels[ch].work.device_id == 0 || serial == 0) ==> r.channels[ch].work.proximity == 0
    ensures cfg.tablet_id == 0xC0 && r.channels[ch].work.device_type == ERASER_ID ==>
              r.log == t.log && r.channels[ch].last == t.channels[ch].last
    ensures !(cfg.tablet_id == 0xC0 && r.channels[ch].work.device_type == ERASER_ID) ==>
              r.log == t.log + [Emission(ch, r.channels[ch].work)] && r.channels[ch].last == r.channels[ch].work
    // the record is the group folded over the channel's record, proximity aside
    ensures var ds := Fold(cfg, t.channels[ch].work.(relwheel := 0, serial_num := serial), es);
            r.channels[ch].work == (if !useSyn && (ds.device_id == 0 || serial == 0) then ds.(proximity := 0) else ds)
  {
    var ds0 := t.channels[ch].work.(relwheel := 0, serial_num := serial);
    var ds1 := Fold(cfg, ds0, es);
    FoldKeepsSerial(cfg, ds0, es);
    var ds := if (ds1.device_id == 0 || ds1.serial_num == 0) && !useSyn then ds1.(proximity := 0) else ds1;
    var t1 := SetWork(t, ch, ds);
    if cfg.tablet_id == 0xC0 && ds.device_type == ERASER_ID then t1 else Emit(t1, ch, ds)
  }

  /** Without any REL_WHEEL event in the group the relative wheel reads zero. */
  lemma NoWheelEventMeansZero(cfg: UsbConfig, useSyn: bool, t: Tablet, ch: nat, serial: int, es: seq<Event>)
    requires ValidTable(t.channels) && ch < MAX_CHANNELS
    requires forall j :: 0 <= j < |es| ==> Written(es[j], AxRelWheel).None?
    ensures ParseChannel(cfg, useSyn, t, ch, serial, es).channels[ch].work.relwheel == 0
  {
    var ds0 := t.channels[ch].work.(relwheel := 0, serial_num := serial);
    FoldLastWriter(cfg, ds0, es, AxRelWheel, -1);
  }

  // ---- The accumulator ----

  /** An event that ends a group: SYN_REPORT, or MSC_SERIAL before the first SYN_REPORT, with room in the queue. */
  predicate IsDelivery(s: UsbState, e: Event) {
    |s.queue| < MAX_USB_EVENTS && (IsSynMarker(e) || (IsSerialMarker(e) && !s.useSyn))
  }

  /** `usbParseEvent`: queue one event and, on an end-of-record marker, deliver the group. */
  function ParseEvent(cfg: UsbConfig, s: UsbState, e: Event): (r: UsbState)
    requires ValidTable(s.tablet.channels)
    ensures ValidTable(r.tablet.channels)
    // a full queue drops the event and restarts the group
    ensures |s.queue| >= MAX_USB_EVENTS ==> r == s.(queue := [], lastSerial := 0)
    // other events are only queued
    ensures |s.queue| < MAX_USB_EVENTS && !IsSerialMarker(e) && !IsSynMarker(e) ==> r == s.(queue := s.queue + [e])
    // MSC_SERIAL records the serial; in SYN mode that is all it does
    ensures |s.queue| < MAX_USB_EVENTS && IsSerialMarker(e) && s.useSyn ==>
              r == s.(queue := s.queue + [e], lastSerial := e.value)
    // SYN_REPORT switches to SYN mode for good
    ensures r.useSyn == (s.useSyn || (|s.queue| < MAX_USB_EVENTS && IsSynMarker(e)))
    // a delivered group empties the queue and emits at most one record
    ensures |r.queue| == 0 || r.tablet.channels == s.tablet.channels
    ensures |r.queue| == 0 ==> r.lastSerial == 0
    ensures r.tablet.log == s.tablet.log ||
              exists ch :: 0 <= ch < MAX_CHANNELS && r.tablet.log == s.tablet.log + [Emission(ch, r.tablet.channels[ch].work)]
    // a marker ending a group delivers the queue, marker included, to the allocated channel ...
    ensures IsDelivery(s, e) ==>
              var serial := if IsSerialMarker(e) then e.value else s.lastSerial;
              var useSyn := s.useSyn || IsSynMarker(e);
              match Allocate(cfg.protocol, s.tablet.channels, serial)
              case Some(slot) =>
                r == UsbState([], 0, useSyn,
                              ParseChannel(cfg, useSyn, Tablet(slot.channels, s.tablet.log), slot.ch, serial, s.queue + [e]))
              // ... and with no channel free keeps the group queued and the tablet unchanged
              case None => r == UsbState(s.queue + [e], serial, useSyn, s.tablet)
  {
    if |s.queue| >= MAX_USB_EVENTS then s.(queue := [], lastSerial := 0)
    else
      var q := s.queue + [e];
      if IsSerialMarker(e) && s.useSyn then s.(queue := q, lastSerial := e.value)
      else if !IsSerialMarker(e) && !IsSynMarker(e) then s.(queue := q)
      else
        var serial := if IsSerialMarker(e) then e.value else s.lastSerial;
        var useSyn := s.useSyn || IsSynMarker(e);
        match Allocate(cfg.protocol, s.tablet.channels, serial)
        case None => UsbState(q, serial, useSyn, s.tablet)
        case Some(slot) =>
          var t := ParseChannel(cfg, useSyn, Tablet(slot.channels, s.tablet.log), slot.ch, serial, q);
          UsbState([], 0, useSyn, t)
  }

  /** Events that are not markers, fed while the queue has room for them, are only appended to it. */
  lemma {:induction false} QueueAccumulates(cfg: UsbConfig, s: UsbState, es: seq<Event>)
    requires ValidTable(s.tablet.channels)
    requires |s.queue| + |es| <= MAX_USB_EVENTS
    requires forall j :: 0 <= j < |es| ==> !IsSerialMarker(es[j]) && !IsSynMarker(es[j])
    ensures ParseEvents(cfg, s, es) == s.(queue := s.queue + es)
    decreases |es|
  {
    if |es| > 0 {
      var s1 := ParseEvent(cfg, s, es[0]);
      assert s1 == s.(queue := s.queue + [es[0]]);
      QueueAccumulates(cfg, s1, es[1..]);
      assert s.queue + [es[0]] + es[1..] == s.queue + es;
    }
  }

  /**
   * One group end to end in SYN_REPORT mode: from an empty queue, events
   * that are not markers followed by a SYN_REPORT reach the allocated
   * channel, whose record then holds, field by field, what the group's
   * last event writing that field wrote.
   */
  lemma GroupDelivered(cfg: UsbConfig, s: UsbState, es: seq<Event>, e: Event, slot: Slot, a: Axis, k: int)
    requires ValidTable(s.tablet.channels) && s.queue == [] && s.useSyn
    requires |es| < MAX_USB_EVENTS
    requires forall j :: 0 <= j < |es| ==> !IsSerialMarker(es[j]) && !IsSynMarker(es[j])
    requires IsSynMarker(e)
    requires Allocate(cfg.protocol, s.tablet.channels, s.lastSerial) == Some(slot)
    requires -1 <= k < |es|
    requires k >= 0 ==> Written(es[k], a).Some?
    requires forall j :: k < j < |es| ==> Written(es[j], a).None?
    ensures var r := ParseEvent(cfg, ParseEvents(cfg, s, es), e);
            && r.queue == [] && r.lastSerial == 0
            && r.tablet.channels[slot.ch].work.serial_num == s.lastSerial
            && Get(r.tablet.channels[slot.ch].work, a) ==
                 (if k < 0 then Get(slot.channels[slot.ch].work.(relwheel := 0), a) else Written(es[k], a).value)
  {
    var ds0 := slot.channels[slot.ch].work.(relwheel := 0, serial_num := s.lastSerial);
    GroupRecord(cfg, s, es, e, slot);
    FoldKeepsSerial(cfg, ds0, es + [e]);
    var g := es + [e];
    assert forall j :: 0 <= j < |es| ==> g[j] == es[j];
    assert Written(e, a).None?;
    FoldLastWriter(cfg, ds0, g, a, k);
  }

  /** The record a delivered group leaves in its channel is the group folded over the channel's record. */
  lemma GroupRecord(cfg: UsbConfig, s: UsbState, es: seq<Event>, e: Event, slot: Slot)
    requires ValidTable(s.tablet.channels) && s.queue == [] && s.useSyn
    requires |es| < MAX_USB_EVENTS
    requires forall j :: 0 <= j < |es| ==> !IsSerialMarker(es[j]) && !IsSynMarker(es[j])
    requires IsSynMarker(e)
    requires Allocate(cfg.protocol, s.tablet.channels, s.lastSerial) == Some(slot)
    ensures var r := ParseEvent(cfg, ParseEvents(cfg, s, es), e);
            && r.queue == [] && r.lastSerial == 0 && slot.ch < MAX_CHANNELS && ValidTable(r.tablet.channels)
            && r.tablet.channels[slot.ch].work ==
                 Fold(cfg, slot.channels[slot.ch].work.(relwheel := 0, serial_num := s.lastSerial), es + [e])
  {
    QueueAccumulates(cfg, s, es);
    var s1 := s.(queue := es);
    var t := ParseChannel(cfg, true, Tablet(slot.channels, s.tablet.log), slot.ch, s.lastSerial, es + [e]);
    assert s.queue + es == es;
    assert ParseEvents(cfg, s, es) == s1;
    SynDelivers(cfg, s1, e, slot);
    assert ParseEvent(cfg, s1, e) == UsbState([], 0, true, t);
  }

  /** A SYN_REPORT with a channel to go to hands the queue, itself included, to that channel. */
  lemma SynDelivers(cfg: UsbConfig, s: UsbState, e: Event, slot: Slot)
    requires ValidTable(s.tablet.channels) && s.useSyn && IsSynMarker(e) && |s.queue| < MAX_USB_EVENTS
    requires Allocate(cfg.protocol, s.tablet.channels, s.lastSerial) == Some(slot)
    ensures ParseEvent(cfg, s, e) ==
              UsbState([], 0, true, ParseChannel(cfg, true, Tablet(slot.channels, s.tablet.log), slot.ch, s.lastSerial, s.queue + [e]))
  {
    assert IsDelivery(s, e);
  }

  /** An event that is not a marker never reaches the channels or the log. */
  lemma QueuedEventsAreSilent(cfg: UsbConfig, s: UsbState, es: seq<Event>)
    requires ValidTable(s.tablet.channels)
    requires forall j :: 0 <= j < |es| ==> !IsSerialMarker(es[j]) && !IsSynMarker(es[j])
    ensures ParseEvents(cfg, s, es).tablet == s.tablet
    ensures ParseEvents(cfg, s, es).useSyn == s.useSyn
    decreases |es|
  {
    if |es| > 0 {
      QueuedEventsAreSilent(cfg, ParseEvent(cfg, s, es[0]), es[1..]);
    }
  }

  /** A stream of events fed one by one. */
  function ParseEvents(cfg: UsbConfig, s: UsbState, es: seq<Event>): (r: UsbState)
    requires ValidTable(s.tablet.channels)
    ensures ValidTable(r.tablet.channels)
    ensures s.useSyn ==> r.useSyn
    decreases |es|
  {
    if |es| == 0 then s else ParseEvents(cfg, ParseEvent(cfg, s, es[0]), es[1..])
  }
}

=== FILE: usb_init.dfy ===
/**
 * The model and button-count logic of `usbWcmInit`: the product-id table,
 * the pad keys the device declares, and the number of mouse buttons.
 *
 * The vendor and product ids and the device's key bitmap come from ioctls;
 * here they are parameters, the bitmap as the set of key codes it holds.
 */
module UsbInit {
  import opened Wrappers
  import opened Consts
  import UsbEvents

  /** The USB model descriptors the table points at; `None` stands for `usbUnknown`. */
  datatype UsbModel =
    | UsbPenPartner | UsbGraphire | UsbGraphire2 | UsbGraphire3 | UsbGraphire4
    | UsbBamboo | UsbBamboo1 | UsbBambooFun | UsbCintiq | UsbCintiqPartner
    | UsbIntuos | UsbIntuos2 | UsbIntuos3 | UsbVolito | UsbVolito2 | UsbCintiqV5

  const WACOM_VENDOR: int := 0x056A

  datatype ModelDesc = ModelDesc(model_id: int, yRes: int, xRes: int, model: UsbModel)

  /** `WacomModelDesc`, row for row. */
  const ModelTable: seq<ModelDesc> := [
    ModelDesc(0x00, 1000, 1000, UsbPenPartner),
    ModelDesc(0x10, 2032, 2032, UsbGraphire),
    ModelDesc(0x11, 2032, 2032, UsbGraphire2),
    ModelDesc(0x12, 2032, 2032, UsbGraphire2),
    ModelDesc(0x13, 2032, 2032, UsbGraphire3),
    ModelDesc(0x14, 2032, 2032, UsbGraphire3),
    ModelDesc(0x15, 2032, 2032, UsbGraphire4),
    ModelDesc(0x16, 2032, 2032, UsbGraphire4),
    ModelDesc(0x17, 2540, 2540, UsbBambooFun),
    ModelDesc(0x18, 2540, 2540, UsbBambooFun),
    ModelDesc(0x81, 2032, 2032, UsbGraphire4),
    ModelDesc(0x20, 2540, 2540, UsbIntuos),
    ModelDesc(0x21, 2540, 2540, UsbIntuos),
    ModelDesc(0x22, 2540, 2540, UsbIntuos),
    ModelDesc(0x23, 2540, 2540, UsbIntuos),
    ModelDesc(0x24, 2540, 2540, UsbIntuos),
    ModelDesc(0x03, 508, 508, UsbCintiqPartner),
    ModelDesc(0x30, 508, 508, UsbCintiq),
    ModelDesc(0x31, 508, 508, UsbCintiq),
    ModelDesc(0x32, 508, 508, UsbCintiq),
    ModelDesc(0x33, 508, 508, UsbCintiq),
    ModelDesc(0x34, 508, 508, UsbCintiq),
    ModelDesc(0x35, 508, 508, UsbCintiq),
    ModelDesc(0x37, 508, 508, UsbCintiq),
    ModelDesc(0x38, 508, 508, UsbCintiq),
    ModelDesc(0x39, 508, 508, UsbCintiq),
    ModelDesc(0xC0, 508, 508, UsbCintiq),
    ModelDesc(0xC4, 508, 508, UsbCintiq),
    ModelDesc(0x41, 2540, 2540, UsbIntuos2),
    ModelDesc(0x42, 2540, 2540, UsbIntuos2),
    ModelDesc(0x43, 2540, 2540, UsbIntuos2),
    ModelDesc(0x44, 2540, 2540, UsbIntuos2),
    ModelDesc(0x45, 2540, 2540, UsbIntuos2),
    ModelDesc(0x47, 2540, 2540, UsbIntuos2),
    ModelDesc(0x60, 1016, 1016, UsbVolito),
    ModelDesc(0x61, 1016, 1016, UsbVolito2),
    ModelDesc(0x62, 1016, 1016, UsbVolito2),
    ModelDesc(0x63, 1016, 1016, UsbVolito2),
    ModelDesc(0x64, 1016, 1016, UsbVolito2),
    ModelDesc(0x65, 2540, 2540, UsbBamboo),
    ModelDesc(0x69, 1012, 1012, UsbBamboo1),
    ModelDesc(0xB0, 5080, 5080, UsbIntuos3),
    ModelDesc(0xB1, 5080, 5080, UsbIntuos3),
    ModelDesc(0xB2, 5080, 5080, UsbIntuos3),
    ModelDesc(0xB3, 5080, 5080, UsbIntuos3),
    ModelDesc(0xB4, 5080, 5080, UsbIntuos3),
    ModelDesc(0xB5, 5080, 5080, UsbIntuos3),
    ModelDesc(0xB7, 5080, 5080, UsbIntuos3),
    ModelDesc(0x3F, 5080, 5080, UsbCintiqV5),
    ModelDesc(0xC5, 5080, 5080, UsbCintiqV5),
    ModelDesc(0xC6, 5080, 5080, UsbCintiqV5)
  ]

  /**
   * The table scan: every row whose id matches overwrites the choice, so
   * the last matching row at or after `i` wins; `acc` is the choice so far.
   */
  function LastMatch(rows: seq<ModelDesc>, id: int, i: nat, acc: Option<nat>): (r: Option<nat>)
    requires i <= |rows|
    requires acc.Some? ==> acc.value < i && rows[acc.value].model_id == id &&
                           forall j :: acc.value < j < i ==> rows[j].model_id != id
    ensures r.Some? ==> r.value < |rows| && rows[r.value].model_id == id
    ensures r.Some? ==> forall j :: r.value < j < |rows| ==> rows[j].model_id != id
    ensures r.None? <==> acc.None? && forall j :: i <= j < |rows| ==> rows[j].model_id != id
    ensures (exists j :: i <= j < |rows| && rows[j].model_id == id) ==> r.Some? && r.value >= i
    ensures (forall j :: i <= j < |rows| ==> rows[j].model_id != id) ==> r == acc
    decreases |rows| - i
  {
    if i == |rows| then acc
    else LastMatch(rows, id, i + 1, if rows[i].model_id == id then Some(i) else acc)
  }

  /** The key codes the driver treats as pad buttons, in bit order. */
  const PadKeyCodes: seq<int> := [
    BTN_0, BTN_0 + 1, BTN_0 + 2, BTN_0 + 3, BTN_0 + 4,
    BTN_0 + 5, BTN_0 + 6, BTN_0 + 7, BTN_0 + 8, BTN_0 + 9,
    BTN_A, BTN_B, BTN_C, BTN_X, BTN_Y, BTN_Z,
    BTN_BASE, BTN_BASE2, BTN_BASE3,
    BTN_BASE4, BTN_BASE5, BTN_BASE6,
    BTN_TL, BTN_TR, BTN_TL2, BTN_TR2, BTN_SELECT
  ]

  /** The codes of `codes` the device declares, in order. */
  function FilterDeclared(codes: seq<int>, keys: set<int>): (r: seq<int>)
    ensures |r| <= |codes|
    ensures forall c :: c in r <==> c in codes && c in keys
    ensures (forall i, j :: 0 <= i < j < |codes| ==> codes[i] != codes[j]) ==>
              forall i, j :: 0 <= i < j < |r| ==> r[i] != r[j]
  {
    if |codes| == 0 then []
    else
      var rest := FilterDeclared(codes[1..], keys);
      assert forall c :: c in codes[1..] ==> c in codes;
      assert (forall i, j :: 0 <= i < j < |codes| ==> codes[i] != codes[j]) ==> codes[0] !in codes[1..];
      if codes[0] in keys then [codes[0]] + rest else rest
  }

  /** How many of `codes` the device declares. */
  function CountDeclared(codes: seq<int>, keys: set<int>): nat {
    if |codes| == 0 then 0 else (if codes[0] in keys then 1 else 0) + CountDeclared(codes[1..], keys)
  }

  /**
   * The filter keeps table order: it holds one code per declared code of
   * the table, and a declared code sits at the position given by the
   * number of declared codes before it in the table.
   */
  lemma {:induction false} FilterDeclaredPlaces(codes: seq<int>, keys: set<int>)
    ensures |FilterDeclared(codes, keys)| == CountDeclared(codes, keys)
    ensures forall i :: 0 <= i < |codes| && codes[i] in keys ==>
              CountDeclared(codes[..i], keys) < |FilterDeclared(codes, keys)| &&
              FilterDeclared(codes, keys)[CountDeclared(codes[..i], keys)] == codes[i]
    decreases |codes|
  {
    if |codes| > 0 {
      var rest := codes[1..];
      FilterDeclaredPlaces(rest, keys);
      var fr := FilterDeclared(rest, keys);
      var r := FilterDeclared(codes, keys);
      var b := if codes[0] in keys then 1 else 0;
      assert r == if codes[0] in keys then [codes[0]] + fr else fr;
      assert CountDeclared(codes[..0], keys) == 0 by { assert codes[..0] == []; }
      forall i | 1 <= i < |codes| && codes[i] in keys
        ensures CountDeclared(codes[..i], keys) < |r| && r[CountDeclared(codes[..i], keys)] == codes[i]
      {
        CountPrefix(codes, keys, i);
        assert rest[i - 1] == codes[i];
        assert fr[CountDeclared(rest[..i - 1], keys)] == codes[i];
      }
    }
  }

  /** Counting over a prefix: the first code, then the rest of the prefix. */
  lemma CountPrefix(codes: seq<int>, keys: set<int>, i: nat)
    requires 1 <= i <= |codes|
    ensures CountDeclared(codes[..i], keys) == (if codes[0] in keys then 1 else 0) + CountDeclared(codes[1..][..i - 1], keys)
  {
    assert codes[..i][0] == codes[0];
    assert codes[..i][1..] == codes[1..][..i - 1];
  }

  /** The number of mouse buttons from the highest mouse button code declared. */
  function ButtonCount(keys: set<int>): (n: int)
    ensures 5 <= n <= 10
    ensures n == 10 <==> BTN_TASK in keys
    ensures n == 9 <==> BTN_TASK !in keys && BTN_BACK in keys
    ensures n == 8 <==> BTN_TASK !in keys && BTN_BACK !in keys && BTN_FORWARD in keys
    ensures n == 7 <==> BTN_TASK !in keys && BTN_BACK !in keys && BTN_FORWARD !in keys && BTN_EXTRA in keys
    ensures n == 6 <==> BTN_TASK !in keys && BTN_BACK !in keys && BTN_FORWARD !in keys &&
                        BTN_EXTRA !in keys && BTN_SIDE in keys
  {
    if BTN_TASK in keys then 10
    else if BTN_BACK in keys then 9
    else if BTN_FORWARD in keys then 8
    else if BTN_EXTRA in keys then 7
    else if BTN_SIDE in keys then 6
    else 5
  }

  /**
   * The tablet facts `usbWcmInit` settles. A `model` of `None` stands for
   * no model yet before the init and for `usbUnknown` after it.
   */
  datatype UsbCommon = UsbCommon(tablet_id: int, model: Option<UsbModel>, resolX: int, resolY: int,
                                 padkeys: seq<int>, nbuttons: int, tilt: bool)

  /** The value `usbWcmInit` returns, and the tablet record it leaves behind. */
  datatype InitOutcome = InitOutcome(status: int, common: UsbCommon)

  /** True when some row of the table carries product id `product`. */
  predicate InTable(product: int) {
    exists i :: 0 <= i < |ModelTable| && ModelTable[i].model_id == product
  }

  /** Row `i` is the last of `rows` carrying product id `product`. */
  predicate LastRow(rows: seq<ModelDesc>, i: int, product: int) {
    0 <= i < |rows| && rows[i].model_id == product && forall j :: i < j < |rows| ==> rows[j].model_id != product
  }

  /** Model and resolution from the last matching row of `rows`, or else from the record. */
  function Locate(rows: seq<ModelDesc>, product: int, prior: UsbCommon): (r: (Option<UsbModel>, int, int))
    ensures (exists i :: 0 <= i < |rows| && rows[i].model_id == product) ==>
              exists i :: LastRow(rows, i, product) && r == (Some(rows[i].model), rows[i].xRes, rows[i].yRes)
    ensures (forall i :: 0 <= i < |rows| ==> rows[i].model_id != product) ==>
              r == (if prior.model.Some? then (prior.model, prior.resolX, prior.resolY) else (None, 1016, 1016))
  {
    match LastMatch(rows, product, 0, None)
    case Some(i) => assert LastRow(rows, i, product); (Some(rows[i].model), rows[i].xRes, rows[i].yRes)
    case None => if prior.model.Some? then (prior.model, prior.resolX, prior.resolY) else (None, 1016, 1016)
  }

  /**
   * `usbWcmInit`: a Wacom vendor id takes the product id as the tablet id
   * and the last matching table row's model and resolution; with no match
   * a model already set stays, and otherwise the tablet is unknown at 1016
   * points per inch. Then the key bitmap gives the pad keys, the button
   * count and tilt. A failed key query stops there: it returns `FALSE`,
   * the successful path returns `Success`, and both are 0, so the caller
   * cannot tell them apart; the fields already set stay set.
   */
  function Init(vendor: int, product: int, prior: UsbCommon, keys: Option<set<int>>): (r: InitOutcome)
    ensures r.status == 0
    ensures vendor == WACOM_VENDOR ==> r.common.tablet_id == product
    ensures vendor != WACOM_VENDOR ==> r.common.tablet_id == prior.tablet_id
    // the last table row with the product id gives model and resolution ...
    ensures vendor == WACOM_VENDOR && InTable(product) ==>
              exists i :: LastRow(ModelTable, i, product) && r.common.model == Some(ModelTable[i].model) &&
                          r.common.resolX == ModelTable[i].xRes && r.common.resolY == ModelTable[i].yRes
    // ... with none, a model already set stays, and otherwise the tablet is unknown
    ensures !(vendor == WACOM_VENDOR && InTable(product)) && prior.model.Some? ==>
              r.common.model == prior.model && r.common.resolX == prior.resolX && r.common.resolY == prior.resolY
    ensures !(vendor == WACOM_VENDOR && InTable(product)) && prior.model.None? ==>
              r.common.model.None? && r.common.resolX == 1016 && r.common.resolY == 1016
    // a failed key query leaves the key-derived fields as they were
    ensures keys.None? ==>
              r.common.padkeys == prior.padkeys && r.common.nbuttons == prior.nbuttons && r.common.tilt == prior.tilt
    ensures keys.Some? ==>
              (forall c :: c in r.common.padkeys <==> c in PadKeyCodes && c in keys.value) &&
              r.common.nbuttons == ButtonCount(keys.value) && r.common.tilt
    // ... in table order: a declared code takes the place of the declared codes before it
    ensures keys.Some? ==>
              |r.common.padkeys| == CountDeclared(PadKeyCodes, keys.value) &&
              forall i :: 0 <= i < |PadKeyCodes| && PadKeyCodes[i] in keys.value ==>
                CountDeclared(PadKeyCodes[..i], keys.value) < |r.common.padkeys| &&
                r.common.padkeys[CountDeclared(PadKeyCodes[..i], keys.value)] == PadKeyCodes[i]
  {
    var tid := if vendor == WACOM_VENDOR then product else prior.tablet_id;
    var (m, xr, yr) := Locate(if vendor == WACOM_VENDOR then ModelTable else [], product, prior);
    var located := prior.(tablet_id := tid, model := m, resolX := xr, resolY := yr);
    match keys
    case None => InitOutcome(0, located)
    case Some(ks) =>
      FilterDeclaredPlaces(PadKeyCodes, ks);
      InitOutcome(0, located.(padkeys := FilterDeclared(PadKeyCodes, ks), nbuttons := ButtonCount(ks), tilt := true))
  }

  /** Every product id of the table is recognised; no other id is. */
  lemma KnownProducts(product: int, prior: UsbCommon, keys: Option<set<int>>)
    requires prior.model.None?
    ensures Init(WACOM_VENDOR, product, prior, keys).common.model.Some? <==> InTable(product)
  {
  }

  /**
   * Pad keys never alias one another or the five mouse buttons: distinct
   * pad keys among the first 23 declared drive distinct `buttons` bits,
   * all from bit 8 (MAX_MOUSE_BUTTONS/2) and below the sign bit of a 32-bit `int`.
   */
  lemma PadKeysDriveDistinctBits(cfg: UsbEvents.UsbConfig, c1: int, c2: int)
    requires c1 in cfg.padkeys && c2 in cfg.padkeys && c1 != c2
    requires UsbEvents.PadKeyIndex(cfg.padkeys, c1).value < 23 && UsbEvents.PadKeyIndex(cfg.padkeys, c2).value < 23
    ensures var k1 := UsbEvents.PadKeyIndex(cfg.padkeys, c1).value;
            var k2 := UsbEvents.PadKeyIndex(cfg.padkeys, c2).value;
            && UsbEvents.PadKeyBit(k1) != UsbEvents.PadKeyBit(k2)
            && 8 <= UsbEvents.PadKeyBit(k1) < 31 && 8 <= UsbEvents.PadKeyBit(k2) < 31
  {
  }

  /**
   * The table has 27 pad codes, so a device declaring all of them has pad
   * keys at indexes 23..26, which drive bits 31..34: the sign bit of a
   * 32-bit `int` and shifts past its width.
   */
  lemma PadKeysReachBit34(ks: set<int>)
    requires forall i :: 0 <= i < |PadKeyCodes| ==> PadKeyCodes[i] in ks
    ensures var padkeys := FilterDeclared(PadKeyCodes, ks);
            |padkeys| == 27 && UsbEvents.PadKeyBit(|padkeys| - 1) == 34
  {
    var padkeys := FilterDeclared(PadKeyCodes, ks);
    FilterAll(PadKeyCodes, ks);
  }

  /** Filtering by a set holding every code keeps every code. */
  lemma {:induction false} FilterAll(codes: seq<int>, ks: set<int>)
    requires forall i :: 0 <= i < |codes| ==> codes[i] in ks
    ensures FilterDeclared(codes, ks) == codes
    decreases |codes|
  {
    if |codes| > 0 {
      var rest := codes[1..];
      assert codes == [codes[0]] + rest;
      assert forall i :: 0 <= i < |rest| ==> rest[i] == codes[i + 1];
      FilterAll(rest, ks);
    }
  }
}

=== FILE: wrappers.dfy ===
/** Optional values and error-carrying results. */
module Wrappers {
  datatype Option<T> = None | Some(value: T)

  /** A computation that either produces a value or fails with a status code. */
  datatype Result<T> = Success(value: T) | Failure(error: int)
}

=== FILE: x_properties.dfy ===
/**
 * The X input-device property handlers of wcmXCommand.c: the lookup of an
 * atom in the button/wheel/strip action lists, the sanity check of an
 * action property, the wheel and strip handler, `wcmSetProperty` with its
 * size/format/range checks and its `checkonly` discipline (the server
 * first asks whether a change would be accepted, then applies it),
 * `wcmDeleteProperty` and the mode switch.
 *
 * Property values are the items of an X property: `format` is 8, 16 or
 * 32, and each item is the unsigned value of that width. Which atoms name
 * valid, retrievable properties on the device is a parameter (`known`),
 * as is the pressure-curve validator, whose source is not part of this
 * model.
 */
module XProperties {
  import opened Bits
  import opened Consts

  const XA_ATOM: int := 4
  const XA_INTEGER: int := 19

  /** Device modes and the mode-switch error of the X input extension. */
  const Relative: int := 0
  const Absolute: int := 1
  const XI_BadMode: int := 2

  // ---- Actions ----

  const AC_KEY: int := 0x1_0000
  const AC_MODETOGGLE: int := 0x2_0000
  const AC_DBLCLICK: int := 0x3_0000
  const AC_DISPLAYTOGGLE: int := 0x4_0000
  const AC_BUTTON: int := 0x8_0000

  /** `v & AC_CODE`: the low 16 bits, a button number or key code. */
  function ActionCode(v: u32): (c: nat)
    ensures c < 0x1_0000
  {
    v % 0x1_0000
  }

  /** `v & AC_TYPE`: bits 16..19, the kind of action. */
  function ActionType(v: u32): (t: nat)
    ensures t % 0x1_0000 == 0 && t < 0x10_0000
  {
    ((v / 0x1_0000) % 16) * 0x1_0000
  }

  /** An action the sanity check accepts: a key, a button up to the highest mouse button, a display or mode toggle. */
  predicate ValidAction(v: u32) {
    var t := ActionType(v);
    t == AC_KEY || t == AC_DISPLAYTOGGLE || t == AC_MODETOGGLE ||
    (t == AC_BUTTON && ActionCode(v) <= WCM_MAX_MOUSE_BUTTONS)
  }

  datatype PropValue = PropValue(ptype: int, format: int, data: seq<u32>)

  /**
   * `wcmSanityCheckProperty`: fewer than 255 items, format 32, type
   * INTEGER (else BadMatch), and every item a valid action (else
   * BadValue; a double-click or an empty action is not one).
   */
  method SanityCheck(v: PropValue) returns (r: int)
    ensures r == BadMatch <==> |v.data| >= 255 || v.format != 32 || v.ptype != XA_INTEGER
    ensures r == Success <==> r != BadMatch && forall j :: 0 <= j < |v.data| ==> ValidAction(v.data[j])
    ensures r == BadValue <==> r != BadMatch && exists j :: 0 <= j < |v.data| && !ValidAction(v.data[j])
  {
    if |v.data| >= 255 || v.format != 32 || v.ptype != XA_INTEGER {
      return BadMatch;
    }
    var j := 0;
    while j < |v.data|
      invariant 0 <= j <= |v.data|
      invariant forall k :: 0 <= k < j ==> ValidAction(v.data[k])
    {
      var code := ActionCode(v.data[j]);
      var t := ActionType(v.data[j]);
      if t == AC_KEY {
      } else if t == AC_BUTTON {
        if code > WCM_MAX_MOUSE_BUTTONS {
          return BadValue;
        }
      } else if t == AC_DISPLAYTOGGLE || t == AC_MODETOGGLE {
      } else {
        return BadValue;
      }
      j := j + 1;
    }
    return Success;
  }

  /** `wcmFindProp`: the index of the first occurrence of `atom`, or `-BadAtom`. */
  method FindProp(atom: int, list: seq<int>) returns (r: int)
    ensures r == -BadAtom <==> atom !in list
    ensures r != -BadAtom ==> 0 <= r < |list| && list[r] == atom && forall k :: 0 <= k < r ==> list[k] != atom
  {
    var i := 0;
    while i < |list|
      invariant 0 <= i <= |list|
      invariant forall k :: 0 <= k < i ==> list[k] != atom
    {
      if list[i] == atom {
        return i;
      }
      i := i + 1;
    }
    return -BadAtom;
  }

  // ---- Device state touched by the handlers ----

  datatype DeviceKind = Stylus | Eraser | Cursor | Pad | Touch

  /** The per-device fields the handlers read or write. */
  datatype Priv = Priv(
    kind: DeviceKind,
    topX: int, topY: int, bottomX: int, bottomY: int, maxX: int, maxY: int,
    curve: seq<int>,
    wheel: seq<int>,           // relup, reldn, wheelup, wheeldn
    strip: seq<int>,           // striplup, stripldn, striprup, striprdn
    btnActions: seq<int>, wheelActions: seq<int>, stripActions: seq<int>)

  /** The per-tablet fields the handlers read or write. */
  datatype Common = Common(
    suppress: int, rawSample: int, rotate: int, maxDist: int, cursorProxoutDist: int,
    capacity: int, threshold: int, touch: int, gesture: int,
    zoomDistance: int, scrollDistance: int, tapTime: int, tpcButton: int)

  datatype State = State(priv: Priv, common: Common)

  datatype SetResult = SetResult(status: int, st: State)

  /** The driver's property atoms, compared in this order. */
  datatype Atoms = Atoms(
    tabletArea: int, pressureCurve: int, suppress: int, rotation: int, serials: int,
    stripButtons: int, wheelButtons: int, cursorProx: int, capacity: int, threshold: int,
    touch: int, gesture: int, gestureParam: int, hover: int, btnActions: int)

  /** The driver's property atoms in the order `wcmSetProperty` compares them; a prefix is the atoms tried before one. */
  function OwnedAtoms(atoms: Atoms): (r: seq<int>)
    ensures |r| == 15
  {
    [atoms.tabletArea, atoms.pressureCurve, atoms.suppress, atoms.rotation, atoms.serials,
     atoms.stripButtons, atoms.wheelButtons, atoms.cursorProx, atoms.capacity, atoms.threshold,
     atoms.touch, atoms.gesture, atoms.gestureParam, atoms.hover, atoms.btnActions]
  }

  /** What the handlers cannot see: which atoms name valid, retrievable properties, and the pressure-curve validator. */
  datatype Env = Env(known: set<int>, curveOk: seq<int> -> bool)

  /** An 8-bit item. */
  function Card8(v: PropValue, k: nat): (b: nat)
    requires k < |v.data|
    ensures b < 256
  {
    v.data[k] % 256
  }

  /** A 32-bit item read as a signed `INT32`. */
  function Int32At(v: PropValue, k: nat): (i: int)
    requires k < |v.data|
    ensures -TWO31 <= i < TWO31 && U32(i) == v.data[k]
  {
    Int32(v.data[k])
  }

  /**
   * `wcmCheckActionProp`: every non-empty item must name a valid,
   * retrievable property other than the one being set.
   */
  predicate ActionRefsOk(property: int, v: PropValue, env: Env) {
    forall k :: 0 <= k < |v.data| && v.data[k] != 0 ==> v.data[k] != property && v.data[k] in env.known
  }

  /** What the wheel and strip handler accepts: four button numbers as 8-bit items, or four action references as 32-bit items. */
  predicate WheelOrStripAccepts(property: int, v: PropValue, env: Env) {
    |v.data| == 4 &&
    ((v.format == 8 && forall k :: 0 <= k < 4 ==> Card8(v, k) <= WCM_MAX_MOUSE_BUTTONS) ||
     (v.format == 32 && ActionRefsOk(property, v, env)))
  }

  /**
   * `wcmSetWheelOrStripProperty`: exactly four items; as 8-bit values
   * they are button numbers (none above the highest mouse button) stored
   * in the four fields; as 32-bit values they are references to action
   * properties, which become the handler list; any other format is
   * BadMatch. Nothing is stored when only checking.
   */
  function WheelOrStrip(property: int, v: PropValue, checkonly: bool, env: Env, fields: seq<int>, handlers: seq<int>)
    : (r: (int, seq<int>, seq<int>))
    ensures |v.data| != 4 ==> r.0 == BadValue
    ensures |v.data| == 4 && v.format == 8 ==>
              (r.0 == Success <==> forall k :: 0 <= k < 4 ==> Card8(v, k) <= WCM_MAX_MOUSE_BUTTONS)
    ensures |v.data| == 4 && v.format == 32 ==> (r.0 == Success <==> ActionRefsOk(property, v, env))
    ensures |v.data| == 4 && v.format != 8 && v.format != 32 ==> r.0 == BadMatch
    ensures r.0 != Success || checkonly ==> r.1 == fields && r.2 == handlers
    ensures r.0 == Success && !checkonly && v.format == 8 ==>
              r.1 == [Card8(v, 0), Card8(v, 1), Card8(v, 2), Card8(v, 3)] && r.2 == handlers
    ensures r.0 == Success && !checkonly && v.format == 32 ==> r.1 == fields && r.2 == v.data
  {
    if |v.data| != 4 then (BadValue, fields, handlers)
    else if v.format == 8 then
      if Card8(v, 0) > WCM_MAX_MOUSE_BUTTONS || Card8(v, 1) > WCM_MAX_MOUSE_BUTTONS ||
         Card8(v, 2) > WCM_MAX_MOUSE_BUTTONS || Card8(v, 3) > WCM_MAX_MOUSE_BUTTONS then (BadValue, fields, handlers)
      else if checkonly then (Success, fields, handlers)
      else (Success, [Card8(v, 0), Card8(v, 1), Card8(v, 2), Card8(v, 3)], handlers)
    else if v.format == 32 then
      if !ActionRefsOk(property, v, env) then (BadValue, fields, handlers)
      else if checkonly then (Success, fields, handlers)
      else (Success, fields, v.data)
    else (BadMatch, fields, handlers)
  }

  // ---- wcmSetProperty, one handler per property ----

  /** Tablet area: four 32-bit items; all four -1 means the whole tablet. */
  function SetTabletArea(st: State, v: PropValue, checkonly: bool): (r: SetResult)
    ensures r.status == Success <==> |v.data| == 4 && v.format == 32
    ensures r.status != Success || checkonly ==> r.st == st
    ensures r.status == Success && !checkonly ==>
              var p := r.st.priv;
              var whole := forall k :: 0 <= k < 4 ==> Int32At(v, k) == -1;
              && r.st.common == st.common
              && p == st.priv.(topX := p.topX, topY := p.topY, bottomX := p.bottomX, bottomY := p.bottomY)
              && (whole ==> p.topX == 0 && p.topY == 0 && p.bottomX == st.priv.maxX && p.bottomY == st.priv.maxY)
              && (!whole ==> [p.topX, p.topY, p.bottomX, p.bottomY] == [Int32At(v, 0), Int32At(v, 1), Int32At(v, 2), Int32At(v, 3)])
  {
    if |v.data| != 4 || v.format != 32 then SetResult(BadValue, st)
    else if checkonly then SetResult(Success, st)
    else
      var vals := [Int32At(v, 0), Int32At(v, 1), Int32At(v, 2), Int32At(v, 3)];
      var area := if vals == [-1, -1, -1, -1] then [0, 0, st.priv.maxX, st.priv.maxY] else vals;
      SetResult(Success, st.(priv := st.priv.(topX := area[0], topY := area[1], bottomX := area[2], bottomY := area[3])))
  }

  /** Pressure curve: four 32-bit control values the curve validator accepts, on a pen or eraser. */
  function SetPressureCurve(st: State, v: PropValue, checkonly: bool, env: Env): (r: SetResult)
    ensures r.status == Success <==>
              |v.data| == 4 && v.format == 32 && env.curveOk(seq(4, k requires 0 <= k < 4 => Int32At(v, k))) &&
              st.priv.kind !in {Cursor, Pad, Touch}
    ensures r.status != Success ==> r.status == BadValue
    ensures r.status != Success || checkonly ==> r.st == st
    ensures r.status == Success && !checkonly ==>
              r.st == st.(priv := st.priv.(curve := seq(4, k requires 0 <= k < 4 => Int32At(v, k))))
  {
    if |v.data| != 4 || v.format != 32 then SetResult(BadValue, st)
    else
      var pcurve := seq(4, k requires 0 <= k < 4 => Int32At(v, k));
      if !env.curveOk(pcurve) then SetResult(BadValue, st)
      else if st.priv.kind in {Cursor, Pad, Touch} then SetResult(BadValue, st)
      else if checkonly then SetResult(Success, st)
      else SetResult(Success, st.(priv := st.priv.(curve := pcurve)))
  }

  /** Suppress and raw sample: two 32-bit items, suppress at most 100, sample count in 1..MAX_SAMPLES. */
  function SetSuppress(st: State, v: PropValue, checkonly: bool): (r: SetResult)
    ensures r.status == Success <==>
              |v.data| == 2 && v.format == 32 && v.data[0] <= 100 && 1 <= v.data[1] <= MAX_SAMPLES
    ensures r.status != Success ==> r.status == BadValue
    ensures r.status != Success || checkonly ==> r.st == st
    ensures r.status == Success && !checkonly ==>
              r.st == st.(common := st.common.(suppress := v.data[0], rawSample := v.data[1]))
  {
    if |v.data| != 2 || v.format != 32 then SetResult(BadValue, st)
    else if v.data[0] > 100 then SetResult(BadValue, st)
    else if v.data[1] < 1 || v.data[1] > MAX_SAMPLES then SetResult(BadValue, st)
    else if checkonly then SetResult(Success, st)
    else SetResult(Success, st.(common := st.common.(suppress := v.data[0], rawSample := v.data[1])))
  }

  /** Rotation: one 8-bit item, 0..3; a change rotates the tablet. */
  function SetRotation(st: State, v: PropValue, checkonly: bool): (r: SetResult)
    ensures r.status == Success <==> |v.data| == 1 && v.format == 8 && Card8(v, 0) <= 3
    ensures r.status != Success ==> r.status == BadValue
    ensures r.status != Success || checkonly ==> r.st == st
    ensures r.status == Success && !checkonly ==> r.st == st.(common := st.common.(rotate := Card8(v, 0)))
  {
    if |v.data| != 1 || v.format != 8 then SetResult(BadValue, st)
    else if Card8(v, 0) > 3 then SetResult(BadValue, st)
    else if !checkonly && st.common.rotate != Card8(v, 0) then
      SetResult(Success, st.(common := st.common.(rotate := Card8(v, 0))))
    else SetResult(Success, st)
  }

  /** Cursor proximity distance: one 32-bit item on a cursor, at most the tablet's maximum distance. */
  function SetCursorProx(st: State, v: PropValue, checkonly: bool): (r: SetResult)
    ensures r.status == Success <==>
              |v.data| == 1 && v.format == 32 && st.priv.kind == Cursor && v.data[0] <= U32(st.common.maxDist)
    ensures r.status != Success ==> r.status == BadValue
    ensures r.status != Success || checkonly ==> r.st == st
    ensures r.status == Success && !checkonly ==> r.st == st.(common := st.common.(cursorProxoutDist := v.data[0]))
  {
    if |v.data| != 1 || v.format != 32 then SetResult(BadValue, st)
    else if st.priv.kind != Cursor then SetResult(BadValue, st)
    else if v.data[0] > U32(st.common.maxDist) then SetResult(BadValue, st)
    else if checkonly then SetResult(Success, st)
    else SetResult(Success, st.(common := st.common.(cursorProxoutDist := v.data[0])))
  }

  /** Touch capacity: one signed 32-bit item in -1..5. */
  function SetCapacity(st: State, v: PropValue, checkonly: bool): (r: SetResult)
    ensures r.status == Success <==> |v.data| == 1 && v.format == 32 && -1 <= Int32At(v, 0) <= 5
    ensures r.status != Success ==> r.status == BadValue
    ensures r.status != Success || checkonly ==> r.st == st
    ensures r.status == Success && !checkonly ==> r.st == st.(common := st.common.(capacity := Int32At(v, 0)))
  {
    if |v.data| != 1 || v.format != 32 then SetResult(BadValue, st)
    else if Int32At(v, 0) < -1 || Int32At(v, 0) > 5 then SetResult(BadValue, st)
    else if checkonly then SetResult(Success, st)
    else SetResult(Success, st.(common := st.common.(capacity := Int32At(v, 0))))
  }

  /** Click threshold: one 32-bit item in 1..FILTER_PRESSURE_RES. */
  function SetThreshold(st: State, v: PropValue, checkonly: bool): (r: SetResult)
    ensures r.status == Success <==> |v.data| == 1 && v.format == 32 && 1 <= v.data[0] <= FILTER_PRESSURE_RES
    ensures r.status != Success ==> r.status == BadValue
    ensures r.status != Success || checkonly ==> r.st == st
    ensures r.status == Success && !checkonly ==> r.st == st.(common := st.common.(threshold := v.data[0]))
  {
    if |v.data| != 1 || v.format != 32 then SetResult(BadValue, st)
    else if v.data[0] < 1 || v.data[0] > FILTER_PRESSURE_RES then SetResult(BadValue, st)
    else if checkonly then SetResult(Success, st)
    else SetResult(Success, st.(common := st.common.(threshold := v.data[0])))
  }

  /** An on/off switch: one 8-bit item, 0 or 1. */
  predicate IsSwitch(v: PropValue) {
    |v.data| == 1 && v.format == 8 && Card8(v, 0) <= 1
  }

  /** Touch and gesture switches. */
  function SetTouch(st: State, v: PropValue, checkonly: bool): (r: SetResult)
    ensures r.status == Success <==> IsSwitch(v)
    ensures r.status != Success ==> r.status == BadValue
    ensures r.status != Success || checkonly ==> r.st == st
    ensures r.status == Success && !checkonly ==> r.st == st.(common := st.common.(touch := Card8(v, 0)))
  {
    if !IsSwitch(v) then SetResult(BadValue, st)
    else if !checkonly && st.common.touch != Card8(v, 0) then
      SetResult(Success, st.(common := st.common.(touch := Card8(v, 0))))
    else SetResult(Success, st)
  }

  function SetGesture(st: State, v: PropValue, checkonly: bool): (r: SetResult)
    ensures r.status == Success <==> IsSwitch(v)
    ensures r.status != Success ==> r.status == BadValue
    ensures r.status != Success || checkonly ==> r.st == st
    ensures r.status == Success && !checkonly ==> r.st == st.(common := st.common.(gesture := Card8(v, 0)))
  {
    if !IsSwitch(v) then SetResult(BadValue, st)
    else if !checkonly && st.common.gesture != Card8(v, 0) then
      SetResult(Success, st.(common := st.common.(gesture := Card8(v, 0))))
    else SetResult(Success, st)
  }

  /** Gesture parameters: three 32-bit items, stored in `int` fields, with no range check. */
  function SetGestureParam(st: State, v: PropValue, checkonly: bool): (r: SetResult)
    ensures r.status == Success <==> |v.data| == 3 && v.format == 32
    ensures r.status != Success ==> r.status == BadValue
    ensures r.status != Success || checkonly ==> r.st == st
    ensures r.status == Success && !checkonly ==>
              r.st == st.(common := st.common.(zoomDistance := Int32At(v, 0), scrollDistance := Int32At(v, 1),
                                               tapTime := Int32At(v, 2)))
  {
    if |v.data| != 3 || v.format != 32 then SetResult(BadValue, st)
    else if checkonly then SetResult(Success, st)
    else SetResult(Success, st.(common := st.common.(zoomDistance := Int32At(v, 0), scrollDistance := Int32At(v, 1),
                                                     tapTime := Int32At(v, 2))))
  }

  /** Hover click: an on/off switch (else BadValue) on a stylus (else BadMatch); the button mode is its negation. */
  function SetHover(st: State, v: PropValue, checkonly: bool): (r: SetResult)
    ensures !IsSwitch(v) ==> r.status == BadValue
    ensures IsSwitch(v) && st.priv.kind != Stylus ==> r.status == BadMatch
    ensures r.status == Success <==> IsSwitch(v) && st.priv.kind == Stylus
    ensures r.status != Success || checkonly ==> r.st == st
    ensures r.status == Success && !checkonly ==>
              r.st == st.(common := st.common.(tpcButton := if Card8(v, 0) == 0 then 1 else 0))
  {
    if !IsSwitch(v) then SetResult(BadValue, st)
    else if st.priv.kind != Stylus then SetResult(BadMatch, st)
    else if checkonly then SetResult(Success, st)
    else SetResult(Success, st.(common := st.common.(tpcButton := if Card8(v, 0) == 0 then 1 else 0)))
  }

  /**
   * Button actions: exactly WCM_MAX_MOUSE_BUTTONS items (else BadMatch).
   * The reference check's own status is dropped, so the answer is then
   * always Success; the list is replaced only when the items are 32-bit
   * atoms whose references check out and the call is not a check.
   */
  function SetButtonActions(property: int, st: State, v: PropValue, checkonly: bool, env: Env): (r: SetResult)
    ensures r.status == Success <==> |v.data| == WCM_MAX_MOUSE_BUTTONS
    ensures r.status != Success ==> r.status == BadMatch
    ensures r.status != Success || checkonly ==> r.st == st
    ensures r.st != st ==> r.st == st.(priv := st.priv.(btnActions := v.data))
    ensures !(v.format == 32 && v.ptype == XA_ATOM && ActionRefsOk(property, v, env)) ==> r.st == st
    ensures r.status == Success && !checkonly && v.format == 32 && v.ptype == XA_ATOM && ActionRefsOk(property, v, env) ==>
              r.st == st.(priv := st.priv.(btnActions := v.data))
  {
    if |v.data| != WCM_MAX_MOUSE_BUTTONS then SetResult(BadMatch, st)
    else if v.format != 32 || v.ptype != XA_ATOM then SetResult(Success, st)
    else if !ActionRefsOk(property, v, env) then SetResult(Success, st)
    else if checkonly then SetResult(Success, st)
    else SetResult(Success, st.(priv := st.priv.(btnActions := v.data)))
  }

  /** Wheel buttons: the wheel handler on the wheel fields; nothing but those fields and the wheel's handler list can change. */
  function SetWheel(property: int, st: State, v: PropValue, checkonly: bool, env: Env): (r: SetResult)
    ensures r.status == Success <==> WheelOrStripAccepts(property, v, env)
    ensures r.status != Success || checkonly ==> r.st == st
    ensures r.st == st.(priv := st.priv.(wheel := r.st.priv.wheel, wheelActions := r.st.priv.wheelActions))
  {
    var (status, fields, handlers) := WheelOrStrip(property, v, checkonly, env, st.priv.wheel, st.priv.wheelActions);
    SetResult(status, st.(priv := st.priv.(wheel := fields, wheelActions := handlers)))
  }

  /** Strip buttons: the same handler on the strip fields; nothing but those fields and the strip's handler list can change. */
  function SetStrip(property: int, st: State, v: PropValue, checkonly: bool, env: Env): (r: SetResult)
    ensures r.status == Success <==> WheelOrStripAccepts(property, v, env)
    ensures r.status != Success || checkonly ==> r.st == st
    ensures r.st == st.(priv := st.priv.(strip := r.st.priv.strip, stripActions := r.st.priv.stripActions))
  {
    var (status, fields, handlers) := WheelOrStrip(property, v, checkonly, env, st.priv.strip, st.priv.stripActions);
    SetResult(status, st.(priv := st.priv.(strip := fields, stripActions := handlers)))
  }

  /**
   * `wcmSetProperty`: dispatch on the property atom, the first atom in
   * `Atoms` order that matches choosing the handler. The serial numbers
   * are read-only; a property the driver does not own is accepted and
   * changes nothing here (its action tables are refreshed outside this
   * model). A call that only checks never changes any state, and a
   * rejected call changes nothing either.
   */
  function SetProperty(atoms: Atoms, env: Env, st: State, property: int, v: PropValue, checkonly: bool): (r: SetResult)
    ensures checkonly ==> r.st == st
    ensures r.status != Success ==> r.st == st
    ensures r.status in {Success, BadValue, BadMatch}
    ensures property !in OwnedAtoms(atoms) ==> r == SetResult(Success, st)
    ensures property == atoms.tabletArea ==> r == SetTabletArea(st, v, checkonly)
    ensures (property == atoms.pressureCurve && property != atoms.tabletArea) ==>
              r == SetPressureCurve(st, v, checkonly, env)
    ensures (property == atoms.suppress && property !in {atoms.tabletArea, atoms.pressureCurve}) ==>
              r == SetSuppress(st, v, checkonly)
    ensures (property == atoms.rotation && property !in {atoms.tabletArea, atoms.pressureCurve, atoms.suppress}) ==>
              r == SetRotation(st, v, checkonly)
    ensures (property == atoms.serials && property !in {atoms.tabletArea, atoms.pressureCurve, atoms.suppress, atoms.rotation}) ==>
              r == SetResult(BadValue, st)
    ensures (property == atoms.stripButtons &&
             property !in {atoms.tabletArea, atoms.pressureCurve, atoms.suppress, atoms.rotation,
                            atoms.serials}) ==>
              r == SetStrip(property, st, v, checkonly, env)
    ensures (property == atoms.wheelButtons &&
             property !in {atoms.tabletArea, atoms.pressureCurve, atoms.suppress, atoms.rotation,
                            atoms.serials, atoms.stripButtons}) ==>
              r == SetWheel(property, st, v, checkonly, env)
    ensures (property == atoms.cursorProx &&
             property !in {atoms.tabletArea, atoms.pressureCurve, atoms.suppress, atoms.rotation,
                            atoms.serials, atoms.stripButtons, atoms.wheelButtons}) ==>
              r == SetCursorProx(st, v, checkonly)
    ensures (property == atoms.capacity &&
             property !in {atoms.tabletArea, atoms.pressureCurve, atoms.suppress, atoms.rotation,
                            atoms.serials, atoms.stripButtons, atoms.wheelButtons, atoms.cursorProx}) ==>
              r == SetCapacity(st, v, checkonly)
    ensures (property == atoms.threshold &&
             property !in {atoms.tabletArea, atoms.pressureCurve, atoms.suppress, atoms.rotation,
                            atoms.serials, atoms.stripButtons, atoms.wheelButtons, atoms.cursorProx,
                            atoms.capacity}) ==>
              r == SetThreshold(st, v, checkonly)
    ensures (property == atoms.touch &&
             property !in {atoms.tabletArea, atoms.pressureCurve, atoms.suppress, atoms.rotation,
                            atoms.serials, atoms.stripButtons, atoms.wheelButtons, atoms.cursorProx,
                            atoms.capacity, atoms.threshold}) ==>
              r == SetTouch(st, v, checkonly)
    ensures (property == atoms.gesture &&
             property !in {atoms.tabletArea, atoms.pressureCurve, atoms.suppress, atoms.rotation,
                            atoms.serials, atoms.stripButtons, atoms.wheelButtons, atoms.cursorProx,
                            atoms.capacity, atoms.threshold, atoms.touch}) ==>
              r == SetGesture(st, v, checkonly)
    ensures (property == atoms.gestureParam &&
             property !in {atoms.tabletArea, atoms.pressureCurve, atoms.suppress, atoms.rotation,
                            atoms.serials, atoms.stripButtons, atoms.wheelButtons, atoms.cursorProx,
                            atoms.capacity, atoms.threshold, atoms.touch, atoms.gesture}) ==>
              r == SetGestureParam(st, v, checkonly)
    ensures (property == atoms.hover &&
             property !in {atoms.tabletArea, atoms.pressureCurve, atoms.suppress, atoms.rotation,
                            atoms.serials, atoms.stripButtons, atoms.wheelButtons, atoms.cursorProx,
                            atoms.capacity, atoms.threshold, atoms.touch, atoms.gesture,
                            atoms.gestureParam}) ==>
              r == SetHover(st, v, checkonly)
    ensures (property == atoms.btnActions &&
             property !in {atoms.tabletArea, atoms.pressureCurve, atoms.suppress, atoms.rotation,
                            atoms.serials, atoms.stripButtons, atoms.wheelButtons, atoms.cursorProx,
                            atoms.capacity, atoms.threshold, atoms.touch, atoms.gesture,
                            atoms.gestureParam, atoms.hover}) ==>
              r == SetButtonActions(property, st, v, checkonly, env)
  {
    if property == atoms.tabletArea then SetTabletArea(st, v, checkonly)
    else if property == atoms.pressureCurve then SetPressureCurve(st, v, checkonly, env)
    else if property == atoms.suppress then SetSuppress(st, v, checkonly)
    else if property == atoms.rotation then SetRotation(st, v, checkonly)
    else if property == atoms.serials then SetResult(BadValue, st)
    else if property == atoms.stripButtons then SetStrip(property, st, v, checkonly, env)
    else if property == atoms.wheelButtons then SetWheel(property, st, v, checkonly, env)
    else if property == atoms.cursorProx then SetCursorProx(st, v, checkonly)
    else if property == atoms.capacity then SetCapacity(st, v, checkonly)
    else if property == atoms.threshold then SetThreshold(st, v, checkonly)
    else if property == atoms.touch then SetTouch(st, v, checkonly)
    else if property == atoms.gesture then SetGesture(st, v, checkonly)
    else if property == atoms.gestureParam then SetGestureParam(st, v, checkonly)
    else if property == atoms.hover then SetHover(st, v, checkonly)
    else if property == atoms.btnActions then SetButtonActions(property, st, v, checkonly, env)
    else SetResult(Success, st)
  }

  /**
   * The check answers for the change: asking with `checkonly` gives the
   * same status as applying, so a change the server was told is acceptable
   * is accepted.
   */
  lemma {:induction false} CheckPredictsApply(atoms: Atoms, env: Env, st: State, property: int, v: PropValue)
    ensures SetProperty(atoms, env, st, property, v, true).status == SetProperty(atoms, env, st, property, v, false).status
  {
    var fields := if property == atoms.stripButtons then st.priv.strip else st.priv.wheel;
    var handlers := if property == atoms.stripButtons then st.priv.stripActions else st.priv.wheelActions;
    assert WheelOrStrip(property, v, true, env, fields, handlers).0 == WheelOrStrip(property, v, false, env, fields, handlers).0;
  }

  /**
   * `wcmDeleteProperty`: a property some button, wheel or strip action
   * refers to may not be deleted (BadAccess); any other may.
   */
  method DeleteProperty(priv: Priv, property: int) returns (r: int)
    ensures r == BadAccess <==> property in priv.btnActions || property in priv.wheelActions || property in priv.stripActions
    ensures r == Success <==> r != BadAccess
  {
    var i := FindProp(property, priv.btnActions);
    if i < 0 {
      i := FindProp(property, priv.wheelActions);
    }
    if i < 0 {
      i := FindProp(property, priv.stripActions);
    }
    r := if i >= 0 then BadAccess else Success;
  }

  /**
   * `wcmDevSwitchModeCall`: a pad accepts only Absolute and stays as it
   * is; any other device ends in the requested mode when it is Absolute
   * or Relative; any other mode is XI_BadMode and changes nothing.
   */
  function SwitchMode(isPad: bool, absolute: bool, mode: int): (r: (int, bool))
    ensures isPad ==> r.1 == absolute && (r.0 == Success <==> mode == Absolute)
    ensures !isPad && mode in {Absolute, Relative} ==> r == (Success, mode == Absolute)
    ensures mode !in {Absolute, Relative} ==> r == (XI_BadMode, absolute)
    ensures r.0 in {Success, XI_BadMode}
  {
    if isPad then (if mode == Absolute then Success else XI_BadMode, absolute)
    else if mode == Absolute && !absolute then (Success, true)
    else if mode == Relative && absolute then (Success, false)
    else if mode != Absolute && mode != Relative then (XI_BadMode, absolute)
    else (Success, absolute)
  }

  /** Switching twice to the same mode is the same as switching once. */
  lemma SwitchModeIdempotent(isPad: bool, absolute: bool, mode: int)
    ensures var once := SwitchMode(isPad, absolute, mode);
            SwitchMode(isPad, once.1, mode) == once
  {
  }
}
